=== FILE: README.md ===
# SYNtopia gamification and matching core, in Dafny

SYNtopia is a "consciousness-based" community platform. Members earn experience
by completing quests, which are often derived from GitHub issues. They climb
Sacred Consciousness Levels (SCL) laid out along the Fibonacci sequence, carry
a hologenetic profile of "gene keys" 1..64 grouped into 22 codon rings, and are
matched with one another by a weighted resonance score. This project models
that arithmetic and the entity state transitions as pure Dafny functions over
immutable records, and proves what the code promises about them.

The modules follow the program's files:

- `GeneKeys`, `CodonRings`, `BusinessTracks`, `ConsciousnessLevels`,
  `ConsciousnessStates`, `RingMemberships`, `Preferences`, `Users`,
  `Contributions`, `Hologenetic`, `ResonanceFactors` and
  `ResonanceConnections` are the domain entities.
- `GeneKeysCalculation`, `ResonanceService` and `SacredContributing` are the
  three services.
- `ContributionQueries` holds the repository's JPQL queries, read as filters
  over the stored rows in storage order.
- `SclProgress` is the progress summary.
- `ConsciousnessStore` and `QuestHelpers` are the frontend's level store and
  quest display helpers.
- `Wrappers`, `Enums`, `JavaMath`, `SetMath` and `Sorting` are shared helpers.

Conventions:

- A Java `null` is an `Option`.
- An exception is the `Err` case of a `Result`, with the exception's kind:
  null pointer, index out of bounds, illegal argument, or not found.
- A `double` is an exact `real`. The one `0.0/0` the code can reach is a
  `Double` value with a NaN case.
- Java's truncating `/`, `%`, `(int)` casts and `Math.round` are written out
  in `JavaMath`.
- The two `hashCode`s wrap to 32 bits explicitly.
- The database, the clock and the user lookup become inputs: stored rows, a
  timestamp, a user value.
- A `LocalDateTime` is an instant in nanoseconds, so a gap keeps its
  sub-second part until `Duration.between` floors it to whole seconds.

## Model

| member | source | states |
|---|---|---|
| GeneKeys.NewGeneKey | src/main/java/org/syntopia/consciousness/platform/domain/GeneKey.java:36-69 | stores number and line; keys 1 and 2 get their own placeholder gift, every other key "Unknown Gift" |
| GeneKeys.CodonRingOf | src/main/java/org/syntopia/consciousness/platform/domain/GeneKey.java:82-85 | for a key from 1 up the ring is (k-1) mod 22 + 1, in 1..22; below 1 Java's remainder gives a ring of at most 1 |
| GeneKeys.KeyHash | src/main/java/org/syntopia/consciousness/platform/domain/GeneKey.java:118-121 | the hash is a 32-bit int |
| GeneKeys.ComplementarySymmetric | src/main/java/org/syntopia/consciousness/platform/domain/GeneKey.java:72-75 | complementarity (sum 65) is symmetric |
| GeneKeys.ComplementaryIrreflexive | src/main/java/org/syntopia/consciousness/platform/domain/GeneKey.java:72-75 | no key is its own complement |
| GeneKeys.CodonRingPeriod | src/main/java/org/syntopia/consciousness/platform/domain/GeneKey.java:77-85 | keys 22 apart share a codon ring |
| GeneKeys.SameCodonRingIsEquivalence | src/main/java/org/syntopia/consciousness/platform/domain/GeneKey.java:77-80 | sharing a codon ring is reflexive, symmetric and transitive |
| GeneKeys.EqualsAndHashIgnoreAspects | src/main/java/org/syntopia/consciousness/platform/domain/GeneKey.java:110-121 | equal keys hash alike; equality and hash ignore the three aspects |
| CodonRings.ValuesAreNumberedInOrder | src/main/java/org/syntopia/consciousness/platform/domain/CodonRingMembership.java:13-36 | there are 22 rings, the i-th declared has number i+1, and every ring is declared |
| CodonRings.GetByGeneKey | src/main/java/org/syntopia/consciousness/platform/domain/CodonRingMembership.java:51-55 | succeeds exactly when the Java remainder index is non-negative (every key from 1 up, plus 1-22m); every ring it returns has number JavaRem(k-1, 22) + 1, which is (k-1) mod 22 + 1 for keys from 1 up; otherwise index out of bounds |
| CodonRings.FindRing | src/main/java/org/syntopia/consciousness/platform/domain/CodonRingMembership.java:58-62 | a found ring carries the number; not found means no later ring has it |
| CodonRings.GetByRingNumber | src/main/java/org/syntopia/consciousness/platform/domain/CodonRingMembership.java:57-64 | succeeds iff the number is in 1..22, with the ring of that number; otherwise IllegalArgumentException |
| CodonRings.NumberedRingIsFound | src/main/java/org/syntopia/consciousness/platform/domain/CodonRingMembership.java:57-64 | every number in 1..22 is found by the scan |
| CodonRings.GetByRingNumberRoundTrip | src/main/java/org/syntopia/consciousness/platform/domain/CodonRingMembership.java:57-64 | looking a ring up by its own number gives it back |
| CodonRings.RingNumberInjective | src/main/java/org/syntopia/consciousness/platform/domain/CodonRingMembership.java:13-36 | no two rings share a number |
| CodonRings.CompatibilityReflexive | src/main/java/org/syntopia/consciousness/platform/domain/CodonRingMembership.java:67-69 | every ring is compatible with itself |
| CodonRings.CompatibilitySymmetric | src/main/java/org/syntopia/consciousness/platform/domain/CodonRingMembership.java:67-80 | compatibility is symmetric |
| CodonRings.DistanceSymmetric | src/main/java/org/syntopia/consciousness/platform/domain/CodonRingMembership.java:78 | the ring distance does not depend on argument order |
| CodonRings.FireWaterCompatible | src/main/java/org/syntopia/consciousness/platform/domain/CodonRingMembership.java:71-75 | every fire/water pair is compatible |
| CodonRings.SameElementCompatibleIffAdjacent | src/main/java/org/syntopia/consciousness/platform/domain/CodonRingMembership.java:77-79 | two distinct rings of one element are compatible iff adjacent (distance 11 cannot occur within an element) |
| CodonRings.GetCollaborationStyle | src/main/java/org/syntopia/consciousness/platform/domain/CodonRingMembership.java:82-88 | INITIATING iff the ring number is at most 11, INTEGRATING iff it is 12..22 |
| CodonRings.GetByGeneKeyAgreesWithGeneKey | src/main/java/org/syntopia/consciousness/platform/domain/CodonRingMembership.java:51-55 | for every key from 1 up the enum lookup and GeneKey.getCodonRing name the same ring |
| CodonRings.GetByGeneKeyNegativeExample | src/main/java/org/syntopia/consciousness/platform/domain/CodonRingMembership.java:51-55 | key 0 throws, key -21 returns RING_OF_LIGHT |
| BusinessTracks.ArrayContains | src/main/java/org/syntopia/consciousness/platform/domain/BusinessTrack.java:122-127 | the scan answers true exactly when the value occurs in the array |
| BusinessTracks.FirstCompatible | src/main/java/org/syntopia/consciousness/platform/domain/BusinessTrack.java:136-140 | a result is compatible and every track declared before it is not; no result means no remaining track is compatible |
| BusinessTracks.GetRecommendedTrack | src/main/java/org/syntopia/consciousness/platform/domain/BusinessTrack.java:129-144 | a track is returned iff the profile is present and complete; a non-tech result is compatible with the lifework key, and an incompatible result (the tech default) means no track is compatible |
| BusinessTracks.TrackListed | src/main/java/org/syntopia/consciousness/platform/domain/BusinessTrack.java:14-40 | every track is among the declared values |
| BusinessTracks.EveryTrackListed | src/main/java/org/syntopia/consciousness/platform/domain/BusinessTrack.java:14-40 | the declared values cover all tracks |
| BusinessTracks.RecommendationIsFirstMatch | src/main/java/org/syntopia/consciousness/platform/domain/BusinessTrack.java:129-144 | every track declared before a compatible recommendation is incompatible with the lifework key |
| BusinessTracks.ValuesDistinct | src/main/java/org/syntopia/consciousness/platform/domain/BusinessTrack.java:14-40 | no track is declared twice |
| BusinessTracks.SharedKeyGoesToFirstTrack | src/main/java/org/syntopia/consciousness/platform/domain/BusinessTrack.java:80-140 | keys 1 and 55 also appear in the design and finance tables, yet TECH_DEVELOPER, declared first, is recommended |
| ConsciousnessLevels.FibonacciTableRecurrence | src/main/java/org/syntopia/consciousness/platform/domain/ConsciousnessLevel.java:111 | the 25-entry table starts 0, 1 and each later entry is the sum of the two before |
| ConsciousnessLevels.FibonacciTableIsFib | src/main/java/org/syntopia/consciousness/platform/domain/ConsciousnessLevel.java:111 | each table entry equals the Fibonacci number of its index |
| ConsciousnessLevels.RequirementsNonDecreasing | src/main/java/org/syntopia/consciousness/platform/domain/ConsciousnessLevel.java:34-60 | required contributions never decrease with the level, starting at 0 and ending at 46368 |
| ConsciousnessLevels.RequirementsChain | src/main/java/org/syntopia/consciousness/platform/domain/ConsciousnessLevel.java:34-60 | step-wise non-decrease of the requirements extends to any two levels |
| ConsciousnessLevels.DefinitionsFollowFibonacci | src/main/java/org/syntopia/consciousness/platform/domain/ConsciousnessLevel.java:34-60 | definition L sits at position L-1, records Fibonacci index L-1 and requires fib(L-1) contributions |
| ConsciousnessLevels.DefinitionMatchesTable | src/main/java/org/syntopia/consciousness/platform/domain/ConsciousnessLevel.java:34-60 | each definition's requirement equals the Fibonacci table entry at its position |
| ConsciousnessLevels.DefinitionMatchesTableLow | src/main/java/org/syntopia/consciousness/platform/domain/ConsciousnessLevel.java:35-47 | the same for levels 1..13 |
| ConsciousnessLevels.DefinitionMatchesTableHigh | src/main/java/org/syntopia/consciousness/platform/domain/ConsciousnessLevel.java:48-59 | the same for levels 14..25 |
| ConsciousnessLevels.SetLevel | src/main/java/org/syntopia/consciousness/platform/domain/ConsciousnessLevel.java:67-83 | succeeds iff the level is in 1..25, taking every field from that level's definition (requirement fib(L-1)); otherwise IllegalArgumentException |
| ConsciousnessLevels.DefaultLevel | src/main/java/org/syntopia/consciousness/platform/domain/ConsciousnessLevel.java:63-65 | the no-argument constructor gives level 1, "Erwachen", no contributions required |
| ConsciousnessLevels.GetNextLevel | src/main/java/org/syntopia/consciousness/platform/domain/ConsciousnessLevel.java:86-95 | below 25 the next canonical level, one the current level can progress to; at 25 the same level |
| ConsciousnessLevels.GetPreviousLevel | src/main/java/org/syntopia/consciousness/platform/domain/ConsciousnessLevel.java:97-102 | above 1 the previous canonical level; at 1 the same level |
| ConsciousnessLevels.CanonicalByLevel | src/main/java/org/syntopia/consciousness/platform/domain/ConsciousnessLevel.java:72-83 | two levels built by setLevel with the same number are identical |
| ConsciousnessLevels.NextPreviousRoundTrip | src/main/java/org/syntopia/consciousness/platform/domain/ConsciousnessLevel.java:90-102 | stepping up then down, or down then up, inside the range gives the level back |
| ConsciousnessLevels.GetFibonacciValue | src/main/java/org/syntopia/consciousness/platform/domain/ConsciousnessLevel.java:110-113 | fib(index) for an index in 0..24, fib(24) for larger ones, ArrayIndexOutOfBounds for a negative index |
| ConsciousnessLevels.FibonacciValueIsRequirement | src/main/java/org/syntopia/consciousness/platform/domain/ConsciousnessLevel.java:34-60 | for a level built by setLevel the Fibonacci value equals the required contributions |
| ConsciousnessLevels.GetCategory | src/main/java/org/syntopia/consciousness/platform/domain/ConsciousnessLevel.java:142-148 | the five categories are exactly the bands 1-5, 6-10, 11-15, 16-20 and 21 up |
| ConsciousnessLevels.PrivilegesNested | src/main/java/org/syntopia/consciousness/platform/domain/ConsciousnessLevel.java:125-139 | governance implies strategic, strategic implies leadership, leadership implies business; no gate is lost one level up |
| ConsciousnessLevels.LevelHash | src/main/java/org/syntopia/consciousness/platform/domain/ConsciousnessLevel.java:209-212 | the hash is a 32-bit int |
| ConsciousnessLevels.EqualLevelsHashAlike | src/main/java/org/syntopia/consciousness/platform/domain/ConsciousnessLevel.java:201-212 | equal levels hash alike; for valid levels equal hashes also mean equal levels |
| Users.NewUser | src/main/java/org/syntopia/consciousness/platform/domain/SyntopiaUser.java:100-105 | a new user is at SCL 1 on a level built by setLevel, with default preferences, no contributions, no tracks, no codon-ring memberships and no profile-completion stamp |
| Users.NewUserWith | src/main/java/org/syntopia/consciousness/platform/domain/SyntopiaUser.java:107-112 | the credential constructor is the default user with username, email and hash set |
| Users.HasCompletedHologeneticProfile | src/main/java/org/syntopia/consciousness/platform/domain/SyntopiaUser.java:116-121 | the stubbed profile check never holds |
| Users.HasRequiredContributionsForLevel | src/main/java/org/syntopia/consciousness/platform/domain/SyntopiaUser.java:136-147 | false from target 25 on; for 0..24 whether the COMPLETED count reaches fib(target); a negative target indexes out of bounds |
| Users.CanProgressToLevel | src/main/java/org/syntopia/consciousness/platform/domain/SyntopiaUser.java:128-134 | never true: for a user with a valid level it is false, and it throws only for a negative target above a negative level |
| Users.ProgressToNextLevel | src/main/java/org/syntopia/consciousness/platform/domain/SyntopiaUser.java:149-153 | never changes the user: for a missing or valid level the result is the user unchanged |
| Users.UserGateIsOneLevelAhead | src/main/java/org/syntopia/consciousness/platform/domain/SyntopiaUser.java:136-147 | the user gate for level L asks what the level definitions record for L+1, strictly more than their figure for L from level 3 on |
| Users.FibPositive | src/main/java/org/syntopia/consciousness/platform/domain/SyntopiaUser.java:138 | every Fibonacci number from index 1 on is positive |
| Users.GateTableNonDecreasing | src/main/java/org/syntopia/consciousness/platform/domain/SyntopiaUser.java:138-146 | the gate table never decreases, and level 25 is never reachable |
| Users.TableChain | src/main/java/org/syntopia/consciousness/platform/domain/SyntopiaUser.java:138 | step-wise non-decrease of the gate table extends to any two indices |
| Users.AddSecondaryBusinessTrack | src/main/java/org/syntopia/consciousness/platform/domain/SyntopiaUser.java:156-168 | adds the track iff a primary is set, SCL is at least 5, the track is not the primary and fewer than 3 secondaries exist, otherwise no change; at most 3 secondaries and the primary never among them are preserved |
| Users.JoinCodonRing | src/main/java/org/syntopia/consciousness/platform/domain/SyntopiaUser.java:171-182 | from SCL 3 the ring is added, below it nothing changes; a user without a level throws NullPointerException |
| Users.JoinCodonRingIdempotent | src/main/java/org/syntopia/consciousness/platform/domain/SyntopiaUser.java:171-182 | joining the same ring twice equals joining it once |
| Users.GetCompatibleCodonRings | src/main/java/org/syntopia/consciousness/platform/domain/SyntopiaUser.java:184-192 | the placeholder set {1,2,3}, each a valid ring number |
| Users.GetActivatedGeneKeys | src/main/java/org/syntopia/consciousness/platform/domain/SyntopiaUser.java:295-317 | always the four keys 1, 15, 33, 64, each in 1..64 |
| Users.GetCurrentScl | src/main/java/org/syntopia/consciousness/platform/domain/SyntopiaUser.java:319-321 | the level number, or 1 without a level; in 1..25 for a valid level |
| Users.GetRoles | src/main/java/org/syntopia/consciousness/platform/domain/SyntopiaUser.java:323-336 | starts with "USER", 1 to 4 roles; a track role iff a primary track is set; guide iff SCL at least 10, leader iff at least 20, so leader implies guide; nothing else appears |
| Users.RolesDistinct | src/main/java/org/syntopia/consciousness/platform/domain/SyntopiaUser.java:325-333 | the fixed role names differ from each other and from every track role |
| Users.UserEqualsIsIdentity | src/main/java/org/syntopia/consciousness/platform/domain/SyntopiaUser.java:338-344 | user equality is an equivalence decided by the id alone, null ids equal each other and differ from any present id |
| Contributions.NewContribution | src/main/java/org/syntopia/consciousness/platform/domain/SynContribution.java:86-89 | a new contribution is PROPOSED with difficulty 1, no XP and nothing started or completed |
| Contributions.NewQuest | src/main/java/org/syntopia/consciousness/platform/domain/SynContribution.java:91-96 | the three-argument constructor is the default contribution with user, title and quest type set, hence PROPOSED |
| Contributions.StartContribution | src/main/java/org/syntopia/consciousness/platform/domain/SynContribution.java:99-104 | PROPOSED moves to IN_PROGRESS with a start stamp; from any other status nothing changes; only status and start stamp ever change |
| Contributions.SubmitForReview | src/main/java/org/syntopia/consciousness/platform/domain/SynContribution.java:106-110 | IN_PROGRESS moves to REVIEW; from any other status nothing changes |
| Contributions.FibonacciBonusIsFib | src/main/java/org/syntopia/consciousness/platform/domain/SynContribution.java:126 | the 11-entry bonus table holds fib(0)..fib(10) |
| Contributions.ExperiencePointsFor | src/main/java/org/syntopia/consciousness/platform/domain/SynContribution.java:121-142 | fails exactly for a negative difficulty (bonus index out of bounds); with no impact and a synchronicity that is null or at most 0.8 it is 10d + 5 fib(d) for d in 0..10 and 10d above 10; with a non-negative impact it never falls below those base points |
| Contributions.ImpactScalesBasePoints | src/main/java/org/syntopia/consciousness/platform/domain/SynContribution.java:121-134 | with impact i >= -1 and no synchronicity bonus the points are the base points times (1 + i), truncated to the integer just below |
| Contributions.ImpactWithoutSynchronicity | src/main/java/org/syntopia/consciousness/platform/domain/SynContribution.java:131-134 | with no synchronicity bonus the impact scaling of the base points is the final result |
| Contributions.SynchronicityBonus | src/main/java/org/syntopia/consciousness/platform/domain/SynContribution.java:136-139 | a synchronicity above 0.8 multiplies the otherwise earned points by 1.618, truncated; one at most 0.8 gives the same points as none |
| Contributions.ExperiencePointsScenarios | src/main/java/org/syntopia/consciousness/platform/domain/SynContribution.java:121-142 | difficulty 1 earns 15, 30 with impact 1.0, 48 with impact 1.0 and synchronicity 0.9, and 15 with synchronicity exactly 0.8 |
| Contributions.ScalePoints | src/main/java/org/syntopia/consciousness/platform/domain/SynContribution.java:133-138 | an int scaled by a factor of at least one and truncated never loses points; a non-negative product is truncated to the integer just below it |
| Contributions.CompleteContribution | src/main/java/org/syntopia/consciousness/platform/domain/SynContribution.java:112-119 | from IN_PROGRESS or REVIEW it completes with the stamp, the given hours and freshly computed XP (failing only for a negative difficulty), otherwise the contribution is unchanged, so XP changes only on a real transition |
| Contributions.ExperiencePointsIncreasing | src/main/java/org/syntopia/consciousness/platform/domain/SynContribution.java:121-129 | unmodified XP rises strictly with difficulty over 1..10, is 375 at 10 and drops to 110 at 11 |
| Contributions.FibMonotone | src/main/java/org/syntopia/consciousness/platform/domain/SynContribution.java:126 | Fibonacci numbers never decrease with the index |
| Contributions.CompletedAndActiveDisjoint | src/main/java/org/syntopia/consciousness/platform/domain/SynContribution.java:148-154 | no contribution is both completed and active |
| Contributions.LinkToGitHubIssue | src/main/java/org/syntopia/consciousness/platform/domain/SynContribution.java:157-165 | stores repository, issue number and URL and nothing else; afterwards it is linked iff the repository is non-null |
| Contributions.CalculateConsciousnessImpact | src/main/java/org/syntopia/consciousness/platform/domain/SynContribution.java:168-193 | a missing quest type throws; otherwise only the impact changes, lands in [0.8, 1.2] (so the 2.0 cap never binds), is at most 1.0 without a track, and leadership quests score highest |
| Contributions.ImpactOf | src/main/java/org/syntopia/consciousness/platform/domain/SynContribution.java:170-192 | every quest type and track gives an impact in [0.8, 1.2] |
| Contributions.LifecycleMonotone | src/main/java/org/syntopia/consciousness/platform/domain/SynContribution.java:99-119 | start, submit and complete never move a contribution backwards in the lifecycle |
| Contributions.HappyPathCompletes | src/main/java/org/syntopia/consciousness/platform/domain/SynContribution.java:91-142 | a new quest started, submitted and completed is COMPLETED with 15 XP, and completing it again changes nothing |
| Contributions.CountCompleted | src/main/java/org/syntopia/consciousness/platform/domain/SyntopiaUser.java:142-144 | the COMPLETED count is at most the length, equals it iff all are COMPLETED and is 0 iff none is |
| Contributions.CountCompletedAppend | src/main/java/org/syntopia/consciousness/platform/domain/SyntopiaUser.java:142-144 | the count distributes over concatenation |
| Preferences.DefaultPreferences | src/main/java/org/syntopia/consciousness/platform/domain/UserPreferences.java:47-57 | MODERATE gamification, the deep-space theme, "DE", every toggle on and privacy 3, which allows data collection and AI recommendations |
| Preferences.ShouldShowGamificationIn | src/main/java/org/syntopia/consciousness/platform/domain/UserPreferences.java:60-76 | never under DISABLED, always under MAXIMUM; a non-gamified area only under MAXIMUM, a fully gamified one under everything but DISABLED; a null preference throws |
| Preferences.ShownAreasNested | src/main/java/org/syntopia/consciousness/platform/domain/UserPreferences.java:60-76 | an area shown under a weaker preference is shown under every stronger one (DISABLED, PROFESSIONAL, MINIMAL, MODERATE, MAXIMUM) |
| Preferences.SetPrivacyLevel | src/main/java/org/syntopia/consciousness/platform/domain/UserPreferences.java:146-151 | accepts exactly 1..5, changing only the privacy level; anything else raises IllegalArgumentException |
| Preferences.PermissionsFollowPrivacy | src/main/java/org/syntopia/consciousness/platform/domain/UserPreferences.java:89-95 | data collection with insights enabled implies AI recommendations; raising the privacy level never grants a permission |
| RingMemberships.NewMembership | src/main/java/org/syntopia/consciousness/platform/domain/UserCodonRingMembership.java:50-56 | stores user, ring and key with the activation stamp; a new membership is not a leader and has no leadership stamp |
| RingMemberships.CanBecomeLeader | src/main/java/org/syntopia/consciousness/platform/domain/UserCodonRingMembership.java:59-61 | holds iff SCL is at least 15 and the member is not yet leader; a null SCL throws on unboxing |
| RingMemberships.ActivateLeadership | src/main/java/org/syntopia/consciousness/platform/domain/UserCodonRingMembership.java:63-68 | when the member may become leader the flag is set with the stamp, otherwise nothing changes; from SCL 15 the member is leader afterwards |
| RingMemberships.ActivateLeadershipIdempotent | src/main/java/org/syntopia/consciousness/platform/domain/UserCodonRingMembership.java:63-68 | a second activation changes neither the flag nor the stamp |
| ConsciousnessStates.NewState | src/main/java/org/syntopia/consciousness/platform/domain/ConsciousnessState.java:36-41 | stores key and frequencies with coherence 0.0 and no siddhi; shadow iff shadow > gift, gift iff gift > shadow |
| ConsciousnessStates.GiftExcludesOthers | src/main/java/org/syntopia/consciousness/platform/domain/ConsciousnessState.java:44-57 | the gift frequency excludes shadow and siddhi, while shadow 5, gift 1, siddhi 10 is in both shadow and siddhi |
| ConsciousnessStates.ShadowOrGiftWithoutSiddhi | src/main/java/org/syntopia/consciousness/platform/domain/ConsciousnessState.java:44-57 | without a siddhi frequency exactly one of shadow and gift holds, and neither when the two are equal |
| ResonanceFactors.CalculateOverallResonance | src/main/java/org/syntopia/consciousness/platform/domain/ResonanceFactors.java:58-70 | 0.0 when any factor is null; with every factor in [0,1] the result is in [0,1]; four equal factors x give x (a convex combination) |
| ResonanceFactors.OverallResonanceMonotone | src/main/java/org/syntopia/consciousness/platform/domain/ResonanceFactors.java:64-69 | raising any factor never lowers the overall resonance |
| ResonanceConnections.NewConnection | src/main/java/org/syntopia/consciousness/platform/domain/ResonanceConnection.java:17-21 | stores from, to and strength unchanged and leaves the factor fields null |
| ResonanceConnections.AbsReal | src/main/java/org/syntopia/consciousness/platform/domain/ResonanceConnection.java:70 | Math.abs: non-negative and equal to x or -x |
| ResonanceConnections.GoldenRatioImpliesStrong | src/main/java/org/syntopia/consciousness/platform/domain/ResonanceConnection.java:65-71 | golden-ratio resonance implies strong resonance, and no strength in [0,1] is golden-ratio |
| Hologenetic.EmptyProfile | src/main/java/org/syntopia/consciousness/platform/domain/HologeneticProfile.java:133 | the no-argument profile has nothing set, empty collections and is unverified |
| Hologenetic.NewProfile | src/main/java/org/syntopia/consciousness/platform/domain/HologeneticProfile.java:135-141 | stores the birth data with a calculation stamp; without keys the profile is not complete |
| Hologenetic.CalculateActivationSequence | src/main/java/org/syntopia/consciousness/platform/domain/HologeneticProfile.java:144-155 | sets keys 1..4 on lines 1..4 and the stamp, nothing else |
| Hologenetic.CalculateVenusSequence | src/main/java/org/syntopia/consciousness/platform/domain/HologeneticProfile.java:157-165 | sets keys 5..8, after which the Venus sequence is present, nothing else |
| Hologenetic.KeyRun | src/main/java/org/syntopia/consciousness/platform/domain/HologeneticProfile.java:173-185 | four consecutive keys from the first, each on a line in 1..6 |
| Hologenetic.CalculatePearlSequence | src/main/java/org/syntopia/consciousness/platform/domain/HologeneticProfile.java:167-176 | replaces the pearl list with exactly the four keys 9..12, nothing else |
| Hologenetic.CalculateStarPearlSequence | src/main/java/org/syntopia/consciousness/platform/domain/HologeneticProfile.java:178-186 | replaces the star-pearl list with exactly the four keys 13..16, nothing else |
| Hologenetic.CalculateCodonRingAssociations | src/main/java/org/syntopia/consciousness/platform/domain/HologeneticProfile.java:188-198 | empty without a lifework key; otherwise exactly one ring, (k mod 22)+1 for k at least 0; nothing else changes |
| Hologenetic.GetCompatibleCodonRings | src/main/java/org/syntopia/consciousness/platform/domain/HologeneticProfile.java:201-207 | the copy contains exactly the rings the profile is compatible with |
| Hologenetic.GeneKeyResonance | src/main/java/org/syntopia/consciousness/platform/domain/HologeneticProfile.java:244-271 | one of 0, 0.3, 0.7, 1; 1 iff the keys are equal or share a line and are complementary; 0 iff neither line nor complement matches |
| Hologenetic.RingResonance | src/main/java/org/syntopia/consciousness/platform/domain/HologeneticProfile.java:234-238 | NaN iff both ring sets are empty; otherwise in [0,1] and 1 iff the sets are equal |
| Hologenetic.CalculateResonanceWith | src/main/java/org/syntopia/consciousness/platform/domain/HologeneticProfile.java:209-242 | 0 for a null or incomplete profile; for two complete profiles NaN iff neither has a ring; a finite result is in [0,1] |
| Hologenetic.GeneKeyResonanceSymmetric | src/main/java/org/syntopia/consciousness/platform/domain/HologeneticProfile.java:244-271 | key resonance is symmetric |
| Hologenetic.ResonanceSymmetric | src/main/java/org/syntopia/consciousness/platform/domain/HologeneticProfile.java:209-242 | profile resonance is symmetric |
| Hologenetic.SelfResonanceIsOne | src/main/java/org/syntopia/consciousness/platform/domain/HologeneticProfile.java:209-242 | a complete profile with a ring resonates with itself at exactly 1 |
| Hologenetic.CalculatedSequencesComplete | src/main/java/org/syntopia/consciousness/platform/domain/HologeneticProfile.java:144-165 | activation then Venus calculation leaves the profile complete; activation alone completes it iff an attraction key was already there |
| Hologenetic.ComplementarityDefinitionsDisjoint | src/main/java/org/syntopia/consciousness/platform/domain/HologeneticProfile.java:267-271 | the profile's (a+b) mod 64 rule never agrees with GeneKey's sum-65 rule: 1 and 63 pass only the first, 1 and 64 only the second |
| Hologenetic.RingFormulaShifted | src/main/java/org/syntopia/consciousness/platform/domain/HologeneticProfile.java:188-198 | the profile's ring is GeneKey's ring shifted by one place, so the two never coincide |
| ResonanceService.MapToConnection | src/main/java/org/syntopia/consciousness/platform/service/ConsciousnessResonanceService.java:337-344 | a stored edge with a null strength throws a null-pointer error when unboxed; otherwise the connection carries the partner id, the strength, the fixed "consciousness_resonance" type and the timestamp |
| ResonanceService.MapAll | src/main/java/org/syntopia/consciousness/platform/service/ConsciousnessResonanceService.java:112-114 | the mapping succeeds exactly when no row has a null strength, and then maps every row in order |
| ResonanceService.Converted | src/main/java/org/syntopia/consciousness/platform/service/ConsciousnessResonanceService.java:337-344 | the conversion keeps the number of rows and every connection has the resonance type |
| ResonanceService.FindHighResonanceConnections | src/main/java/org/syntopia/consciousness/platform/service/ConsciousnessResonanceService.java:105-122 | a null strength anywhere makes the result empty (the exception is caught); otherwise the result is a permutation of the converted rows, strongest first |
| ResonanceService.MapAllIsConverted | src/main/java/org/syntopia/consciousness/platform/service/ConsciousnessResonanceService.java:112-114 | a successful mapping means every strength was present and the result is the row-by-row conversion |
| ResonanceService.ConvertOne | src/main/java/org/syntopia/consciousness/platform/service/ConsciousnessResonanceService.java:337-344 | a successful single mapping is the conversion of that row |
| ResonanceService.SortedRowsKeepTheirOrder | src/main/java/org/syntopia/consciousness/platform/service/ConsciousnessResonanceService.java:112-116 | rows already strongest first come back in the same order |
| ResonanceService.Jaccard | src/main/java/org/syntopia/consciousness/platform/service/ConsciousnessResonanceService.java:138-142 | the overlap ratio lies in [0, 1], is 1 exactly for equal key sets and 0 exactly for disjoint ones |
| ResonanceService.SharedRingBonus | src/main/java/org/syntopia/consciousness/platform/service/ConsciousnessResonanceService.java:170-177 | the ring bonus lies in [0, 0.3], is 0 exactly when no ring is shared and 0.3 from three shared rings on |
| ResonanceService.CodonRingCompatibility | src/main/java/org/syntopia/consciousness/platform/service/ConsciousnessResonanceService.java:159-178 | with the placeholder ring distribution (always empty) the ring bonus is always 0 |
| ResonanceService.GeneKeysCompatibility | src/main/java/org/syntopia/consciousness/platform/service/ConsciousnessResonanceService.java:127-154 | an empty key list gives 0; otherwise the score lies in [0, phi/2], equals phi/2 exactly for equal key sets and 0 exactly for disjoint ones |
| ResonanceService.GeneKeysCompatibilitySymmetric | src/main/java/org/syntopia/consciousness/platform/service/ConsciousnessResonanceService.java:127-154 | swapping the two key lists does not change the compatibility |
| ResonanceService.GeneKeysCompatibilityIsConstant | src/main/java/org/syntopia/consciousness/platform/service/ConsciousnessResonanceService.java:127-154 | because every user reports the same activated keys, every pair of users gets exactly phi/2 |
| ResonanceService.SynergyForGap | src/main/java/org/syntopia/consciousness/platform/service/ConsciousnessResonanceService.java:191-203 | the synergy of a level gap lies in [0.3, 1], is 1 exactly for gap 0 and is 0.3 for gaps of 14 or more |
| ResonanceService.SynergyNonIncreasing | src/main/java/org/syntopia/consciousness/platform/service/ConsciousnessResonanceService.java:191-203 | a wider level gap never gives more synergy |
| ResonanceService.LevelSynergy | src/main/java/org/syntopia/consciousness/platform/service/ConsciousnessResonanceService.java:183-204 | an unknown level gives the neutral 0.5; otherwise the synergy lies in [0.3, 1] and is 1 exactly for equal levels |
| ResonanceService.LevelSynergySymmetric | src/main/java/org/syntopia/consciousness/platform/service/ConsciousnessResonanceService.java:183-204 | swapping the two levels does not change the synergy |
| ResonanceService.ComplementaryTrackBonus | src/main/java/org/syntopia/consciousness/platform/service/ConsciousnessResonanceService.java:315-335 | the bonus lies in [0, 0.3], is 0 exactly when no (first, second) pair complements and 0.3 from three complementing pairs on |
| ResonanceService.TrackAlignment | src/main/java/org/syntopia/consciousness/platform/service/ConsciousnessResonanceService.java:209-230 | an empty track set gives the neutral 0.5; otherwise the alignment lies in [0, 1], equal sets align fully and disjoint sets get only the complementary bonus |
| ResonanceService.AlignmentIsDirected | src/main/java/org/syntopia/consciousness/platform/service/ConsciousnessResonanceService.java:318-333 | the complementary table is directed: developer-to-designer earns 0.1, designer-to-developer earns nothing, so the alignment is not symmetric |
| ResonanceService.ExtractBusinessTracks | src/main/java/org/syntopia/consciousness/platform/service/ConsciousnessResonanceService.java:309-313 | a user's tracks are its role strings: always including "USER", between one and four of them |
| ResonanceService.RoleIsNoTableKey | src/main/java/org/syntopia/consciousness/platform/service/ConsciousnessResonanceService.java:318-323 | no role string a user can carry is a key of the complementary table |
| ResonanceService.UserTracksAreNoTableKeys | src/main/java/org/syntopia/consciousness/platform/service/ConsciousnessResonanceService.java:309-323 | no track extracted from a user is a key of the complementary table |
| ResonanceService.SharedTrackGivesQuarter | src/main/java/org/syntopia/consciousness/platform/service/ConsciousnessResonanceService.java:220-229 | two sets of at most four tracks that share one align at least 0.25 |
| ResonanceService.UserAlignmentFromRolesOnly | src/main/java/org/syntopia/consciousness/platform/service/ConsciousnessResonanceService.java:209-230 | between two users the complementary bonus is always 0 and the alignment is at least 0.25 |
| ResonanceService.FirstWindow | src/main/java/org/syntopia/consciousness/platform/service/ConsciousnessResonanceService.java:249-255 | the chosen Fibonacci window is the first one at least as long as the gap, and none exists exactly when the gap exceeds every window |
| ResonanceService.DecayBelowFloor | src/main/java/org/syntopia/consciousness/platform/service/ConsciousnessResonanceService.java:258 | past 21 hours the golden-ratio decay is below the 0.1 floor |
| ResonanceService.SynchronicityForGap | src/main/java/org/syntopia/consciousness/platform/service/ConsciousnessResonanceService.java:246-258 | the factor lies in [0.1, 1], is 1 exactly for a zero-hour gap, at least 0.7 up to 21 hours and exactly 0.1 beyond |
| ResonanceService.SynchronicityNotMonotone | src/main/java/org/syntopia/consciousness/platform/service/ConsciousnessResonanceService.java:249-255 | the windows make the factor a saw-tooth: 3 hours apart scores 0.7 but 4 hours apart scores 0.76 |
| ResonanceService.HoursApart | src/main/java/org/syntopia/consciousness/platform/service/ConsciousnessResonanceService.java:244-246 | for instants in nanoseconds, the gap is floored to whole seconds as `Duration.between` does, then truncated to hours: 0 exactly when the gap lies in [-3599 s, 3600 s), at most 21 exactly when it lies in [-79199 s, 79200 s) |
| ResonanceService.HoursApartSymmetric | src/main/java/org/syntopia/consciousness/platform/service/ConsciousnessResonanceService.java:244-246 | two instants a whole number of seconds apart are the same hours apart in either order |
| ResonanceService.HoursApartNearlySymmetric | src/main/java/org/syntopia/consciousness/platform/service/ConsciousnessResonanceService.java:244-246 | swapping the instants changes the hours apart by at most one |
| ResonanceService.HoursApartOrderMatters | src/main/java/org/syntopia/consciousness/platform/service/ConsciousnessResonanceService.java:244-246 | 3599.5 s backwards floors to -3600 s and counts as one hour, while the same gap forwards counts as none |
| ResonanceService.SynchronicityFactor | src/main/java/org/syntopia/consciousness/platform/service/ConsciousnessResonanceService.java:235-259 | an unknown activity time gives the neutral 0.5; otherwise the factor lies in [0.1, 1], is 1 exactly when the nanosecond gap lies in [-3599 s, 3600 s) and at least 0.7 exactly when it lies in [-79199 s, 79200 s) |
| ResonanceService.SynchronicitySymmetric | src/main/java/org/syntopia/consciousness/platform/service/ConsciousnessResonanceService.java:235-259 | swapping two users whose activity instants are a whole number of seconds apart does not change the synchronicity |
| ResonanceService.SynchronicityOrderMatters | src/main/java/org/syntopia/consciousness/platform/service/ConsciousnessResonanceService.java:235-259 | with activity instants 3599.5 s apart the order of the users matters: 0.7 one way, 1.0 the other |
| ResonanceService.Boost | src/main/java/org/syntopia/consciousness/platform/service/ConsciousnessResonanceService.java:283-285 | sums up to 0.8 pass unchanged; larger sums never drop unless capped at 1; the boost keeps [0, 1] |
| ResonanceService.BoostMonotone | src/main/java/org/syntopia/consciousness/platform/service/ConsciousnessResonanceService.java:283-285 | the boost never reverses the order of two sums |
| ResonanceService.RoundTo3 | src/main/java/org/syntopia/consciousness/platform/service/ConsciousnessResonanceService.java:287 | rounding moves a value by at most half a thousandth and keeps [0, 1] |
| ResonanceService.RoundTo3Monotone | src/main/java/org/syntopia/consciousness/platform/service/ConsciousnessResonanceService.java:287 | rounding never reverses the order of two values |
| ResonanceService.WeightedResonance | src/main/java/org/syntopia/consciousness/platform/service/ConsciousnessResonanceService.java:264-288 | factors in [0, 1] give a total in [0, 1] |
| ResonanceService.WeightedResonanceMonotone | src/main/java/org/syntopia/consciousness/platform/service/ConsciousnessResonanceService.java:264-288 | raising any factor never lowers the total |
| ResonanceService.PerfectFactorsGiveOne | src/main/java/org/syntopia/consciousness/platform/service/ConsciousnessResonanceService.java:264-288 | four perfect factors give exactly 1 |
| ResonanceService.UnboostedSumIsRounded | src/main/java/org/syntopia/consciousness/platform/service/ConsciousnessResonanceService.java:276-287 | a weighted sum of at most 0.8 comes back within half a thousandth |
| ResonanceService.ResonanceLevelMonotone | src/main/java/org/syntopia/consciousness/platform/service/ConsciousnessResonanceService.java:293-299 | a higher score never lands in a lower band; the high bands are exactly the scores from 0.8 on and the minimal band exactly those below 0.4 |
| ResonanceService.CalculateResonance | src/main/java/org/syntopia/consciousness/platform/service/ConsciousnessResonanceService.java:50-99 | the result is missing exactly when a user is missing; otherwise it carries both ids and the time, its total is the weighted total of its factors and lies in [0, 1], its band matches the total, and each factor lies in the range two existing users can reach |
| ResonanceService.FoundUsersNeverMinimal | src/main/java/org/syntopia/consciousness/platform/service/ConsciousnessResonanceService.java:50-99 | two existing users are never in the minimal band |
| ResonanceService.FloorsAreNotMinimal | src/main/java/org/syntopia/consciousness/platform/service/ConsciousnessResonanceService.java:264-299 | factors at or above the floors existing users reach give a total outside the minimal band |
| ResonanceService.CalculateResonanceSymmetric | src/main/java/org/syntopia/consciousness/platform/service/ConsciousnessResonanceService.java:50-99 | swapping two users whose activity instants are a whole number of seconds apart does not change the total resonance |
| GeneKeysCalculation.DaysBeforeMonotone | src/main/java/org/syntopia/consciousness/platform/service/GeneKeysCalculationService.java:290-297 | more elapsed months never give fewer days |
| GeneKeysCalculation.DayOfYear | src/main/java/org/syntopia/consciousness/platform/service/GeneKeysCalculationService.java:290-297 | a month past 13 runs the loop off the month table and throws; January (or any month up to 1) leaves the day unchanged |
| GeneKeysCalculation.CalculateDayOfYear | src/main/java/org/syntopia/consciousness/platform/service/GeneKeysCalculationService.java:290-297 | the loop computes the day plus the lengths of the months before it, failing exactly when the month table runs out |
| GeneKeysCalculation.DayOfYearRange | src/main/java/org/syntopia/consciousness/platform/service/GeneKeysCalculationService.java:290-297 | every valid date of a common year gets a day number in 1..365 |
| GeneKeysCalculation.DayOfYearPreservesOrder | src/main/java/org/syntopia/consciousness/platform/service/GeneKeysCalculationService.java:290-297 | an earlier date in the year gets a smaller day number |
| GeneKeysCalculation.WrapKey | src/main/java/org/syntopia/consciousness/platform/service/GeneKeysCalculationService.java:127-129 | a non-negative position lands in the gene keys 1..64 with the same residue modulo 64; a negative one can come out negative |
| GeneKeysCalculation.FMod64 | src/main/java/org/syntopia/consciousness/platform/service/GeneKeysCalculationService.java:126 | the double remainder by 64 keeps the sign of the dividend and stays below 64 in magnitude |
| GeneKeysCalculation.SolarPosition | src/main/java/org/syntopia/consciousness/platform/service/GeneKeysCalculationService.java:120-130 | the life-work key of a non-negative day number is a gene key 1..64 |
| GeneKeysCalculation.LunarPosition | src/main/java/org/syntopia/consciousness/platform/service/GeneKeysCalculationService.java:135-146 | the evolution key fails with an index error exactly when the day count's remainder by 12 is negative, and from 2000 on is a gene key 1..64 |
| GeneKeysCalculation.MercuryPosition | src/main/java/org/syntopia/consciousness/platform/service/GeneKeysCalculationService.java:151-161 | the radiance key of a non-negative day and hour is a gene key 1..64 |
| GeneKeysCalculation.JupiterPosition | src/main/java/org/syntopia/consciousness/platform/service/GeneKeysCalculationService.java:166-175 | the purpose key of a non-negative year and day is a gene key 1..64 |
| GeneKeysCalculation.CalculatePrimeGifts | src/main/java/org/syntopia/consciousness/platform/service/GeneKeysCalculationService.java:94-115 | only the lunar position can fail; from 2000 on all four gifts are gene keys 1..64, and the life-work gift is the solar position |
| GeneKeysCalculation.PreMillenniumBirthFails | src/main/java/org/syntopia/consciousness/platform/service/GeneKeysCalculationService.java:137-142 | a birth on 1 January 1999 makes the Fibonacci index -4 and the calculation throws |
| GeneKeysCalculation.CalculatePearlSequence | src/main/java/org/syntopia/consciousness/platform/service/GeneKeysCalculationService.java:180-194 | the sequence has 26 keys, each the base key stepped by its position times a Fibonacci number and wrapped into 1..64, starting with the base key itself |
| GeneKeysCalculation.MatchRings | src/main/java/org/syntopia/consciousness/platform/service/GeneKeysCalculationService.java:208-236 | the catalogue loop succeeds exactly when every touched ring carries a valid ring number, and never yields more matches than rings |
| GeneKeysCalculation.MatchesComeFromTouchedRings | src/main/java/org/syntopia/consciousness/platform/service/GeneKeysCalculationService.java:218-233 | every match carries the non-empty overlap of the user's keys with some catalogue ring |
| GeneKeysCalculation.TouchedRingsAreMatched | src/main/java/org/syntopia/consciousness/platform/service/GeneKeysCalculationService.java:218-233 | every catalogue ring the user's keys touch becomes a match for the ring its number names |
| GeneKeysCalculation.CodonRingMemberships | src/main/java/org/syntopia/consciousness/platform/service/GeneKeysCalculationService.java:200-237 | duplicate gift keys are rejected when the key set is built; otherwise the result fails exactly on a bad touched ring and every match's overlap is a non-empty subset of the gifts |
| GeneKeysCalculation.PowerSum | src/main/java/org/syntopia/consciousness/platform/service/GeneKeysCalculationService.java:260-266 | the Fibonacci power fails exactly when a key's remainder by 12 is negative, and otherwise lies in 4..576; non-negative keys never fail |
| GeneKeysCalculation.FibonacciBounds | src/main/java/org/syntopia/consciousness/platform/service/GeneKeysCalculationService.java:39 | every entry of the twelve-entry Fibonacci table lies in 1..144 |
| GeneKeysCalculation.PowerCanExceedTen | src/main/java/org/syntopia/consciousness/platform/service/GeneKeysCalculationService.java:260-270 | keys congruent to 11 modulo 12 give the maximal power 576 and a coherence above 10, beyond the advertised 0..10 |
| GeneKeysCalculation.AssessCurrentConsciousnessState | src/main/java/org/syntopia/consciousness/platform/service/GeneKeysCalculationService.java:242-255 | the state fails exactly when the power does; otherwise it activates the life-work key, sits in the gift frequency and not the shadow, and its coherence lies in (0, 36) |
| GeneKeysCalculation.CalculateHologeneticProfile | src/main/java/org/syntopia/consciousness/platform/service/GeneKeysCalculationService.java:52-89 | the profile is built exactly when the gifts, the ring memberships and the power all succeed, and then holds only the birth data and the build time: it is never complete and its pearl sequence is empty |
| GeneKeysCalculation.ModernBirthsFailOnlyOnDuplicatesOrCatalogue | src/main/java/org/syntopia/consciousness/platform/service/GeneKeysCalculationService.java:52-89 | from 2000 on the profile is built exactly when the four gifts are distinct and every touched catalogue ring resolves |
| SacredContributing.CalculateDifficulty | src/main/java/org/syntopia/consciousness/platform/service/SacredContributingService.java:228-239 | the difficulty is one of 1, 2, 4, 7, 10, decided by the first present label of "good first issue", "easy", "medium", "hard", "epic", and 1 when none is present or the labels are null |
| SacredContributing.TablesFollowFibonacci | src/main/java/org/syntopia/consciousness/platform/service/SacredContributingService.java:243-249 | the experience table holds five times, and the hour table half of, consecutive Fibonacci numbers |
| SacredContributing.FibUpTo13 | src/main/java/org/syntopia/consciousness/platform/service/SacredContributingService.java:243-249 | the Fibonacci numbers behind both tables, from the second to the thirteenth |
| SacredContributing.TablesStrictlyIncreasing | src/main/java/org/syntopia/consciousness/platform/service/SacredContributingService.java:243-249 | both tables rise strictly with the difficulty |
| SacredContributing.CalculateExperiencePoints | src/main/java/org/syntopia/consciousness/platform/service/SacredContributingService.java:241-245 | the points are five times a Fibonacci number fixed by the difficulty, so only 10, 15, 40, 170 or 720 occur |
| SacredContributing.EstimateHours | src/main/java/org/syntopia/consciousness/platform/service/SacredContributingService.java:247-251 | the hours are half a Fibonacci number fixed by the difficulty, so only 0.5, 1, 2.5, 10.5 or 44.5 occur |
| SacredContributing.ServiceAndEntityPointsCross | src/main/java/org/syntopia/consciousness/platform/service/SacredContributingService.java:241-245 | the service's table pays less than the entity's completion formula up to difficulty 4 and more from difficulty 7 |
| SacredContributing.DetermineQuestType | src/main/java/org/syntopia/consciousness/platform/service/SacredContributingService.java:201-211 | community or documentation labels give a community quest, otherwise a leadership label a leadership quest, otherwise a platform quest; never a hybrid quest |
| SacredContributing.DetermineBusinessTrack | src/main/java/org/syntopia/consciousness/platform/service/SacredContributingService.java:213-226 | a null title throws; otherwise a frontend label or "ui"/"vue" in the lower-cased title gives tech, then a design label or "ux" gives UX, then a business label gives business, and tech is the default |
| SacredContributing.InterfaceTitlesAreTech | src/main/java/org/syntopia/consciousness/platform/service/SacredContributingService.java:215-218 | a title containing "ui" in any casing, at any position, makes a tech quest whatever the labels |
| SacredContributing.InterfaceTitleExample | src/main/java/org/syntopia/consciousness/platform/service/SacredContributingService.java:215-218 | the title "Fix UI glitch" makes a tech quest |
| SacredContributing.GenerateSacredTitle | src/main/java/org/syntopia/consciousness/platform/service/SacredContributingService.java:178-191 | the title ends with the original title (or "null"), and its first character shows which label won: bug, then feature or enhancement, then documentation, else the default |
| SacredContributing.SacredTitleKeepsOriginal | src/main/java/org/syntopia/consciousness/platform/service/SacredContributingService.java:178-191 | under the same labels, equal decorated titles come from equal original titles |
| SacredContributing.EnhanceWithSacredContext | src/main/java/org/syntopia/consciousness/platform/service/SacredContributingService.java:193-199 | a null description becomes empty; any other is kept as a prefix of a longer text |
| SacredContributing.EnhanceIsInjective | src/main/java/org/syntopia/consciousness/platform/service/SacredContributingService.java:193-199 | distinct descriptions stay distinct after the intention is appended |
| SacredContributing.TransformIssueToQuest | src/main/java/org/syntopia/consciousness/platform/service/SacredContributingService.java:39-63 | a null title or issue number throws; otherwise the quest is proposed, owned by the user, created now and not started, carries the label-derived difficulty, points, type and track, keeps the original title as its suffix, prefers the issue's own estimate, and is linked exactly when the issue names a repository |
| SacredContributing.TrackGitHubContribution | src/main/java/org/syntopia/consciousness/platform/service/SacredContributingService.java:99-121 | a null difficulty, or a repository without an issue number, throws; otherwise the contribution is proposed, copies the request's fields, earns no points yet and is linked exactly when a repository is given |
| SacredContributing.Take | src/main/java/org/syntopia/consciousness/platform/service/SacredContributingService.java:135 | the limit keeps the first n elements, or all when there are fewer |
| SacredContributing.GetPersonalizedQuests | src/main/java/org/syntopia/consciousness/platform/service/SacredContributingService.java:126-137 | at most ten quests, in storage order, each proposed, at most two levels above the user and on the user's primary track; when fewer than ten come back every such stored quest is among them |
| SacredContributing.StartQuest | src/main/java/org/syntopia/consciousness/platform/service/SacredContributingService.java:142-148 | a missing quest is an error; a proposed one becomes in progress with its start time, any other is unchanged |
| SacredContributing.CompleteQuest | src/main/java/org/syntopia/consciousness/platform/service/SacredContributingService.java:153-159 | a missing quest is an error; one in progress or in review completes, booking its estimate as hours spent, unless its difficulty is negative; any other is unchanged |
| SacredContributing.IssueQuestRoundTrip | src/main/java/org/syntopia/consciousness/platform/service/SacredContributingService.java:142-159 | an issue-made quest that is started and then completed ends completed, with its estimate as hours spent and the entity's points replacing the table's |
| SacredContributing.GetSclName | src/main/java/org/syntopia/consciousness/platform/service/SacredContributingService.java:253-262 | levels 1 to 5 get their fixed names; any other level is named by its number |
| SacredContributing.SclNamesIdentifyLevels | src/main/java/org/syntopia/consciousness/platform/service/SacredContributingService.java:253-262 | different levels always get different names |
| SacredContributing.GetSclDescription | src/main/java/org/syntopia/consciousness/platform/service/SacredContributingService.java:264-273 | levels 1 to 5 get their own descriptions; every other level shares one |
| SacredContributing.SclDescriptionsIdentifyFirstLevels | src/main/java/org/syntopia/consciousness/platform/service/SacredContributingService.java:264-273 | two levels share a description exactly when they are equal or both lie outside 1..5 |
| SacredContributing.CalculateSclProgress | src/main/java/org/syntopia/consciousness/platform/service/SacredContributingService.java:68-94 | the summary carries the user's level, its name and description, the points and the number of the completed rows, and leaves every other field null |
| SacredContributing.CompletedFilterCount | src/main/java/org/syntopia/consciousness/platform/service/SacredContributingService.java:88-90 | keeping the completed rows keeps as many rows as the entity counts as completed |
| SacredContributing.ProgressAgreesWithQueries | src/main/java/org/syntopia/consciousness/platform/service/SacredContributingService.java:68-94 | over the user's rows the summary's count and points agree with the repository's count and sum queries |
| SacredContributing.ProgressCannotAnswerReadiness | src/main/java/org/syntopia/consciousness/platform/service/SacredContributingService.java:68-94 | because the progress fraction is never set, asking the summary for readiness throws and the quests still missing read as zero |
| ContributionQueries.Filter | src/main/java/org/syntopia/consciousness/platform/repository/SynContributionRepository.java:41-47 | a query result holds only rows of the table that meet the condition, and every such row |
| ContributionQueries.FilterAppend | src/main/java/org/syntopia/consciousness/platform/repository/SynContributionRepository.java:41-47 | querying two halves of the table and concatenating gives the query over the whole, so storage order is kept |
| ContributionQueries.FilterAll | src/main/java/org/syntopia/consciousness/platform/repository/SynContributionRepository.java:41-47 | a condition every row meets returns the table unchanged |
| ContributionQueries.FilterFilter | src/main/java/org/syntopia/consciousness/platform/repository/SynContributionRepository.java:57-60 | selecting a user's rows and then the completed ones is the completed-by-user query |
| ContributionQueries.FilterIsSubsequence | src/main/java/org/syntopia/consciousness/platform/repository/SynContributionRepository.java:41-47 | a query result is an order-preserving subsequence of the table |
| ContributionQueries.PrefixIsSubsequence | src/main/java/org/syntopia/consciousness/platform/repository/SynContributionRepository.java:41-47 | any prefix of an order-preserving subsequence is one too |
| ContributionQueries.FindAvailableQuestsForUser | src/main/java/org/syntopia/consciousness/platform/repository/SynContributionRepository.java:41-47 | exactly the proposed rows no harder than the bound and on the given track, any track when the track is null; a null bound selects nothing |
| ContributionQueries.FindCompletedContributionsByUser | src/main/java/org/syntopia/consciousness/platform/repository/SynContributionRepository.java:57-60 | exactly the completed rows of the given user; a null user selects nothing |
| ContributionQueries.CountCompletedQuestsByUser | src/main/java/org/syntopia/consciousness/platform/repository/SynContributionRepository.java:84-87 | the count never exceeds the table and is 0 for a null user |
| ContributionQueries.CountMatchesSelection | src/main/java/org/syntopia/consciousness/platform/repository/SynContributionRepository.java:84-87 | the count query equals the length of the completed-by-user selection |
| ContributionQueries.CountIsCompletedCountOfUserRows | src/main/java/org/syntopia/consciousness/platform/repository/SynContributionRepository.java:84-87 | the count equals the number of completed rows among the user's rows |
| ContributionQueries.FindByUserId | src/main/java/org/syntopia/consciousness/platform/repository/SynContributionRepository.java:31 | exactly the rows of the given user |
| ContributionQueries.SumExperiencePointsByUser | src/main/java/org/syntopia/consciousness/platform/repository/SynContributionRepository.java:92-95 | the sum is 0 when the user has no completed row, and never negative when no row's points are |
| ContributionQueries.SumOverSelection | src/main/java/org/syntopia/consciousness/platform/repository/SynContributionRepository.java:92-95 | the sum query adds up the points of exactly the completed-by-user selection |
| ContributionQueries.FindQuestsByDifficultyRange | src/main/java/org/syntopia/consciousness/platform/repository/SynContributionRepository.java:119-124 | exactly the proposed rows whose difficulty lies between both bounds inclusive; a null bound or an empty range selects nothing |
| ContributionQueries.FindHighValueQuests | src/main/java/org/syntopia/consciousness/platform/repository/SynContributionRepository.java:129-133 | exactly the proposed rows worth at least the minimum, as a permutation of the filtered table, richest first |
| ContributionQueries.FindActiveQuestsByUser | src/main/java/org/syntopia/consciousness/platform/repository/SynContributionRepository.java:138-141 | exactly the user's rows the entity calls active (in progress or review), none of which the completed query selects |
| ConsciousnessStore.IndexOf | frontend/src/stores/consciousness.ts:26 | the position on the five-step ladder, or -1 exactly for a level not on it |
| ConsciousnessStore.ConsciousnessPercentage | frontend/src/stores/consciousness.ts:24-28 | the percentage is 20 times the step number, 0 exactly for an unknown level and 100 exactly at MASTERING |
| ConsciousnessStore.LastN | frontend/src/stores/consciousness.ts:37 | the last n elements, or all of them when there are fewer |
| ConsciousnessStore.Record | frontend/src/stores/consciousness.ts:248-253 | the new event comes last, the buffer grows by one until it holds 100, and before it stand the newest earlier events in order |
| ConsciousnessStore.RecordSynchronicityEvent | frontend/src/stores/consciousness.ts:241-259 | recording changes the buffer only; the level and the metrics are untouched |
| ConsciousnessStore.RecordAll | frontend/src/stores/consciousness.ts:241-259 | a buffer of at most 100 events stays within 100 however many are recorded |
| ConsciousnessStore.LastNOfTrimmed | frontend/src/stores/consciousness.ts:248-253 | trimming to 100 before appending does not change which events survive |
| ConsciousnessStore.BufferIsWindowOfHistory | frontend/src/stores/consciousness.ts:241-259 | after any number of recordings the buffer is exactly the newest 100 events of the whole history, in order |
| ConsciousnessStore.RecentSynchronicities | frontend/src/stores/consciousness.ts:35-39 | at most ten events, a permutation of the last ten recorded, newest first |
| ConsciousnessStore.RecentOfOrderedEvents | frontend/src/stores/consciousness.ts:35-39 | when the events are already newest first, the view is the last ten unchanged |
| ConsciousnessStore.ElevateConsciousnessLevel | frontend/src/stores/consciousness.ts:261-277 | at MASTERING nothing changes; otherwise the level rises one step (an unknown level to AWAKENING), the percentage by 20, and exactly one elevation event is recorded |
| ConsciousnessStore.ResetConsciousness | frontend/src/stores/consciousness.ts:279-291 | the store is back at AWAKENING with no events and every metric 0 |
| ConsciousnessStore.FourStepsToMastery | frontend/src/stores/consciousness.ts:261-291 | from a reset store four elevations reach MASTERING with four events, and a fifth changes nothing |
| QuestHelpers.GetDifficultyColor | frontend/src/services/contributingService.ts:203-208 | every difficulty gets one of the four colours: green exactly up to 2, yellow above 2 up to 4, orange above 4 up to 7, red above 7 |
| QuestHelpers.Band | frontend/src/services/contributingService.ts:203-208 | each colour's position in the easy-to-hard order |
| QuestHelpers.DifficultyColorMonotone | frontend/src/services/contributingService.ts:203-208 | a harder quest never gets an easier colour |
| QuestHelpers.GetQuestTypeIcon | frontend/src/services/contributingService.ts:213-221 | a known quest type gets its own icon, anything else the sparkle |
| QuestHelpers.GetBusinessTrackColor | frontend/src/services/contributingService.ts:226-237 | a known track gets its own colour, anything else grey |
| QuestHelpers.QuestIconsDistinct | frontend/src/services/contributingService.ts:214-219 | all four frontend quest types have explicit icons, no two alike |
| QuestHelpers.TrackColorsDistinct | frontend/src/services/contributingService.ts:227-235 | all seven frontend tracks have explicit colours, no two alike |
| QuestHelpers.BackendOnlyNamesGetDefaults | frontend/src/services/contributingService.ts:213-237 | the backend's hybrid quest and its legal, finance and sustainability tracks fall back to the defaults |
| QuestHelpers.EnhanceQuestTitle | frontend/src/services/contributingService.ts:265-275 | the title is the type's prefix, a space and the original title; unknown types use the sparkle prefix |
| QuestHelpers.EnhanceQuestTitleInjective | frontend/src/services/contributingService.ts:265-275 | for one quest type the decorated title gives back the original |
| SclProgress.IsReadyForNextLevel | src/main/java/org/syntopia/consciousness/platform/dto/SCLProgressDto.java:84-86 | a null progress fraction throws; otherwise ready exactly when the fraction reaches 1 |
| SclProgress.CanAccessSclLevel | src/main/java/org/syntopia/consciousness/platform/dto/SCLProgressDto.java:88-90 | a null on either side throws; otherwise access exactly to levels up to the current one |
| SclProgress.AccessIsDownwardClosed | src/main/java/org/syntopia/consciousness/platform/dto/SCLProgressDto.java:88-90 | access to a level brings access to every lower level |
| SclProgress.GetQuestsUntilNextLevel | src/main/java/org/syntopia/consciousness/platform/dto/SCLProgressDto.java:92-97 | never negative, 0 when a count is unknown, and otherwise exactly the quests still missing |
| SclProgress.QuestsUntilNextLevelAntitone | src/main/java/org/syntopia/consciousness/platform/dto/SCLProgressDto.java:92-97 | completing more quests never raises the number still missing |
| SclProgress.GetXPUntilNextLevel | src/main/java/org/syntopia/consciousness/platform/dto/SCLProgressDto.java:99-104 | never negative, 0 when an amount is unknown, and otherwise exactly the experience still missing |
| SclProgress.XPUntilNextLevelAntitone | src/main/java/org/syntopia/consciousness/platform/dto/SCLProgressDto.java:99-104 | earning more experience never raises the experience still missing |
| JavaMath.JavaRem | src/main/java/org/syntopia/consciousness/platform/service/GeneKeysCalculationService.java:141 | Java's remainder by a positive divisor: it completes truncating division (a = (a / b) * b + r), has the dividend's sign, lies strictly inside (-b, b), and agrees with the mathematical residue for non-negative dividends |
| JavaMath.JavaDiv | src/main/java/org/syntopia/consciousness/platform/service/ConsciousnessResonanceService.java:244-246 | Java's integer division by a positive divisor rounds toward zero: the quotient brackets the dividend from the zero side |
| JavaMath.TruncToInt | src/main/java/org/syntopia/consciousness/platform/service/GeneKeysCalculationService.java:127 | the (int) cast of a double drops the fraction toward zero |
| JavaMath.JavaRound | src/main/java/org/syntopia/consciousness/platform/service/ConsciousnessResonanceService.java:287 | Math.round gives the nearest integer, halves rounded up |
| JavaMath.ToLower | src/main/java/org/syntopia/consciousness/platform/service/SacredContributingService.java:215 | lower-casing keeps the length and maps each character on its own |
| JavaMath.IntToDecimal | src/main/java/org/syntopia/consciousness/platform/service/SacredContributingService.java:261 | the decimal text of an integer: a leading minus exactly for negatives, followed by digits without leading zeros that read back as the magnitude |
| JavaMath.DurationSeconds | src/main/java/org/syntopia/consciousness/platform/service/ConsciousnessResonanceService.java:245 | the whole seconds of a nanosecond gap, rounded toward negative infinity |
| JavaMath.DurationSecondsNegated | src/main/java/org/syntopia/consciousness/platform/service/ConsciousnessResonanceService.java:245 | reversing a gap negates its whole seconds exactly when it is a whole number of seconds, and otherwise gives one second less |
| JavaMath.DecimalRoundTrip | src/main/java/org/syntopia/consciousness/platform/service/SacredContributingService.java:261 | reading the decimal digits of a number back gives the number |

The predicates below transcribe a one-line source test and carry no contract
of their own. Each is listed with its source lines and the members whose
contracts state its properties:

- `ResonanceService.DetermineResonanceLevel` (src/main/java/org/syntopia/consciousness/platform/service/ConsciousnessResonanceService.java:293-299): `ResonanceLevelMonotone` and `CalculateResonance`.
- `ConsciousnessStates.IsInShadowFrequency`, `IsInGiftFrequency` and `IsInSiddhiFrequency` (src/main/java/org/syntopia/consciousness/platform/domain/ConsciousnessState.java:44-57): `NewState`, `GiftExcludesOthers` and `ShadowOrGiftWithoutSiddhi`.
- `Preferences.AllowsDataCollection` and `AllowsAIRecommendations` (src/main/java/org/syntopia/consciousness/platform/domain/UserPreferences.java:89-95): `PermissionsFollowPrivacy`.
- `ConsciousnessLevels.CanProgressTo` (src/main/java/org/syntopia/consciousness/platform/domain/ConsciousnessLevel.java:86-88): `GetNextLevel`.
- `ConsciousnessLevels.AllowsBusinessTrackAdvancement`, `AllowsLeadershipRoles`, `AllowsStrategicContributions` and `AllowsPlatformGovernance` (src/main/java/org/syntopia/consciousness/platform/domain/ConsciousnessLevel.java:125-139): `PrivilegesNested`.
- `ConsciousnessLevels.LevelEquals` (src/main/java/org/syntopia/consciousness/platform/domain/ConsciousnessLevel.java:201-207): `EqualLevelsHashAlike`.
- `GeneKeys.IsComplementaryTo` (src/main/java/org/syntopia/consciousness/platform/domain/GeneKey.java:72-75): `ComplementarySymmetric` and `ComplementaryIrreflexive`.
- `GeneKeys.IsInSameCodonRing` (src/main/java/org/syntopia/consciousness/platform/domain/GeneKey.java:77-80): `SameCodonRingIsEquivalence` and `CodonRingPeriod`.
- `GeneKeys.KeyEquals` (src/main/java/org/syntopia/consciousness/platform/domain/GeneKey.java:110-116): `EqualsAndHashIgnoreAspects`.
- `CodonRings.IsCompatibleWith` (src/main/java/org/syntopia/consciousness/platform/domain/CodonRingMembership.java:67-80): `CompatibilityReflexive`, `CompatibilitySymmetric`, `FireWaterCompatible` and `SameElementCompatibleIffAdjacent`.
- `BusinessTracks.IsCompatibleWithGeneKey` (src/main/java/org/syntopia/consciousness/platform/domain/BusinessTrack.java:56-78): `FirstCompatible`, `GetRecommendedTrack` and `RecommendationIsFirstMatch`.
- `Hologenetic.IsComplete` (src/main/java/org/syntopia/consciousness/platform/domain/HologeneticProfile.java:274-281): `NewProfile`, `CalculatedSequencesComplete` and `BusinessTracks.GetRecommendedTrack`.
- `Hologenetic.HasVenusSequence`, `HasPearlSequence` and `HasStarPearlSequence` (src/main/java/org/syntopia/consciousness/platform/domain/HologeneticProfile.java:283-296): `CalculateVenusSequence`, `CalculatePearlSequence` and `CalculateStarPearlSequence`.
- `Hologenetic.IsCompatibleWithCodonRing` (src/main/java/org/syntopia/consciousness/platform/domain/HologeneticProfile.java:201-203): `GetCompatibleCodonRings`.
- `Hologenetic.AreComplementaryKeys` (src/main/java/org/syntopia/consciousness/platform/domain/HologeneticProfile.java:267-271): `GeneKeyResonance` and `ComplementarityDefinitionsDisjoint`.
- `ResonanceConnections.HasStrongResonance` and `IsGoldenRatioResonance` (src/main/java/org/syntopia/consciousness/platform/domain/ResonanceConnection.java:65-71): `GoldenRatioImpliesStrong`.
- `Contributions.IsCompleted` and `IsActive` (src/main/java/org/syntopia/consciousness/platform/domain/SynContribution.java:148-154): `CompletedAndActiveDisjoint` and `ContributionQueries.FindActiveQuestsByUser`.
- `Contributions.IsLinkedToGitHub` (src/main/java/org/syntopia/consciousness/platform/domain/SynContribution.java:163-165): `LinkToGitHubIssue`, `SacredContributing.TransformIssueToQuest` and `SacredContributing.TrackGitHubContribution`.
- `Users.CanAdvanceInBusinessTrack` (src/main/java/org/syntopia/consciousness/platform/domain/SyntopiaUser.java:156-160): `AddSecondaryBusinessTrack`.
- `Users.UserEquals` (src/main/java/org/syntopia/consciousness/platform/domain/SyntopiaUser.java:338-344): `UserEqualsIsIdentity`.

## Left out

- Persistence and I/O. The model leaves out every repository `save`, the AQL graph repositories, HTTP, logging, Spring caching and `localStorage`. Repository results and user lookups are inputs instead.
- The clock. Every `LocalDateTime.now()` or `new Date()` stamp is a parameter `now` or `timestamp`. Event ids from `crypto.randomUUID` are parameters too.
- Users.JoinCodonRing: takes a non-null ring. Java's `joinCodonRing(null)` at SCL 3 or above adds `null` to the set, and the model does not represent that.
- Users.AddSecondaryBusinessTrack: takes a non-null track. Java's `addSecondaryBusinessTrack(null)` passes the guards and adds `null` to the set, and the model does not represent that.
- Contributions.CompleteContribution: for a negative difficulty it returns the error and leaves the contribution unchanged. In Java, status, `completedAt` and `actualHours` are already set when `calculateExperiencePoints` throws, so the object is left partly mutated. The model does not reproduce that partial state.
- `SynContribution.calculateSynchronicityFactor`: it draws from `Math.random`, so it is not modelled.
- `SynContribution.isOverdue` and `UserPreferences.isInProfessionalModeTime`: both read the wall clock, so they are not modelled.
- The consciousness store's sine, minute and random metrics and its `setInterval` monitoring: these depend on the clock and on randomness.
- `averageSacredMetrics`: a plain average over the metric record, not modelled.
- `SyntopiaUser.getPersonalVision` and `addSacredIntention`: their encryption and decryption are identity stubs standing in for AES-GCM.
- `GeneKeysCalculationService.calculateBalance`, `createCulturalAdaptations` and `formatPrimeGifts`: floating-point `Math.pow` and formatting. None of them affects a result the service returns.
- `SacredContributingService.getContributionHistory` and `syncWithGitHub`: a plain repository pass-through and a fixed message.
- The repository's derived finders are not modelled: `findByUserIdOrderByCreatedAtDesc`, `findByBusinessTrackAndStatus`, `findByGithubRepository`, `findByGithubRepositoryAndGithubIssueNumber`, `findGitHubLinkedContributions`, `findRecentCompletedContributions`, `findCollaborativeQuests` and `countContributionsByUserAndTrack`. No modelled operation calls them.
- Result order of the repository queries: SQL does not fix row order, so queries without `ORDER BY` are modelled in storage order. Among equal experience points, `findHighValueQuests` keeps whatever order the sort produces.
- ResonanceService.FindHighResonanceConnections and ConsciousnessStore.RecentSynchronicities: the contracts state a descending order and a permutation, but not stability. Java's `Stream.sorted` and JavaScript's `Array.prototype.sort` keep the input order among equal strengths or timestamps, and the model leaves that order unstated.
- GeneKeysCalculation.RingData: a catalogue entry's `geneKeys` list is never null. Java builds a `HashSet` from it unchecked, so a null list would throw `NullPointerException`. The repository's catalogue is an input.
- The order of `HashSet` iteration: a ring membership's primary gene key is some element of the overlap, not a particular one.
- IEEE 754 rounding. Doubles are exact reals, so a rounding difference in the last place is not modelled. This covers the golden-ratio products inside the four position calculations and the `Math.round` in the weighted resonance. NaN appears only where `calculateResonanceWith` divides zero by zero.
- 32-bit overflow is modelled only in the two `hashCode`s. Everywhere else integers are unbounded. The `(int)` cast's saturation at the 32-bit bounds is not modelled either.
- Contributions.ExperiencePointsFor: returns 10·d plus bonuses for every difficulty. Java's `difficultyLevel * 10` wraps negative from d = 214,748,365. `trackGitHubContribution` copies a caller-supplied difficulty that has no range check, so such values can reach it.
- GeneKeysCalculation.LunarPosition: `(year - 2000) * 365` is not wrapped. Java overflows for birth years beyond about ±5.9 million, which `LocalDateTime` accepts.
- `String.toLowerCase` is modelled for ASCII letters only. Titles with other upper-case letters are lower-cased differently by Java.
- `SynContributionRepository.sumExperiencePointsByUser` returns a `Double`, but it is modelled as the exact integer sum of the points.
- JavaScript's lookup of `Object.prototype` keys (such as `"constructor"`) in the frontend's icon, colour and prefix tables is not modelled. Such a key would return an inherited value instead of the default.
- `GeneKeysCalculation.CalculateHologeneticProfile`: the service wraps any failure in its own `ConsciousnessCalculationException`. The model returns the kind of the underlying failure instead.
- `ConsciousnessStates.State`: shadow and gift frequencies are plain integers. The no-argument constructor, which leaves them null so that the frequency predicates would throw, is not modelled.
- `getSacredAngle`, `getSacredColor`, `formatExperiencePoints`, `formatEstimatedHours`, `toString` and the builders are display and formatting helpers, not modelled.
- The DTOs other than the SCL progress summary are not modelled, and neither are the frontend type files. The frontend's status enum is not modelled; only the backend's is.
- Controllers, authentication, JWT handling, the router and the frontend contributing store are not part of this model.

=== FILE: business_track.dfy ===
/** The seven business tracks, their gene-key affinity tables and the
    recommendation of a track from a hologenetic profile. */
module BusinessTracks {
  import opened Wrappers
  import GeneKeys
  import Hologenetic

  /** The tracks in declaration order. */
  datatype BusinessTrack =
    | TechDeveloper
    | BusinessDeveloper
    | UxDesigner
    | DataScientist
    | LegalAdvisor
    | FinanceAnalyst
    | SustainabilityLead

  const Values: seq<BusinessTrack> := [
    TechDeveloper, BusinessDeveloper, UxDesigner, DataScientist,
    LegalAdvisor, FinanceAnalyst, SustainabilityLead]

  /** The enum constant's `name()`. */
  function Name(t: BusinessTrack): string {
    match t
    case TechDeveloper => "TECH_DEVELOPER"
    case BusinessDeveloper => "BUSINESS_DEVELOPER"
    case UxDesigner => "UX_DESIGNER"
    case DataScientist => "DATA_SCIENTIST"
    case LegalAdvisor => "LEGAL_ADVISOR"
    case FinanceAnalyst => "FINANCE_ANALYST"
    case SustainabilityLead => "SUSTAINABILITY_LEAD"
  }

  function DisplayName(t: BusinessTrack): string {
    match t
    case TechDeveloper => "Tech Developer"
    case BusinessDeveloper => "Business Developer"
    case UxDesigner => "UX Designer"
    case DataScientist => "Data Scientist"
    case LegalAdvisor => "Legal Advisor"
    case FinanceAnalyst => "Finance Analyst"
    case SustainabilityLead => "Sustainability Lead"
  }

  /** The gene keys each track is archetypally associated with. */
  function KeyTable(t: BusinessTrack): seq<int> {
    match t
    case TechDeveloper => [1, 11, 21, 24, 34, 43, 49, 55, 62]
    case BusinessDeveloper => [7, 16, 31, 45, 54, 58, 60, 61, 63]
    case UxDesigner => [1, 14, 30, 37, 56, 64]
    case DataScientist => [4, 17, 20, 38, 48, 57, 61]
    case LegalAdvisor => [6, 18, 32, 40, 50, 51]
    case FinanceAnalyst => [14, 19, 26, 45, 54, 55]
    case SustainabilityLead => [2, 8, 15, 25, 46, 52, 58]
  }

  /** The linear scan of an `int[]` for a value. */
  method ArrayContains(items: seq<int>, value: int) returns (found: bool)
    ensures found <==> value in items
  {
    var i := 0;
    while i < |items|
      invariant 0 <= i <= |items|
      invariant forall j :: 0 <= j < i ==> items[j] != value
    {
      if items[i] == value {
        return true;
      }
      i := i + 1;
    }
    return false;
  }

  /** `isCompatibleWithGeneKey`: false for a null key, otherwise membership of
      the key number in the track's table. */
  predicate IsCompatibleWithGeneKey(t: BusinessTrack, key: Option<GeneKeys.GeneKey>) {
    key.Some? && key.value.keyNumber in KeyTable(t)
  }

  /** The first track from position `from` on that is compatible with `key`. */
  function FirstCompatible(key: GeneKeys.GeneKey, from: nat): (r: Option<BusinessTrack>)
    requires from <= |Values|
    ensures r.Some? ==> IsCompatibleWithGeneKey(r.value, Some(key))
    ensures r.Some? ==> exists i :: from <= i < |Values| && Values[i] == r.value
                          && forall j :: from <= j < i ==> !IsCompatibleWithGeneKey(Values[j], Some(key))
    ensures r.None? <==> forall i :: from <= i < |Values| ==> !IsCompatibleWithGeneKey(Values[i], Some(key))
    decreases |Values| - from
  {
    if from == |Values| then None
    else if IsCompatibleWithGeneKey(Values[from], Some(key)) then Some(Values[from])
    else FirstCompatible(key, from + 1)
  }

  /** `getRecommendedTrack`: null for a missing or incomplete profile, else the
      first track in declaration order compatible with the lifework key, and
      the tech track when none is. */
  function GetRecommendedTrack(profile: Option<Hologenetic.Profile>): (r: Option<BusinessTrack>)
    ensures r.Some? <==> profile.Some? && Hologenetic.IsComplete(profile.value)
    ensures r.Some? && r.value != TechDeveloper ==>
              IsCompatibleWithGeneKey(r.value, profile.value.lifework)
    ensures r.Some? && !IsCompatibleWithGeneKey(r.value, profile.value.lifework) ==>
              forall t :: !IsCompatibleWithGeneKey(t, profile.value.lifework)
  {
    if profile.None? || !Hologenetic.IsComplete(profile.value) then None
    else
      var key := profile.value.lifework.value;
      match FirstCompatible(key, 0)
      case Some(t) => Some(t)
      case None =>
        EveryTrackListed();
        Some(TechDeveloper)
  }

  lemma TrackListed(t: BusinessTrack)
    ensures t in Values
  {
  }

  lemma EveryTrackListed()
    ensures forall t :: t in Values
  {
    forall t ensures t in Values {
      TrackListed(t);
    }
  }

  /** A recommended track ranks no compatible track before it: every track
      listed earlier is incompatible with the lifework key. */
  lemma RecommendationIsFirstMatch(profile: Hologenetic.Profile, i: nat, j: nat)
    requires Hologenetic.IsComplete(profile)
    requires i < j < |Values|
    requires GetRecommendedTrack(Some(profile)) == Some(Values[j])
    requires IsCompatibleWithGeneKey(Values[j], profile.lifework)
    ensures !IsCompatibleWithGeneKey(Values[i], profile.lifework)
  {
    var key := profile.lifework.value;
    var r := FirstCompatible(key, 0);
    assert r == Some(Values[j]);
    var k :| 0 <= k < |Values| && Values[k] == r.value
             && forall m :: 0 <= m < k ==> !IsCompatibleWithGeneKey(Values[m], Some(key));
    ValuesDistinct(k, j);
  }

  /** No track is listed twice. */
  lemma ValuesDistinct(a: int, b: int)
    requires 0 <= a < |Values| && 0 <= b < |Values|
    requires Values[a] == Values[b]
    ensures a == b
  {
  }

  /** Key 1 sits in the tech and design tables, key 55 in the tech and
      finance tables; the tech track, declared first, is the one recommended. */
  lemma SharedKeyGoesToFirstTrack(profile: Hologenetic.Profile)
    requires Hologenetic.IsComplete(profile)
    requires profile.lifework.value.keyNumber == 1 || profile.lifework.value.keyNumber == 55
    ensures profile.lifework.value.keyNumber == 1 ==> IsCompatibleWithGeneKey(UxDesigner, profile.lifework)
    ensures profile.lifework.value.keyNumber == 55 ==> IsCompatibleWithGeneKey(FinanceAnalyst, profile.lifework)
    ensures GetRecommendedTrack(Some(profile)) == Some(TechDeveloper)
  {
  }
}

=== FILE: codon_ring.dfy ===
/** The 22 codon rings, their numbering, lookup by gene key or ring number,
    pairwise compatibility and collaboration style. */
module CodonRings {
  import opened Wrappers
  import opened JavaMath
  import GeneKeys

  /** The 22 rings in declaration order. */
  datatype CodonRing =
    | RingOfLight | RingOfLifeDeath | RingOfHumanity | RingOfIllumination
    | RingOfMatter | RingOfGaia | RingOfSeeking | RingOfWater | RingOfFire
    | RingOfTrials | RingOfArtistry | RingOfEndeavour | RingOfPersonalAlchemy
    | RingOfProsperity | RingOfTheWhirlwind | RingOfDestiny | RingOfSecrets
    | RingOfHealing | RingOfNoReturn | RingOfDivineWill | RingOfHumanBondage
    | RingOfSynthesis

  datatype CollaborationStyle = Initiating | Integrating

  /** The ring number each ring is declared with. */
  function RingNumber(r: CodonRing): int {
    match r
    case RingOfLight => 1
    case RingOfLifeDeath => 2
    case RingOfHumanity => 3
    case RingOfIllumination => 4
    case RingOfMatter => 5
    case RingOfGaia => 6
    case RingOfSeeking => 7
    case RingOfWater => 8
    case RingOfFire => 9
    case RingOfTrials => 10
    case RingOfArtistry => 11
    case RingOfEndeavour => 12
    case RingOfPersonalAlchemy => 13
    case RingOfProsperity => 14
    case RingOfTheWhirlwind => 15
    case RingOfDestiny => 16
    case RingOfSecrets => 17
    case RingOfHealing => 18
    case RingOfNoReturn => 19
    case RingOfDivineWill => 20
    case RingOfHumanBondage => 21
    case RingOfSynthesis => 22
  }

  /** `values()`: the rings in declaration order. */
  const Values: seq<CodonRing> := [
    RingOfLight, RingOfLifeDeath, RingOfHumanity, RingOfIllumination,
    RingOfMatter, RingOfGaia, RingOfSeeking, RingOfWater, RingOfFire,
    RingOfTrials, RingOfArtistry, RingOfEndeavour, RingOfPersonalAlchemy,
    RingOfProsperity, RingOfTheWhirlwind, RingOfDestiny, RingOfSecrets,
    RingOfHealing, RingOfNoReturn, RingOfDivineWill, RingOfHumanBondage,
    RingOfSynthesis]

  /** Declaration order numbers the rings 1..22, and every ring is listed. */
  lemma ValuesAreNumberedInOrder(r: CodonRing)
    ensures |Values| == 22
    ensures forall i :: 0 <= i < |Values| ==> RingNumber(Values[i]) == i + 1
    ensures r in Values
  {
  }

  /** `getByGeneKey`: `values()[(k - 1) % 22]` with Java's `%`, which throws
      when the index comes out negative. */
  function GetByGeneKey(geneKeyNumber: int): (r: Result<CodonRing>)
    ensures r.Ok? <==> geneKeyNumber >= 1 || (1 - geneKeyNumber) % 22 == 0
    ensures r.Err? ==> r.error == IndexOutOfBounds
    ensures geneKeyNumber >= 1 ==> r.Ok? && RingNumber(r.value) == (geneKeyNumber - 1) % 22 + 1
    ensures r.Ok? ==> RingNumber(r.value) == JavaRem(geneKeyNumber - 1, 22) + 1
  {
    ValuesAreNumberedInOrder(RingOfLight);
    var index := JavaRem(geneKeyNumber - 1, 22);
    if index < 0 then Err(IndexOutOfBounds) else Ok(Values[index])
  }

  /** Linear search of `values()` from position `from` for a ring number. */
  function FindRing(ringNumber: int, from: nat): (r: Option<CodonRing>)
    requires from <= |Values|
    ensures r.Some? ==> RingNumber(r.value) == ringNumber
    ensures r.None? ==> forall i :: from <= i < |Values| ==> RingNumber(Values[i]) != ringNumber
    decreases |Values| - from
  {
    if from == |Values| then None
    else if RingNumber(Values[from]) == ringNumber then Some(Values[from])
    else FindRing(ringNumber, from + 1)
  }

  /** `getByRingNumber`: the ring with that number, or `IllegalArgumentException`. */
  function GetByRingNumber(ringNumber: int): (r: Result<CodonRing>)
    ensures 1 <= ringNumber <= 22 <==> r.Ok?
    ensures r.Ok? ==> RingNumber(r.value) == ringNumber
    ensures r.Err? ==> r.error == IllegalArgument
  {
    ValuesAreNumberedInOrder(RingOfLight);
    match FindRing(ringNumber, 0)
    case Some(ring) => Ok(ring)
    case None =>
      NumberedRingIsFound(ringNumber);
      Err(IllegalArgument)
  }

  lemma NumberedRingIsFound(ringNumber: int)
    ensures 1 <= ringNumber <= 22 ==> FindRing(ringNumber, 0).Some?
  {
    if 1 <= ringNumber <= 22 {
      ValuesAreNumberedInOrder(RingOfLight);
      assert RingNumber(Values[ringNumber - 1]) == ringNumber;
    }
  }

  /** Looking a ring up by its own number gives the ring back. */
  lemma GetByRingNumberRoundTrip(r: CodonRing)
    ensures GetByRingNumber(RingNumber(r)) == Ok(r)
  {
    var found := GetByRingNumber(RingNumber(r));
    assert found.Ok?;
    RingNumberInjective(found.value, r);
  }

  lemma RingNumberInjective(a: CodonRing, b: CodonRing)
    requires RingNumber(a) == RingNumber(b)
    ensures a == b
  {
  }

  /** Fire rings are 1..11, water rings 12..22. */
  predicate IsFire(r: CodonRing) {
    RingNumber(r) <= 11
  }

  /** `isCompatibleWith`: the same ring, a fire/water pair, or rings at
      distance 1 or 11. */
  predicate IsCompatibleWith(a: CodonRing, b: CodonRing) {
    if a == b then true
    else if IsFire(a) != IsFire(b) then true
    else
      var distance := Abs(RingNumber(a) - RingNumber(b));
      distance == 1 || distance == 11
  }

  lemma CompatibilityReflexive(a: CodonRing)
    ensures IsCompatibleWith(a, a)
  {
  }

  lemma CompatibilitySymmetric(a: CodonRing, b: CodonRing)
    ensures IsCompatibleWith(a, b) <==> IsCompatibleWith(b, a)
  {
    if a != b && IsFire(a) == IsFire(b) {
      DistanceSymmetric(RingNumber(a), RingNumber(b));
    }
  }

  lemma DistanceSymmetric(x: int, y: int)
    ensures Abs(x - y) == Abs(y - x)
  {
  }

  lemma FireWaterCompatible(a: CodonRing, b: CodonRing)
    ensures IsFire(a) != IsFire(b) ==> IsCompatibleWith(a, b)
  {
  }

  /** Within one element the distance-11 case can never occur, so two distinct
      rings of the same element are compatible exactly when adjacent. */
  lemma SameElementCompatibleIffAdjacent(a: CodonRing, b: CodonRing)
    requires a != b && IsFire(a) == IsFire(b)
    ensures IsCompatibleWith(a, b) <==> Abs(RingNumber(a) - RingNumber(b)) == 1
  {
  }

  function GetCollaborationStyle(r: CodonRing): (s: CollaborationStyle)
    ensures s == Initiating <==> RingNumber(r) <= 11
    ensures s == Integrating <==> 12 <= RingNumber(r) <= 22
  {
    if RingNumber(r) <= 11 then Initiating else Integrating
  }

  /** The ring enum and `GeneKey.getCodonRing` agree on every key from 1 up. */
  lemma GetByGeneKeyAgreesWithGeneKey(k: GeneKeys.GeneKey)
    requires k.keyNumber >= 1
    ensures GetByGeneKey(k.keyNumber).Ok?
    ensures RingNumber(GetByGeneKey(k.keyNumber).value) == GeneKeys.CodonRingOf(k)
  {
  }

  /** Not every non-positive key throws: `-21` reaches index 0. */
  lemma GetByGeneKeyNegativeExample()
    ensures GetByGeneKey(0) == Err(IndexOutOfBounds)
    ensures GetByGeneKey(-21) == Ok(RingOfLight)
  {
  }
}

=== FILE: consciousness_level.dfy ===
/** The 25 SYN contribution levels (SCL): their definitions, Fibonacci
    contribution requirements, progression and privilege thresholds. */
module ConsciousnessLevels {
  import opened Wrappers
  import opened JavaMath

  /** The reference Fibonacci numbers: 0, 1, 1, 2, 3, 5, ... */
  function Fib(n: nat): nat {
    if n < 2 then n else Fib(n - 1) + Fib(n - 2)
  }

  /** The 25-entry Fibonacci table the level and the user both carry. */
  const FibonacciTable: seq<int> := [
    0, 1, 1, 2, 3, 5, 8, 13, 21, 34, 55, 89, 144, 233, 377, 610, 987, 1597,
    2584, 4181, 6765, 10946, 17711, 28657, 46368]

  lemma FibonacciTableRecurrence()
    ensures |FibonacciTable| == 25
    ensures FibonacciTable[0] == 0 && FibonacciTable[1] == 1
    ensures forall i :: 2 <= i < 25 ==> FibonacciTable[i] == FibonacciTable[i - 1] + FibonacciTable[i - 2]
  {
  }

  /** Each table entry is the Fibonacci number of its index. */
  lemma {:induction false} FibonacciTableIsFib(i: nat)
    requires i < |FibonacciTable|
    ensures FibonacciTable[i] == Fib(i)
  {
    FibonacciTableRecurrence();
    if i >= 2 {
      FibonacciTableIsFib(i - 1);
      FibonacciTableIsFib(i - 2);
    }
  }

  /** The requirements start at 0, end at 46368 and never decrease. */
  lemma RequirementsNonDecreasing(a: int, b: int)
    requires 1 <= a <= b <= 25
    ensures SclDefinitions[a - 1].requiredContributions <= SclDefinitions[b - 1].requiredContributions
    ensures SclDefinitions[0].requiredContributions == 0
    ensures SclDefinitions[24].requiredContributions == 46368
  {
    assert forall i :: 1 <= i < 25 ==>
      SclDefinitions[i - 1].requiredContributions <= SclDefinitions[i].requiredContributions;
    RequirementsChain(a, b);
  }

  lemma {:induction false} RequirementsChain(a: int, b: int)
    requires 1 <= a <= b <= 25
    requires forall i :: 1 <= i < 25 ==>
      SclDefinitions[i - 1].requiredContributions <= SclDefinitions[i].requiredContributions
    ensures SclDefinitions[a - 1].requiredContributions <= SclDefinitions[b - 1].requiredContributions
    decreases b - a
  {
    if a < b {
      RequirementsChain(a, b - 1);
    }
  }

  datatype SclDefinition = SclDefinition(
    level: int, name: string, description: string,
    requiredContributions: int, fibonacciIndex: int)

  const SclDefinitions: seq<SclDefinition> := [
    SclDefinition(1, "Erwachen", "Profil einrichten und erste Schritte", 0, 0),
    SclDefinition(2, "Entdecken", "Platform erkunden und Gene Keys berechnen", 1, 1),
    SclDefinition(3, "Verbinden", "Erste Community-Connections aufbauen", 1, 2),
    SclDefinition(4, "Lernen", "Business Track wählen und Skills entwickeln", 2, 3),
    SclDefinition(5, "Beitragen", "Erste echte Platform-Contributions", 3, 4),
    SclDefinition(6, "Wachsen", "Regelmäßige Aktivität und Engagement", 5, 5),
    SclDefinition(7, "Vernetzen", "Codon Ring Communities beitreten", 8, 6),
    SclDefinition(8, "Entwickeln", "Advanced Skills und Spezialisierung", 13, 7),
    SclDefinition(9, "Innovieren", "Eigene Ideen und Projekte einbringen", 21, 8),
    SclDefinition(10, "Kollaborieren", "Cross-Track Team-Projekte leiten", 34, 9),
    SclDefinition(11, "Optimieren", "Platform-Verbesserungen vorschlagen", 55, 10),
    SclDefinition(12, "Mentorieren", "Neue User bei Onboarding unterstützen", 89, 11),
    SclDefinition(13, "Koordinieren", "Team-Coordination und Synergien", 144, 12),
    SclDefinition(14, "Strategieren", "Business-Strategie mitentwickeln", 233, 13),
    SclDefinition(15, "Führen", "Leadership in Business Track", 377, 14),
    SclDefinition(16, "Visionieren", "Platform-Vision mitgestalten", 610, 15),
    SclDefinition(17, "Skalieren", "Skalierungs-Strategien entwickeln", 987, 16),
    SclDefinition(18, "Globalisieren", "Internationale Expansion", 1597, 17),
    SclDefinition(19, "Systematisieren", "Systemische Platform-Architektur", 2584, 18),
    SclDefinition(20, "Revolutionieren", "Industrie-disruptive Innovation", 4181, 19),
    SclDefinition(21, "Harmonisieren", "Planetare Bewusstseins-Integration", 6765, 20),
    SclDefinition(22, "Transzendieren", "Bewusstseins-Technologie Pionier", 10946, 21),
    SclDefinition(23, "Manifestieren", "Neue Realität co-kreieren", 17711, 22),
    SclDefinition(24, "Einwirken", "Planetare Transformation", 28657, 23),
    SclDefinition(25, "Vollenden", "Unity Consciousness Integration", 46368, 24)]

  /** Level `L` sits at position `L - 1`, requires `Fib(L - 1)` contributions
      and records `L - 1` as its Fibonacci index. */
  lemma DefinitionsFollowFibonacci(level: int)
    requires 1 <= level <= 25
    ensures SclDefinitions[level - 1].level == level
    ensures SclDefinitions[level - 1].fibonacciIndex == level - 1
    ensures SclDefinitions[level - 1].requiredContributions == Fib(level - 1)
  {
    FibonacciTableIsFib(level - 1);
    DefinitionMatchesTable(level - 1);
  }

  /** Position `i` of the definitions agrees with the table, one position at a time. */
  lemma DefinitionMatchesTable(i: int)
    requires 0 <= i < 25
    ensures SclDefinitions[i].requiredContributions == FibonacciTable[i]
    ensures SclDefinitions[i].level == i + 1 && SclDefinitions[i].fibonacciIndex == i
  {
    if i < 13 {
      DefinitionMatchesTableLow(i);
    } else {
      DefinitionMatchesTableHigh(i);
    }
  }

  lemma DefinitionMatchesTableLow(i: int)
    requires 0 <= i < 13
    ensures SclDefinitions[i].requiredContributions == FibonacciTable[i]
    ensures SclDefinitions[i].level == i + 1 && SclDefinitions[i].fibonacciIndex == i
  {
    if i == 0 { } else if i == 1 { } else if i == 2 { } else if i == 3 { } else if i == 4 { }
    else if i == 5 { } else if i == 6 { } else if i == 7 { } else if i == 8 { } else if i == 9 { }
    else if i == 10 { } else if i == 11 { } else { }
  }

  lemma DefinitionMatchesTableHigh(i: int)
    requires 13 <= i < 25
    ensures SclDefinitions[i].requiredContributions == FibonacciTable[i]
    ensures SclDefinitions[i].level == i + 1 && SclDefinitions[i].fibonacciIndex == i
  {
    if i == 13 { } else if i == 14 { } else if i == 15 { } else if i == 16 { } else if i == 17 { }
    else if i == 18 { } else if i == 19 { } else if i == 20 { } else if i == 21 { }
    else if i == 22 { } else if i == 23 { } else { }
  }

  /** A level value. Name, description, requirement and index have public
      setters in the source, so they are fields of their own. */
  datatype Level = Level(
    level: int, levelName: string, description: string,
    requiredContributions: int, fibonacciIndex: int)

  /** The level number lies in 1..25: the constructor path enforces it. */
  predicate Valid(l: Level) {
    1 <= l.level <= 25
  }

  /** All fields are those of the definition of `l.level`. */
  predicate Canonical(l: Level) {
    Valid(l) && FromDefinition(SclDefinitions[l.level - 1]) == l
  }

  function FromDefinition(d: SclDefinition): Level {
    Level(d.level, d.name, d.description, d.requiredContributions, d.fibonacciIndex)
  }

  /** `setLevel`: levels outside 1..25 raise `IllegalArgumentException`;
      otherwise every field is taken from the level's definition. */
  function SetLevel(level: int): (r: Result<Level>)
    ensures r.Ok? <==> 1 <= level <= 25
    ensures r.Err? ==> r.error == IllegalArgument
    ensures r.Ok? ==> Canonical(r.value) && r.value.level == level
    ensures r.Ok? ==> r.value.requiredContributions == Fib(level - 1)
  {
    if level < 1 || level > 25 then Err(IllegalArgument)
    else
      DefinitionsFollowFibonacci(level);
      Ok(FromDefinition(SclDefinitions[level - 1]))
  }

  /** The no-argument constructor: level 1, "Erwachen", no contributions required. */
  function DefaultLevel(): (l: Level)
    ensures Canonical(l) && l.level == 1 && l.requiredContributions == 0
    ensures l.levelName == "Erwachen"
  {
    DefinitionsFollowFibonacci(1);
    FromDefinition(SclDefinitions[0])
  }

  /** Only the very next level, and never past 25. */
  predicate CanProgressTo(l: Level, targetLevel: int) {
    targetLevel == l.level + 1 && targetLevel <= 25
  }

  /** The next level, or the same level at 25. */
  function GetNextLevel(l: Level): (r: Level)
    requires Valid(l)
    ensures Valid(r)
    ensures l.level < 25 ==> Canonical(r) && r.level == l.level + 1 && CanProgressTo(l, r.level)
    ensures l.level == 25 ==> r == l
  {
    if l.level < 25 then SetLevel(l.level + 1).value else l
  }

  /** The previous level, or the same level at 1. */
  function GetPreviousLevel(l: Level): (r: Level)
    requires Valid(l)
    ensures Valid(r)
    ensures l.level > 1 ==> Canonical(r) && r.level == l.level - 1
    ensures l.level == 1 ==> r == l
  {
    if l.level > 1 then SetLevel(l.level - 1).value else l
  }

  lemma CanonicalByLevel(a: Level, b: Level)
    requires Canonical(a) && Canonical(b) && a.level == b.level
    ensures a == b
  {
  }

  /** Stepping up then down (or down then up) returns to a canonical level
      strictly inside the range. */
  lemma NextPreviousRoundTrip(l: Level)
    requires Canonical(l)
    ensures l.level < 25 ==> GetPreviousLevel(GetNextLevel(l)) == l
    ensures l.level > 1 ==> GetNextLevel(GetPreviousLevel(l)) == l
  {
    if l.level < 25 {
      CanonicalByLevel(GetPreviousLevel(GetNextLevel(l)), l);
    }
    if l.level > 1 {
      CanonicalByLevel(GetNextLevel(GetPreviousLevel(l)), l);
    }
  }

  /** `fibonacci[min(fibonacciIndex, 24)]`; a negative index (reachable via the
      public setter) raises `ArrayIndexOutOfBoundsException`. */
  function GetFibonacciValue(l: Level): (r: Result<int>)
    ensures r.Ok? <==> l.fibonacciIndex >= 0
    ensures r.Err? ==> r.error == IndexOutOfBounds
    ensures 0 <= l.fibonacciIndex <= 24 ==> r == Ok(Fib(l.fibonacciIndex))
    ensures l.fibonacciIndex > 24 ==> r == Ok(FibonacciTable[24])
  {
    var index := if l.fibonacciIndex < 24 then l.fibonacciIndex else |FibonacciTable| - 1;
    if index < 0 then Err(IndexOutOfBounds)
    else
      FibonacciTableIsFib(index);
      Ok(FibonacciTable[index])
  }

  /** For a canonical level the Fibonacci value is its contribution requirement. */
  lemma FibonacciValueIsRequirement(l: Level)
    requires Canonical(l)
    ensures GetFibonacciValue(l) == Ok(l.requiredContributions)
  {
    DefinitionsFollowFibonacci(l.level);
  }

  datatype ConsciousnessCategory = Awakening | Developing | Contributing | Leading | Transcending

  /** Bands of five levels: 1-5, 6-10, 11-15, 16-20, 21 and above. */
  function GetCategory(l: Level): (c: ConsciousnessCategory)
    ensures c == Awakening <==> l.level <= 5
    ensures c == Developing <==> 6 <= l.level <= 10
    ensures c == Contributing <==> 11 <= l.level <= 15
    ensures c == Leading <==> 16 <= l.level <= 20
    ensures c == Transcending <==> l.level >= 21
  {
    if l.level <= 5 then Awakening
    else if l.level <= 10 then Developing
    else if l.level <= 15 then Contributing
    else if l.level <= 20 then Leading
    else Transcending
  }

  predicate AllowsBusinessTrackAdvancement(l: Level) { l.level >= 5 }
  predicate AllowsLeadershipRoles(l: Level) { l.level >= 13 }
  predicate AllowsStrategicContributions(l: Level) { l.level >= 15 }
  predicate AllowsPlatformGovernance(l: Level) { l.level >= 20 }

  /** Each privilege implies the lower ones, and stepping up never revokes one. */
  lemma PrivilegesNested(l: Level)
    requires Valid(l)
    ensures AllowsPlatformGovernance(l) ==> AllowsStrategicContributions(l)
    ensures AllowsStrategicContributions(l) ==> AllowsLeadershipRoles(l)
    ensures AllowsLeadershipRoles(l) ==> AllowsBusinessTrackAdvancement(l)
    ensures AllowsBusinessTrackAdvancement(l) ==> AllowsBusinessTrackAdvancement(GetNextLevel(l))
    ensures AllowsLeadershipRoles(l) ==> AllowsLeadershipRoles(GetNextLevel(l))
    ensures AllowsStrategicContributions(l) ==> AllowsStrategicContributions(GetNextLevel(l))
    ensures AllowsPlatformGovernance(l) ==> AllowsPlatformGovernance(GetNextLevel(l))
  {
  }

  /** `equals` compares level numbers only; `hashCode` is `Objects.hash(level)`. */
  predicate LevelEquals(a: Level, b: Level) {
    a.level == b.level
  }

  function LevelHash(l: Level): (h: int)
    ensures -0x8000_0000 <= h < 0x8000_0000
  {
    Wrap32(31 + l.level)
  }

  lemma EqualLevelsHashAlike(a: Level, b: Level)
    ensures LevelEquals(a, b) ==> LevelHash(a) == LevelHash(b)
    ensures Valid(a) && Valid(b) ==> (LevelEquals(a, b) <==> LevelHash(a) == LevelHash(b))
  {
  }
}

=== FILE: consciousness_state.dfy ===
/** A user's consciousness state: shadow, gift and siddhi frequencies and the
    predicates saying which one dominates. */
module ConsciousnessStates {
  import opened Wrappers

  datatype State = State(
    shadowFrequency: int,
    giftFrequency: int,
    siddhiFrequency: Option<int>,
    primaryActivatedGeneKey: int,
    coherence: Option<real>)

  /** The three-argument constructor: coherence 0.0, no siddhi frequency. */
  function NewState(primaryActivatedGeneKey: int, shadow: int, gift: int): (s: State)
    ensures s.primaryActivatedGeneKey == primaryActivatedGeneKey
    ensures s.shadowFrequency == shadow && s.giftFrequency == gift
    ensures s.coherence == Some(0.0) && s.siddhiFrequency.None?
    ensures IsInShadowFrequency(s) <==> shadow > gift
    ensures IsInGiftFrequency(s) <==> gift > shadow
  {
    State(shadow, gift, None, primaryActivatedGeneKey, Some(0.0))
  }

  predicate IsInShadowFrequency(s: State) {
    s.shadowFrequency > s.giftFrequency
  }

  predicate IsInGiftFrequency(s: State) {
    s.giftFrequency > s.shadowFrequency
    && (s.siddhiFrequency.None? || s.giftFrequency > s.siddhiFrequency.value)
  }

  predicate IsInSiddhiFrequency(s: State) {
    s.siddhiFrequency.Some?
    && s.siddhiFrequency.value > s.giftFrequency
    && s.siddhiFrequency.value > s.shadowFrequency
  }

  /** The gift frequency excludes both others; shadow and siddhi can coexist. */
  lemma GiftExcludesOthers(s: State)
    ensures IsInGiftFrequency(s) ==> !IsInShadowFrequency(s) && !IsInSiddhiFrequency(s)
    ensures var t := State(5, 1, Some(10), 0, None);
            IsInShadowFrequency(t) && IsInSiddhiFrequency(t)
  {
  }

  /** Without a siddhi frequency exactly one of shadow and gift holds, unless
      the two are equal and neither does. */
  lemma ShadowOrGiftWithoutSiddhi(s: State)
    requires s.siddhiFrequency.None?
    ensures !IsInSiddhiFrequency(s)
    ensures s.shadowFrequency != s.giftFrequency ==> (IsInShadowFrequency(s) <==> !IsInGiftFrequency(s))
    ensures s.shadowFrequency == s.giftFrequency ==> !IsInShadowFrequency(s) && !IsInGiftFrequency(s)
  {
  }
}

=== FILE: consciousness_store.dfy ===
/** The frontend consciousness store: the five-step level ladder, the bounded
    synchronicity event buffer and its recent-events view. Event ids and
    timestamps, which the store draws from `crypto` and the clock, are
    parameters; persistence and the timed metrics are left out. */
module ConsciousnessStore {
  import Sorting

  /** The ladder in order; the stored level is a free string because it may
      come back from storage as anything. */
  const Levels: seq<string> := ["AWAKENING", "EXPANDING", "INTEGRATING", "EMBODYING", "MASTERING"]

  /** Timestamps are milliseconds since the epoch. */
  datatype Event = Event(id: string, timestamp: int, kind: string, description: string, significance: string)

  datatype Metrics = Metrics(
    consciousnessScore: real,
    synchronicityFrequency: real,
    geneKeysAlignment: real,
    sacredGeometryResonance: real,
    fibonacciHarmony: real)

  datatype Store = Store(currentLevel: string, events: seq<Event>, metrics: Metrics)

  const ZeroMetrics := Metrics(0.0, 0.0, 0.0, 0.0, 0.0)

  /** The store as it is created. */
  const Initial := Store("AWAKENING", [], ZeroMetrics)

  /** `indexOf`: the position of `level` on the ladder, or -1. */
  function IndexOf(level: string): (i: int)
    ensures -1 <= i < |Levels|
    ensures i == -1 <==> level !in Levels
    ensures i >= 0 ==> Levels[i] == level
  {
    if level == Levels[0] then 0
    else if level == Levels[1] then 1
    else if level == Levels[2] then 2
    else if level == Levels[3] then 3
    else if level == Levels[4] then 4
    else -1
  }

  /** Position plus one out of five, as a percentage; an unknown level gives 0. */
  function ConsciousnessPercentage(s: Store): (p: real)
    ensures p == 0.0 <==> s.currentLevel !in Levels
    ensures s.currentLevel in Levels ==> p == 20.0 * (IndexOf(s.currentLevel) + 1) as real
    ensures 0.0 <= p <= 100.0
    ensures p == 100.0 <==> s.currentLevel == "MASTERING"
  {
    ((IndexOf(s.currentLevel) + 1) as real / |Levels| as real) * 100.0
  }

  // ---------------------------------------------------------------------------
  // The event buffer
  // ---------------------------------------------------------------------------

  const Capacity := 100
  const RecentCount := 10

  /** `slice(-n)`: the last `n` elements, or all of them when there are fewer. */
  function LastN<T>(s: seq<T>, n: nat): (r: seq<T>)
    ensures |r| == if |s| <= n then |s| else n
    ensures r == s[|s| - |r|..]
  {
    if |s| <= n then s else s[|s| - n..]
  }

  /** Appends the event and keeps the newest hundred, in order. */
  function Record(events: seq<Event>, e: Event): (r: seq<Event>)
    ensures |r| == if |events| < Capacity then |events| + 1 else Capacity
    ensures r[|r| - 1] == e
    ensures r[..|r| - 1] == events[|events| - (|r| - 1)..]
    ensures |events| < Capacity ==> r == events + [e]
  {
    var pushed := events + [e];
    if |pushed| > Capacity then pushed[|pushed| - Capacity..] else pushed
  }

  function RecordSynchronicityEvent(s: Store, e: Event): (r: Store)
    ensures r.events == Record(s.events, e)
    ensures r.currentLevel == s.currentLevel && r.metrics == s.metrics
  {
    s.(events := Record(s.events, e))
  }

  /** Records the events one after the other. */
  function RecordAll(events: seq<Event>, es: seq<Event>): (r: seq<Event>)
    ensures |events| <= Capacity ==> |r| <= Capacity
  {
    if es == [] then events else Record(RecordAll(events, es[..|es| - 1]), es[|es| - 1])
  }

  /** Trimming before appending does not change what survives. */
  lemma LastNOfTrimmed(s: seq<Event>, e: Event)
    ensures LastN(LastN(s, Capacity) + [e], Capacity) == LastN(s + [e], Capacity)
  {
    var t := LastN(s, Capacity);
    if |s| > Capacity {
      assert (t + [e])[1..] == (s + [e])[|s| + 1 - Capacity..];
    }
  }

  /** However many events arrive, the buffer holds exactly the newest hundred
      of everything recorded, in order. */
  lemma {:induction false} BufferIsWindowOfHistory(events: seq<Event>, es: seq<Event>)
    requires |events| <= Capacity
    ensures RecordAll(events, es) == LastN(events + es, Capacity)
  {
    if es == [] {
      assert events + es == events;
    } else {
      var init, e := es[..|es| - 1], es[|es| - 1];
      BufferIsWindowOfHistory(events, init);
      var before := RecordAll(events, init);
      assert Record(before, e) == LastN(before + [e], Capacity);
      LastNOfTrimmed(events + init, e);
      assert events + init + [e] == events + es;
    }
  }

  function Timestamp(e: Event): real {
    e.timestamp as real
  }

  /** The last ten events, newest first. */
  function RecentSynchronicities(s: Store): (r: seq<Event>)
    ensures |r| == if |s.events| <= RecentCount then |s.events| else RecentCount
    ensures Sorting.SortedDesc(r, Timestamp)
    ensures multiset(r) == multiset(LastN(s.events, RecentCount))
    ensures forall e :: e in r ==> e in s.events[|s.events| - |r|..]
  {
    var recent := LastN(s.events, RecentCount);
    var r := Sorting.SortDesc(recent, Timestamp);
    forall e | e in r
      ensures e in recent
    {
      assert e in multiset(r);
    }
    r
  }

  /** Events already recorded newest-last keep that order, reversed. */
  lemma RecentOfOrderedEvents(s: Store)
    requires forall i, j :: 0 <= i < j < |s.events| ==> s.events[i].timestamp > s.events[j].timestamp
    ensures RecentSynchronicities(s) == LastN(s.events, RecentCount)
  {
    var recent := LastN(s.events, RecentCount);
    assert Sorting.SortedDesc(recent, Timestamp);
    Sorting.SortDescOfSorted(recent, Timestamp);
  }

  // ---------------------------------------------------------------------------
  // The ladder
  // ---------------------------------------------------------------------------

  /** The event recorded when the level rises to `level`. */
  function ElevationEvent(id: string, timestamp: int, level: string): Event {
    Event(id, timestamp, "CONSCIOUSNESS_ELEVATION", "Consciousness elevated to " + level, "HIGH")
  }

  /** One step up the ladder with one elevation event; at the top nothing
      changes. An unknown level counts as below the first step. */
  function ElevateConsciousnessLevel(s: Store, id: string, timestamp: int): (r: Store)
    ensures s.currentLevel == "MASTERING" ==> r == s
    ensures s.currentLevel != "MASTERING" ==>
              && r.currentLevel in Levels
              && ConsciousnessPercentage(r) == ConsciousnessPercentage(s) + 20.0
              && r.events == Record(s.events, ElevationEvent(id, timestamp, r.currentLevel))
              && r.metrics == s.metrics
    ensures s.currentLevel !in Levels ==> r.currentLevel == "AWAKENING"
  {
    var i := IndexOf(s.currentLevel);
    if i < |Levels| - 1 then
      var next := Levels[i + 1];
      RecordSynchronicityEvent(s.(currentLevel := next), ElevationEvent(id, timestamp, next))
    else s
  }

  /** Back to the first step with no events and every metric zero. */
  function ResetConsciousness(s: Store): (r: Store)
    ensures r.currentLevel == "AWAKENING" && r.events == []
    ensures r.metrics.consciousnessScore == 0.0 && r.metrics.synchronicityFrequency == 0.0
            && r.metrics.geneKeysAlignment == 0.0 && r.metrics.sacredGeometryResonance == 0.0
            && r.metrics.fibonacciHarmony == 0.0
    ensures ConsciousnessPercentage(r) == 20.0
  {
    Store("AWAKENING", [], ZeroMetrics)
  }

  /** From a reset store four elevations reach the top with four events, and
      a fifth changes nothing. */
  lemma FourStepsToMastery(s: Store, ids: seq<string>, t: int)
    requires |ids| == 5
    ensures var s0 := ResetConsciousness(s);
            var s4 := ElevateConsciousnessLevel(ElevateConsciousnessLevel(ElevateConsciousnessLevel(
                        ElevateConsciousnessLevel(s0, ids[0], t), ids[1], t), ids[2], t), ids[3], t);
            && s4.currentLevel == "MASTERING" && |s4.events| == 4
            && ConsciousnessPercentage(s4) == 100.0
            && ElevateConsciousnessLevel(s4, ids[4], t) == s4
  {
    var s0 := ResetConsciousness(s);
    var s1 := ElevateConsciousnessLevel(s0, ids[0], t);
    assert s1.currentLevel == "EXPANDING" && |s1.events| == 1;
    var s2 := ElevateConsciousnessLevel(s1, ids[1], t);
    assert s2.currentLevel == "INTEGRATING" && |s2.events| == 2;
    var s3 := ElevateConsciousnessLevel(s2, ids[2], t);
    assert s3.currentLevel == "EMBODYING" && |s3.events| == 3;
  }
}

=== FILE: contributing_service.dfy ===
/** The quest service: turning GitHub issues and contribution requests into
    quests by label-driven classification, the personalised quest shortlist,
    starting and completing quests, and the level progress summary. The
    repository and the user lookup are replaced by the rows and the user they
    would return; saving is left out. */
module SacredContributing {
  import opened Wrappers
  import opened JavaMath
  import opened Enums
  import Contributions
  import BusinessTracks
  import ConsciousnessLevels
  import Users
  import opened ContributionQueries
  import SclProgress

  /** An issue as the service reads it; `labels` may be null. */
  datatype GitHubIssue = GitHubIssue(
    issueNumber: Option<int>,
    title: Option<string>,
    description: Option<string>,
    repository: Option<string>,
    githubUrl: Option<string>,
    labels: Option<seq<string>>,
    estimatedHours: Option<real>)

  /** A request to track a contribution by hand. */
  datatype ContributionRequest = ContributionRequest(
    title: Option<string>,
    description: Option<string>,
    questType: Option<QuestType>,
    businessTrack: Option<BusinessTracks.BusinessTrack>,
    difficultyLevel: Option<int>,
    estimatedHours: Option<real>,
    githubRepository: Option<string>,
    githubIssueNumber: Option<int>,
    githubUrl: Option<string>)

  /** A null label list reads as the empty list. */
  function LabelList(labels: Option<seq<string>>): seq<string> {
    if labels.Some? then labels.value else []
  }

  // ---------------------------------------------------------------------------
  // Label-driven classification
  // ---------------------------------------------------------------------------

  /** The first of "good first issue", "easy", "medium", "hard", "epic" among
      the labels decides the difficulty, 1 when none is present; the final
      clamp to 1..10 never binds. */
  function CalculateDifficulty(labels: Option<seq<string>>): (d: int)
    ensures d == 1 || d == 2 || d == 4 || d == 7 || d == 10
    ensures var l := LabelList(labels);
            && (d == 2 <==> "good first issue" !in l && "easy" in l)
            && (d == 4 <==> "good first issue" !in l && "easy" !in l && "medium" in l)
            && (d == 7 <==> "good first issue" !in l && "easy" !in l && "medium" !in l && "hard" in l)
            && (d == 10 <==> "good first issue" !in l && "easy" !in l && "medium" !in l && "hard" !in l
                             && "epic" in l)
  {
    var l := LabelList(labels);
    var difficulty :=
      if "good first issue" in l then 1
      else if "easy" in l then 2
      else if "medium" in l then 4
      else if "hard" in l then 7
      else if "epic" in l then 10
      else 1;
    MinInt(10, MaxInt(1, difficulty))
  }

  /** The experience and hour tables, indexed by difficulty minus one. */
  const FibonacciXP: seq<int> := [10, 15, 25, 40, 65, 105, 170, 275, 445, 720]
  const FibonacciHours: seq<real> := [0.5, 1.0, 1.5, 2.5, 4.0, 6.5, 10.5, 17.0, 27.5, 44.5]

  /** The tables hold five times, and half of, consecutive Fibonacci numbers. */
  lemma TablesFollowFibonacci(i: int)
    requires 0 <= i < 10
    ensures FibonacciXP[i] == 5 * ConsciousnessLevels.Fib(i + 3)
    ensures FibonacciHours[i] == ConsciousnessLevels.Fib(i + 2) as real / 2.0
  {
    FibUpTo13();
  }

  lemma FibUpTo13()
    ensures ConsciousnessLevels.Fib(2) == 1 && ConsciousnessLevels.Fib(3) == 2
    ensures ConsciousnessLevels.Fib(4) == 3 && ConsciousnessLevels.Fib(5) == 5
    ensures ConsciousnessLevels.Fib(6) == 8 && ConsciousnessLevels.Fib(7) == 13
    ensures ConsciousnessLevels.Fib(8) == 21 && ConsciousnessLevels.Fib(9) == 34
    ensures ConsciousnessLevels.Fib(10) == 55 && ConsciousnessLevels.Fib(11) == 89
    ensures ConsciousnessLevels.Fib(12) == 144 && ConsciousnessLevels.Fib(13) == 233
  {
  }

  /** Both tables rise strictly with the index. */
  lemma TablesStrictlyIncreasing(i: int, j: int)
    requires 0 <= i < j < 10
    ensures FibonacciXP[i] < FibonacciXP[j]
    ensures FibonacciHours[i] < FibonacciHours[j]
  {
  }

  /** The table entry for the label-derived difficulty. */
  function CalculateExperiencePoints(labels: Option<seq<string>>): (xp: int)
    ensures xp == 5 * ConsciousnessLevels.Fib(CalculateDifficulty(labels) + 2)
    ensures xp == 10 || xp == 15 || xp == 40 || xp == 170 || xp == 720
  {
    var d := CalculateDifficulty(labels);
    TablesFollowFibonacci(MinInt(d - 1, |FibonacciXP| - 1));
    FibonacciXP[MinInt(d - 1, |FibonacciXP| - 1)]
  }

  /** The hour estimate for the label-derived difficulty. */
  function EstimateHours(labels: Option<seq<string>>): (h: real)
    ensures h == ConsciousnessLevels.Fib(CalculateDifficulty(labels) + 1) as real / 2.0
    ensures h == 0.5 || h == 1.0 || h == 2.5 || h == 10.5 || h == 44.5
  {
    var d := CalculateDifficulty(labels);
    TablesFollowFibonacci(MinInt(d - 1, |FibonacciHours| - 1));
    FibonacciHours[MinInt(d - 1, |FibonacciHours| - 1)]
  }

  /** The service's table and the entity's completion formula disagree: the
      table pays less up to difficulty 4 and more from difficulty 7. */
  lemma ServiceAndEntityPointsCross(labels: Option<seq<string>>)
    ensures var d := CalculateDifficulty(labels);
            var entity := Contributions.ExperiencePointsFor(d, None, None);
            entity.Ok?
            && (d <= 4 ==> CalculateExperiencePoints(labels) < entity.value)
            && (d >= 7 ==> CalculateExperiencePoints(labels) > entity.value)
  {
    FibUpTo13();
    assert ConsciousnessLevels.Fib(1) == 1;
  }

  /** Community or documentation labels make a community quest, else a
      leadership label a leadership quest, else a platform quest. */
  function DetermineQuestType(labels: Option<seq<string>>): (q: QuestType)
    ensures var l := LabelList(labels);
            && (q == CommunityQuest <==> "community" in l || "documentation" in l)
            && (q == LeadershipQuest <==> "community" !in l && "documentation" !in l && "leadership" in l)
            && q != HybridQuest
  {
    var l := LabelList(labels);
    if "community" in l || "documentation" in l then CommunityQuest
    else if "leadership" in l then LeadershipQuest
    else PlatformQuest
  }

  /** A frontend label or "ui"/"vue" in the lower-cased title means tech, then
      a design label or "ux" means UX, then a business label means business;
      tech is the default. Lower-casing a null title throws. */
  function DetermineBusinessTrack(issue: GitHubIssue): (r: Result<BusinessTracks.BusinessTrack>)
    ensures r.Err? <==> issue.title.None?
    ensures r.Err? ==> r.error == NullPointer
    ensures r.Ok? ==> r.value in {BusinessTracks.TechDeveloper, BusinessTracks.UxDesigner, BusinessTracks.BusinessDeveloper}
    ensures r.Ok? ==>
              var l := LabelList(issue.labels);
              var t := ToLower(issue.title.value);
              var tech := "frontend" in l || Contains(t, "ui") || Contains(t, "vue");
              && (tech ==> r.value == BusinessTracks.TechDeveloper)
              && (r.value == BusinessTracks.UxDesigner <==> !tech && ("design" in l || Contains(t, "ux")))
              && (r.value == BusinessTracks.BusinessDeveloper <==>
                    !tech && "design" !in l && !Contains(t, "ux") && "business" in l)
  {
    match issue.title
    case None => Err(NullPointer)
    case Some(title) =>
      var l := LabelList(issue.labels);
      var t := ToLower(title);
      if "frontend" in l || Contains(t, "ui") || Contains(t, "vue") then Ok(BusinessTracks.TechDeveloper)
      else if "design" in l || Contains(t, "ux") then Ok(BusinessTracks.UxDesigner)
      else if "business" in l then Ok(BusinessTracks.BusinessDeveloper)
      else Ok(BusinessTracks.TechDeveloper)
  }

  /** A title containing "ui" in any casing, at any position, is a tech quest
      whatever its labels say. */
  lemma InterfaceTitlesAreTech(issue: GitHubIssue, i: int)
    requires issue.title.Some? && 0 <= i && i + 2 <= |issue.title.value|
    requires issue.title.value[i] in "uU" && issue.title.value[i + 1] in "iI"
    ensures DetermineBusinessTrack(issue) == Ok(BusinessTracks.TechDeveloper)
  {
    var t := ToLower(issue.title.value);
    assert t[i] == 'u' && t[i + 1] == 'i';
    assert t[i..i + 2] == "ui";
    assert OccursAt(t, "ui", i);
  }

  /** The example title "Fix UI glitch" is a tech quest. */
  lemma InterfaceTitleExample(issue: GitHubIssue)
    requires issue.title == Some("Fix UI glitch")
    ensures DetermineBusinessTrack(issue) == Ok(BusinessTracks.TechDeveloper)
  {
    InterfaceTitlesAreTech(issue, 4);
  }

  // ---------------------------------------------------------------------------
  // Title and description
  // ---------------------------------------------------------------------------

  const BugPrefix := "🔧 Sacred Debugging Quest: "
  const FeaturePrefix := "✨ Manifestation Quest: "
  const DocumentationPrefix := "📜 Knowledge Crystallization: "
  const DefaultPrefix := "🎯 Consciousness Expansion: "

  /** String concatenation renders a null title as "null". */
  function TitleText(title: Option<string>): string {
    if title.Some? then title.value else "null"
  }

  /** A prefix chosen by the labels, bug before feature or enhancement before
      documentation, followed by the original title. */
  function GenerateSacredTitle(issue: GitHubIssue): (r: string)
    ensures var t := TitleText(issue.title);
            |r| > |t| && r[|r| - |t|..] == t
    ensures var l := LabelList(issue.labels);
            && (r[0] == '🔧' <==> "bug" in l)
            && (r[0] == '✨' <==> "bug" !in l && ("feature" in l || "enhancement" in l))
            && (r[0] == '📜' <==> "bug" !in l && "feature" !in l && "enhancement" !in l && "documentation" in l)
            && (r[0] == '🎯' <==> "bug" !in l && "feature" !in l && "enhancement" !in l && "documentation" !in l)
  {
    var l := LabelList(issue.labels);
    var prefix :=
      if "bug" in l then BugPrefix
      else if "feature" in l || "enhancement" in l then FeaturePrefix
      else if "documentation" in l then DocumentationPrefix
      else DefaultPrefix;
    prefix + TitleText(issue.title)
  }

  /** Under the same labels the sacred title determines the original one. */
  lemma SacredTitleKeepsOriginal(a: GitHubIssue, b: GitHubIssue)
    requires a.labels == b.labels
    requires GenerateSacredTitle(a) == GenerateSacredTitle(b)
    ensures TitleText(a.title) == TitleText(b.title)
  {
    var l := LabelList(a.labels);
    var prefix :=
      if "bug" in l then BugPrefix
      else if "feature" in l || "enhancement" in l then FeaturePrefix
      else if "documentation" in l then DocumentationPrefix
      else DefaultPrefix;
    assert GenerateSacredTitle(a) == prefix + TitleText(a.title);
    assert GenerateSacredTitle(b) == prefix + TitleText(b.title);
    assert TitleText(a.title) == GenerateSacredTitle(a)[|prefix|..];
    assert TitleText(b.title) == GenerateSacredTitle(b)[|prefix|..];
  }

  const SacredIntention :=
    "\n\n🌟 Sacred Development Intention:\n"
    + "This quest is an opportunity for consciousness evolution through sacred technology practice."

  /** A null description becomes empty; any other gets the intention appended. */
  function EnhanceWithSacredContext(description: Option<string>): (r: string)
    ensures description.None? ==> r == ""
    ensures description.Some? ==> |r| > |description.value| && r[..|description.value|] == description.value
  {
    if description.None? then "" else description.value + SacredIntention
  }

  /** No description is lost: distinct descriptions stay distinct. */
  lemma EnhanceIsInjective(a: Option<string>, b: Option<string>)
    requires EnhanceWithSacredContext(a) == EnhanceWithSacredContext(b)
    ensures a == b
  {
    if a.Some? && b.Some? {
      assert |a.value| == |b.value|;
      assert a.value == EnhanceWithSacredContext(a)[..|a.value|];
    }
  }

  // ---------------------------------------------------------------------------
  // Creating quests
  // ---------------------------------------------------------------------------

  /** A new proposed quest built from an issue for the user `owner`. The
      track classifier throws on a null title, and linking unboxes the issue
      number. */
  function TransformIssueToQuest(issue: GitHubIssue, owner: Option<string>, now: int): (r: Result<Contributions.Contribution>)
    ensures r.Err? <==> issue.title.None? || issue.issueNumber.None?
    ensures r.Err? ==> r.error == NullPointer
    ensures r.Ok? ==>
              var q := r.value;
              && q.status == Proposed && q.userId == owner && q.createdAt == now
              && q.startedAt.None? && q.completedAt.None?
              && q.difficultyLevel == CalculateDifficulty(issue.labels)
              && q.experiencePoints == 5 * ConsciousnessLevels.Fib(q.difficultyLevel + 2)
              && q.questType == Some(DetermineQuestType(issue.labels))
              && q.businessTrack == Some(DetermineBusinessTrack(issue).value)
              && q.title.Some? && EndsWith(q.title.value, issue.title.value)
              && q.estimatedHours.Some?
              && (issue.estimatedHours.Some? ==> q.estimatedHours == issue.estimatedHours)
              && q.githubIssueNumber == issue.issueNumber
              && (Contributions.IsLinkedToGitHub(q) <==> issue.repository.Some?)
  {
    match DetermineBusinessTrack(issue)
    case Err(e) => Err(e)
    case Ok(track) =>
      if issue.issueNumber.None? then Err(NullPointer)
      else
        var title := GenerateSacredTitle(issue);
        var hours := if issue.estimatedHours.Some? then issue.estimatedHours.value else EstimateHours(issue.labels);
        var quest := Contributions.NewContribution(now).(
          title := Some(title),
          description := Some(EnhanceWithSacredContext(issue.description)),
          questType := Some(DetermineQuestType(issue.labels)),
          businessTrack := Some(track),
          difficultyLevel := CalculateDifficulty(issue.labels),
          experiencePoints := CalculateExperiencePoints(issue.labels),
          estimatedHours := Some(hours));
        var linked := Contributions.LinkToGitHubIssue(quest, issue.repository, issue.issueNumber.value, issue.githubUrl);
        Ok(linked.(userId := owner, status := Proposed))
  }

  predicate EndsWith(s: string, suffix: string) {
    |suffix| <= |s| && s[|s| - |suffix|..] == suffix
  }

  /** A new proposed contribution from a request. Storing the boxed difficulty
      unboxes it, and so does linking the issue number when a repository is
      given; without a repository nothing is linked. */
  function TrackGitHubContribution(req: ContributionRequest, owner: Option<string>, now: int)
    : (r: Result<Contributions.Contribution>)
    ensures r.Err? <==> req.difficultyLevel.None? || (req.githubRepository.Some? && req.githubIssueNumber.None?)
    ensures r.Err? ==> r.error == NullPointer
    ensures r.Ok? ==>
              var c := r.value;
              && c.status == Proposed && c.userId == owner && c.createdAt == now
              && c.title == req.title && c.description == req.description
              && c.questType == req.questType && c.businessTrack == req.businessTrack
              && c.difficultyLevel == req.difficultyLevel.value && c.estimatedHours == req.estimatedHours
              && c.experiencePoints == 0
              && (Contributions.IsLinkedToGitHub(c) <==> req.githubRepository.Some?)
              && (req.githubRepository.None? ==> c.githubIssueNumber.None? && c.githubUrl.None?)
  {
    if req.difficultyLevel.None? then Err(NullPointer)
    else
      var c := Contributions.NewContribution(now).(
        title := req.title, description := req.description, questType := req.questType,
        businessTrack := req.businessTrack, difficultyLevel := req.difficultyLevel.value,
        estimatedHours := req.estimatedHours, userId := owner);
      if req.githubRepository.None? then Ok(c.(status := Proposed))
      else if req.githubIssueNumber.None? then Err(NullPointer)
      else
        var linked := Contributions.LinkToGitHubIssue(c, req.githubRepository, req.githubIssueNumber.value, req.githubUrl);
        Ok(linked.(status := Proposed))
  }

  // ---------------------------------------------------------------------------
  // The personalised shortlist
  // ---------------------------------------------------------------------------

  /** At most two levels above the user's own. */
  function AppropriateFor(scl: int): Contributions.Contribution -> bool {
    (c: Contributions.Contribution) => c.difficultyLevel <= scl + 2
  }

  /** `limit(n)`: the first `n` elements. */
  function Take(s: seq<Contributions.Contribution>, n: nat): (r: seq<Contributions.Contribution>)
    ensures |r| == if |s| <= n then |s| else n
    ensures r == s[..|r|]
  {
    if |s| <= n then s else s[..n]
  }

  /** The first ten available quests for the user's level plus two and primary
      track, in storage order; the appropriateness filter that follows repeats
      the difficulty bound and drops nothing. */
  function GetPersonalizedQuests(u: Users.User, stored: seq<Contributions.Contribution>): (r: seq<Contributions.Contribution>)
    ensures |r| <= 10
    ensures IsSubsequence(r, stored)
    ensures forall c :: c in r ==>
              c.status == Proposed && c.difficultyLevel <= Users.GetCurrentScl(u) + 2
              && (u.primaryBusinessTrack.None? || c.businessTrack == u.primaryBusinessTrack)
    ensures |r| < 10 ==>
              forall c :: (c in stored && c.status == Proposed && c.difficultyLevel <= Users.GetCurrentScl(u) + 2
                           && (u.primaryBusinessTrack.None? || c.businessTrack == u.primaryBusinessTrack)) ==> c in r
  {
    var scl := Users.GetCurrentScl(u);
    var available := FindAvailableQuestsForUser(stored, Some(scl + 2), u.primaryBusinessTrack);
    var appropriate := Filter(available, AppropriateFor(scl));
    FilterAll(available, AppropriateFor(scl));
    FilterIsSubsequence(stored, AvailableRow(Some(scl + 2), u.primaryBusinessTrack));
    var r := Take(appropriate, 10);
    PrefixIsSubsequence(available, stored, |r|);
    assert forall c :: c in r ==> c in available;
    r
  }

  // ---------------------------------------------------------------------------
  // Starting and completing
  // ---------------------------------------------------------------------------

  /** Starts the quest the lookup found; a missing quest is an error. */
  function StartQuest(found: Option<Contributions.Contribution>, now: int): (r: Result<Contributions.Contribution>)
    ensures r.Err? <==> found.None?
    ensures r.Err? ==> r.error == NotFound
    ensures r.Ok? && found.value.status == Proposed ==> r.value.status == InProgress && r.value.startedAt == Some(now)
    ensures r.Ok? && found.value.status != Proposed ==> r.value == found.value
  {
    match found
    case None => Err(NotFound)
    case Some(q) => Ok(Contributions.StartContribution(q, now))
  }

  /** Completes the quest the lookup found, booking its estimate as the hours
      spent; a missing quest is an error, and so is a negative difficulty. */
  function CompleteQuest(found: Option<Contributions.Contribution>, now: int): (r: Result<Contributions.Contribution>)
    ensures found.None? ==> r == Err(NotFound)
    ensures found.Some? && (found.value.status == InProgress || found.value.status == Review) ==>
              (r.Ok? <==> found.value.difficultyLevel >= 0)
              && (r.Err? ==> r.error == IndexOutOfBounds)
              && (r.Ok? ==> r.value.status == Completed && r.value.actualHours == found.value.estimatedHours
                            && r.value.completedAt == Some(now))
    ensures found.Some? && found.value.status != InProgress && found.value.status != Review ==> r == Ok(found.value)
  {
    match found
    case None => Err(NotFound)
    case Some(q) => Contributions.CompleteContribution(q, q.estimatedHours, now)
  }

  /** An issue-made quest started and then completed through the service ends
      completed, with its estimate as the hours spent, and with the entity's
      points replacing the table's. */
  lemma IssueQuestRoundTrip(issue: GitHubIssue, owner: Option<string>, t0: int, t1: int, t2: int)
    requires issue.title.Some? && issue.issueNumber.Some?
    ensures var q := TransformIssueToQuest(issue, owner, t0).value;
            var started := StartQuest(Some(q), t1);
            started.Ok? && started.value.status == InProgress
            && var done := CompleteQuest(Some(started.value), t2);
               done.Ok? && done.value.status == Completed
               && done.value.actualHours == q.estimatedHours
               && done.value.experiencePoints
                  == 10 * q.difficultyLevel + 5 * ConsciousnessLevels.Fib(q.difficultyLevel)
  {
  }

  // ---------------------------------------------------------------------------
  // Level progress
  // ---------------------------------------------------------------------------

  /** Names for levels 1 to 5; any other level is named by its number. */
  function GetSclName(level: int): (name: string)
    ensures 1 <= level <= 5 ==> name in {"Sacred Seeker", "Code Mystic", "Sacred Collaborator",
                                         "Consciousness Builder", "Sacred Mentor"}
    ensures !(1 <= level <= 5) ==> name == "Sacred Practitioner Level " + IntToDecimal(level)
  {
    if level == 1 then "Sacred Seeker"
    else if level == 2 then "Code Mystic"
    else if level == 3 then "Sacred Collaborator"
    else if level == 4 then "Consciousness Builder"
    else if level == 5 then "Sacred Mentor"
    else "Sacred Practitioner Level " + IntToDecimal(level)
  }

  /** Different levels get different names. */
  lemma SclNamesIdentifyLevels(a: int, b: int)
    requires GetSclName(a) == GetSclName(b)
    ensures a == b
  {
    var prefix := "Sacred Practitioner Level ";
    if !(1 <= a <= 5) && !(1 <= b <= 5) {
      var da, db := IntToDecimal(a), IntToDecimal(b);
      assert da == GetSclName(a)[|prefix|..];
      assert db == GetSclName(b)[|prefix|..];
    }
  }

  /** The descriptions of levels 1 to 5, in order. */
  const SclDescriptions: seq<string> := [
    "Beginning sacred consciousness + technology journey",
    "Understanding sacred technology principles through practice",
    "Sacred teamwork + peer-to-peer consciousness development",
    "Building consciousness-raising technology",
    "Mentoring others in sacred development practices"]

  const AdvancedDescription := "Advanced sacred consciousness practitioner"

  /** Descriptions for levels 1 to 5, one shared description otherwise. */
  function GetSclDescription(level: int): (d: string)
    ensures !(1 <= level <= 5) ==> d == AdvancedDescription
    ensures 1 <= level <= 5 ==> d in SclDescriptions
  {
    if 1 <= level <= 5 then SclDescriptions[level - 1] else AdvancedDescription
  }

  /** Two levels share a description exactly when they are the same level or
      both lie outside 1..5. */
  lemma SclDescriptionsIdentifyFirstLevels(a: int, b: int)
    ensures GetSclDescription(a) == GetSclDescription(b) <==> a == b || (!(1 <= a <= 5) && !(1 <= b <= 5))
  {
    assert forall i, j :: 0 <= i < j < |SclDescriptions| ==> |SclDescriptions[i]| != |SclDescriptions[j]|;
    assert forall i :: 0 <= i < |SclDescriptions| ==> |SclDescriptions[i]| != |AdvancedDescription|;
  }

  /** The summary for a user from that user's rows: level, name and
      description, the points of the completed rows and their number. Every
      other field stays null. */
  function CalculateSclProgress(u: Users.User, userRows: seq<Contributions.Contribution>): (p: SclProgress.Progress)
    ensures p.currentSclLevel == Some(Users.GetCurrentScl(u))
    ensures p.currentSclName == Some(GetSclName(Users.GetCurrentScl(u)))
    ensures p.currentSclDescription == Some(GetSclDescription(Users.GetCurrentScl(u)))
    ensures p.totalQuestsCompleted == Some(Contributions.CountCompleted(userRows))
    ensures p.currentExperiencePoints == Some(TotalPoints(Filter(userRows, CompletedRow)) as real)
    ensures Contributions.CountCompleted(userRows) == 0 ==> p.currentExperiencePoints == Some(0.0)
    ensures p.progressToNextLevel.None? && p.nextLevelRequiredXP.None? && p.questsRequiredForNextLevel.None?
  {
    var scl := Users.GetCurrentScl(u);
    var completed := Filter(userRows, CompletedRow);
    CompletedFilterCount(userRows);
    SclProgress.Empty.(
      currentSclLevel := Some(scl),
      currentSclName := Some(GetSclName(scl)),
      currentSclDescription := Some(GetSclDescription(scl)),
      currentExperiencePoints := Some(TotalPoints(completed) as real),
      totalQuestsCompleted := Some(|completed|))
  }

  /** Keeping the completed rows keeps as many rows as the entity counts. */
  lemma {:induction false} CompletedFilterCount(cs: seq<Contributions.Contribution>)
    ensures |Filter(cs, CompletedRow)| == Contributions.CountCompleted(cs)
    ensures Contributions.CountCompleted(cs) == 0 ==> Filter(cs, CompletedRow) == []
  {
    if cs != [] {
      CompletedFilterCount(cs[..|cs| - 1]);
    }
  }

  /** Over the rows the user lookup returns, the summary agrees with the
      repository's count and sum queries. */
  lemma ProgressAgreesWithQueries(u: Users.User, stored: seq<Contributions.Contribution>, userId: Option<string>)
    ensures var p := CalculateSclProgress(u, FindByUserId(stored, userId));
            && p.totalQuestsCompleted == Some(CountCompletedQuestsByUser(stored, userId))
            && p.currentExperiencePoints == Some(SumExperiencePointsByUser(stored, userId) as real)
  {
    CountIsCompletedCountOfUserRows(stored, userId);
    FilterFilter(stored, OwnedBy(userId), CompletedRow, CompletedBy(userId));
    SumOverSelection(stored, userId);
  }

  /** The summary never sets the progress fraction, so asking it for
      readiness throws, and the quests still missing read as zero. */
  lemma ProgressCannotAnswerReadiness(u: Users.User, userRows: seq<Contributions.Contribution>)
    ensures SclProgress.IsReadyForNextLevel(CalculateSclProgress(u, userRows)) == Err(NullPointer)
    ensures SclProgress.GetQuestsUntilNextLevel(CalculateSclProgress(u, userRows)) == 0
  {
  }
}

=== FILE: contribution_repository.dfy ===
/** The JPQL queries of the contribution repository, read as filters over the
    stored contributions in storage order. SQL's `NULL` never compares equal,
    so a null parameter in an equality or `<=` selects nothing, while the
    explicit `:businessTrack IS NULL` test selects everything. */
module ContributionQueries {
  import opened Wrappers
  import opened Enums
  import Contributions
  import BusinessTracks
  import Sorting

  type Contribution = Contributions.Contribution

  /** The rows satisfying `p`, in storage order. */
  function Filter(cs: seq<Contribution>, p: Contribution -> bool): (r: seq<Contribution>)
    ensures |r| <= |cs|
    ensures forall c :: c in r ==> c in cs && p(c)
    ensures forall i :: 0 <= i < |cs| && p(cs[i]) ==> cs[i] in r
  {
    if cs == [] then []
    else Filter(cs[..|cs| - 1], p) + (if p(cs[|cs| - 1]) then [cs[|cs| - 1]] else [])
  }

  /** Filtering keeps storage order: it distributes over concatenation. */
  lemma {:induction false} FilterAppend(a: seq<Contribution>, b: seq<Contribution>, p: Contribution -> bool)
    ensures Filter(a + b, p) == Filter(a, p) + Filter(b, p)
    decreases |b|
  {
    if b == [] {
      assert a + b == a;
    } else {
      var init, last := b[..|b| - 1], b[|b| - 1];
      var tail := if p(last) then [last] else [];
      assert (a + b)[..|a + b| - 1] == a + init;
      assert (a + b)[|a + b| - 1] == last;
      FilterAppend(a, init, p);
      assert Filter(a + b, p) == Filter(a, p) + Filter(init, p) + tail;
      assert Filter(b, p) == Filter(init, p) + tail;
    }
  }

  /** A filter that every row passes changes nothing. */
  lemma {:induction false} FilterAll(cs: seq<Contribution>, p: Contribution -> bool)
    requires forall c :: c in cs ==> p(c)
    ensures Filter(cs, p) == cs
  {
    if cs != [] {
      var init, last := cs[..|cs| - 1], cs[|cs| - 1];
      assert last in cs;
      FilterAll(init, p);
      assert Filter(cs, p) == Filter(init, p) + [last];
      assert init + [last] == cs;
    }
  }

  /** Filtering twice is filtering once by both conditions. */
  lemma {:induction false} FilterFilter(cs: seq<Contribution>, p: Contribution -> bool, q: Contribution -> bool,
                                        both: Contribution -> bool)
    requires forall c :: both(c) == (p(c) && q(c))
    ensures Filter(Filter(cs, p), q) == Filter(cs, both)
  {
    if cs != [] {
      var init, last := cs[..|cs| - 1], cs[|cs| - 1];
      FilterFilter(init, p, q, both);
      var tail := if p(last) then [last] else [];
      FilterAppend(Filter(init, p), tail, q);
      if p(last) {
        assert Filter(tail, q) == (if q(last) then [last] else []) by {
          assert tail[..0] == [];
        }
      }
    }
  }

  /** `a` is `b` with some elements dropped, order kept. */
  predicate IsSubsequence<T(==)>(a: seq<T>, b: seq<T>)
    decreases |b|
  {
    if a == [] then true
    else if b == [] then false
    else (a[|a| - 1] == b[|b| - 1] && IsSubsequence(a[..|a| - 1], b[..|b| - 1]))
         || IsSubsequence(a, b[..|b| - 1])
  }

  /** A filter's result is a subsequence of its input. */
  lemma {:induction false} FilterIsSubsequence(cs: seq<Contribution>, p: Contribution -> bool)
    ensures IsSubsequence(Filter(cs, p), cs)
  {
    if cs != [] {
      var init, last := cs[..|cs| - 1], cs[|cs| - 1];
      FilterIsSubsequence(init, p);
      var r := Filter(cs, p);
      if p(last) {
        assert r == Filter(init, p) + [last];
        assert r[..|r| - 1] == Filter(init, p);
      } else {
        assert r == Filter(init, p);
      }
    }
  }

  /** Any prefix of a subsequence is still a subsequence. */
  lemma {:induction false} PrefixIsSubsequence<T>(a: seq<T>, b: seq<T>, k: nat)
    requires k <= |a| && IsSubsequence(a, b)
    ensures IsSubsequence(a[..k], b)
    decreases |b|
  {
    if k == |a| {
      assert a[..k] == a;
    } else if k > 0 {
      var a', b' := a[..|a| - 1], b[..|b| - 1];
      assert a[..k] == a'[..k];
      if IsSubsequence(a, b') {
        PrefixIsSubsequence(a, b', k);
      } else {
        PrefixIsSubsequence(a', b', k);
      }
    }
  }

  predicate SameUser(c: Contribution, userId: Option<string>) {
    userId.Some? && c.userId == userId
  }

  /** The row conditions shared between the queries and their callers. */
  function OwnedBy(userId: Option<string>): Contribution -> bool {
    (c: Contribution) => SameUser(c, userId)
  }

  const CompletedRow: Contribution -> bool := (c: Contribution) => c.status == Completed

  function CompletedBy(userId: Option<string>): Contribution -> bool {
    (c: Contribution) => SameUser(c, userId) && c.status == Completed
  }

  // ---------------------------------------------------------------------------
  // The queries
  // ---------------------------------------------------------------------------

  /** Proposed, not harder than `maxDifficulty`, and on the given track unless
      the track parameter is null. */
  predicate Available(c: Contribution, maxDifficulty: Option<int>, track: Option<BusinessTracks.BusinessTrack>) {
    c.status == Proposed && maxDifficulty.Some? && c.difficultyLevel <= maxDifficulty.value
    && (track.None? || c.businessTrack == track)
  }

  function AvailableRow(maxDifficulty: Option<int>, track: Option<BusinessTracks.BusinessTrack>): Contribution -> bool {
    (c: Contribution) => Available(c, maxDifficulty, track)
  }

  function FindAvailableQuestsForUser(cs: seq<Contribution>, maxDifficulty: Option<int>,
                                      track: Option<BusinessTracks.BusinessTrack>): (r: seq<Contribution>)
    ensures forall c :: c in r <==> c in cs && c.status == Proposed && maxDifficulty.Some?
                                    && c.difficultyLevel <= maxDifficulty.value
                                    && (track.None? || c.businessTrack == track)
    ensures maxDifficulty.None? ==> r == []
  {
    var r := Filter(cs, AvailableRow(maxDifficulty, track));
    assert r != [] ==> r[0] in r;
    r
  }

  /** The user's completed rows (archived ones do not count). */
  function FindCompletedContributionsByUser(cs: seq<Contribution>, userId: Option<string>): (r: seq<Contribution>)
    ensures forall c :: c in r <==> c in cs && c.status == Completed && userId.Some? && c.userId == userId
    ensures Contributions.CountCompleted(r) == |r|
  {
    Filter(cs, CompletedBy(userId))
  }

  /** `COUNT(c)` over the same condition. */
  function CountCompletedQuestsByUser(cs: seq<Contribution>, userId: Option<string>): (n: nat)
    ensures n <= |cs|
    ensures userId.None? ==> n == 0
  {
    if cs == [] then 0
    else (if SameUser(cs[|cs| - 1], userId) && cs[|cs| - 1].status == Completed then 1 else 0)
         + CountCompletedQuestsByUser(cs[..|cs| - 1], userId)
  }

  /** The count query agrees with the length of the selection query. */
  lemma {:induction false} CountMatchesSelection(cs: seq<Contribution>, userId: Option<string>)
    ensures CountCompletedQuestsByUser(cs, userId) == |FindCompletedContributionsByUser(cs, userId)|
  {
    if cs != [] {
      CountMatchesSelection(cs[..|cs| - 1], userId);
    }
  }

  /** Every user's count is the completed count of that user's rows. */
  lemma {:induction false} CountIsCompletedCountOfUserRows(cs: seq<Contribution>, userId: Option<string>)
    ensures CountCompletedQuestsByUser(cs, userId)
            == Contributions.CountCompleted(FindByUserId(cs, userId))
  {
    if cs != [] {
      var init, last := cs[..|cs| - 1], cs[|cs| - 1];
      CountIsCompletedCountOfUserRows(init, userId);
      var head := FindByUserId(init, userId);
      if SameUser(last, userId) {
        var all := head + [last];
        assert FindByUserId(cs, userId) == all;
        assert all[..|all| - 1] == head;
        assert Contributions.CountCompleted(all)
               == (if last.status == Completed then 1 else 0) + Contributions.CountCompleted(head);
      } else {
        assert FindByUserId(cs, userId) == head;
      }
    }
  }

  /** `findByUserId`: every row of one user, in storage order. */
  function FindByUserId(cs: seq<Contribution>, userId: Option<string>): (r: seq<Contribution>)
    ensures forall c :: c in r <==> c in cs && userId.Some? && c.userId == userId
  {
    Filter(cs, OwnedBy(userId))
  }

  /** `COALESCE(SUM(c.experiencePoints), 0)`: the empty sum is zero. */
  function SumExperiencePointsByUser(cs: seq<Contribution>, userId: Option<string>): (total: int)
    ensures (forall c :: c in cs ==> !(SameUser(c, userId) && c.status == Completed)) ==> total == 0
    ensures (forall c :: c in cs ==> c.experiencePoints >= 0) ==> total >= 0
  {
    if cs == [] then 0
    else (if SameUser(cs[|cs| - 1], userId) && cs[|cs| - 1].status == Completed
          then cs[|cs| - 1].experiencePoints else 0)
         + SumExperiencePointsByUser(cs[..|cs| - 1], userId)
  }

  /** The sum is the sum of the completed rows' points. */
  lemma {:induction false} SumOverSelection(cs: seq<Contribution>, userId: Option<string>)
    ensures SumExperiencePointsByUser(cs, userId) == TotalPoints(FindCompletedContributionsByUser(cs, userId))
  {
    if cs != [] {
      var init, last := cs[..|cs| - 1], cs[|cs| - 1];
      SumOverSelection(init, userId);
      var head := FindCompletedContributionsByUser(init, userId);
      if SameUser(last, userId) && last.status == Completed {
        var all := head + [last];
        assert FindCompletedContributionsByUser(cs, userId) == all;
        assert all[..|all| - 1] == head;
        assert TotalPoints(all) == TotalPoints(head) + last.experiencePoints;
      } else {
        assert FindCompletedContributionsByUser(cs, userId) == head;
      }
    }
  }

  function TotalPoints(cs: seq<Contribution>): int {
    if cs == [] then 0 else TotalPoints(cs[..|cs| - 1]) + cs[|cs| - 1].experiencePoints
  }

  /** `BETWEEN` is inclusive at both ends; a null bound selects nothing. */
  function FindQuestsByDifficultyRange(cs: seq<Contribution>, minDifficulty: Option<int>,
                                       maxDifficulty: Option<int>): (r: seq<Contribution>)
    ensures forall c :: c in r <==> c in cs && c.status == Proposed && minDifficulty.Some? && maxDifficulty.Some?
                                    && minDifficulty.value <= c.difficultyLevel <= maxDifficulty.value
    ensures minDifficulty.Some? && maxDifficulty.Some? && maxDifficulty.value < minDifficulty.value ==> r == []
  {
    var r := Filter(cs, (c: Contribution) => c.status == Proposed && minDifficulty.Some? && maxDifficulty.Some?
                                             && minDifficulty.value <= c.difficultyLevel <= maxDifficulty.value);
    assert r != [] ==> r[0] in r;
    r
  }

  function Points(c: Contribution): real {
    c.experiencePoints as real
  }

  function HighValueRow(minXP: Option<int>): Contribution -> bool {
    (c: Contribution) => c.status == Proposed && minXP.Some? && c.experiencePoints >= minXP.value
  }

  /** Proposed rows worth at least `minXP`, richest first. */
  function FindHighValueQuests(cs: seq<Contribution>, minXP: Option<int>): (r: seq<Contribution>)
    ensures forall c :: c in r <==> c in cs && c.status == Proposed && minXP.Some? && c.experiencePoints >= minXP.value
    ensures Sorting.SortedDesc(r, Points)
    ensures multiset(r) == multiset(Filter(cs, HighValueRow(minXP)))
  {
    var selected := Filter(cs, HighValueRow(minXP));
    var sorted := Sorting.SortDesc(selected, Points);
    forall c
      ensures c in sorted <==> c in selected
    {
      assert c in sorted <==> c in multiset(sorted);
      assert c in selected <==> c in multiset(selected);
    }
    sorted
  }

  /** In progress or in review, for one user: exactly the rows the entity
      calls active, never one the completed query selects. */
  function FindActiveQuestsByUser(cs: seq<Contribution>, userId: Option<string>): (r: seq<Contribution>)
    ensures forall c :: c in r <==> c in cs && SameUser(c, userId) && Contributions.IsActive(c)
    ensures forall c :: c in r ==> c !in FindCompletedContributionsByUser(cs, userId)
  {
    Filter(cs, (c: Contribution) => SameUser(c, userId) && (c.status == InProgress || c.status == Review))
  }
}

=== FILE: enums.dfy ===
/** The plain enumerations of the backend domain: contribution status, quest
    type, platform areas and the user's gamification preference. */
module Enums {

  /** Lifecycle of a contribution (a "quest"). */
  datatype ContributionStatus = Proposed | InProgress | Review | Completed | Archived

  /** Kind of quest. */
  datatype QuestType = PlatformQuest | CommunityQuest | LeadershipQuest | HybridQuest

  /** How strongly a platform area is gamified. */
  datatype PlatformAreaType =
    | FullyGamified
    | PartiallyGamified
    | NonGamified
    | AdaptiveGamification
    | SelectivelyGamified

  /** The areas of the platform. */
  datatype PlatformArea =
    | SyntopiaGamingHub
    | ConsciousnessQuests
    | SynTreeRoadmap
    | SynmapGeographical
    | SynshareMarketplace
    | BusinessAnalytics
    | Dashboard
    | UserProfile
    | SynverseNetwork

  /** The fixed area type each platform area is declared with. */
  function AreaType(area: PlatformArea): PlatformAreaType {
    match area
    case SyntopiaGamingHub => FullyGamified
    case ConsciousnessQuests => FullyGamified
    case SynTreeRoadmap => PartiallyGamified
    case SynmapGeographical => NonGamified
    case SynshareMarketplace => NonGamified
    case BusinessAnalytics => NonGamified
    case Dashboard => AdaptiveGamification
    case UserProfile => AdaptiveGamification
    case SynverseNetwork => SelectivelyGamified
  }

  /** A user's choice of how much gamification to see. */
  datatype GamificationPreference = Maximum | Moderate | Minimal | Professional | Disabled
}

=== FILE: gene_key.dfy ===
/** One of the 64 gene keys with its line, and the key-level relations:
    complementarity, codon-ring grouping, equality and hashing. */
module GeneKeys {
  import opened JavaMath

  /** A gene key: a number (nominally 1..64), a line (nominally 1..6) and three
      descriptive aspects that play no part in equality. */
  datatype GeneKey = GeneKey(
    keyNumber: int,
    line: int,
    shadowAspect: string,
    giftAspect: string,
    siddhiAspect: string)

  /** The two-argument constructor: number and line, with the placeholder
      aspects it loads for keys 1, 2 and every other key. */
  function NewGeneKey(keyNumber: int, line: int): (k: GeneKey)
    ensures k.keyNumber == keyNumber && k.line == line
    ensures keyNumber == 1 ==> k.giftAspect == "Freshness"
    ensures keyNumber == 2 ==> k.giftAspect == "Orientation"
    ensures keyNumber != 1 && keyNumber != 2 ==> k.giftAspect == "Unknown Gift"
  {
    if keyNumber == 1 then GeneKey(keyNumber, line, "Entropy", "Freshness", "Beauty")
    else if keyNumber == 2 then GeneKey(keyNumber, line, "Disorientation", "Orientation", "Love")
    else GeneKey(keyNumber, line, "Unknown Shadow", "Unknown Gift", "Unknown Siddhi")
  }

  /** Two keys are complementary when their numbers add up to 65. */
  predicate IsComplementaryTo(a: GeneKey, b: GeneKey) {
    a.keyNumber + b.keyNumber == 65
  }

  /** The codon ring of a key: `(keyNumber - 1) % 22 + 1` with Java's `%`. */
  function CodonRingOf(k: GeneKey): (ring: int)
    ensures k.keyNumber >= 1 ==> 1 <= ring <= 22
    ensures k.keyNumber >= 1 ==> ring == (k.keyNumber - 1) % 22 + 1
    ensures k.keyNumber < 1 ==> ring <= 1
  {
    JavaRem(k.keyNumber - 1, 22) + 1
  }

  predicate IsInSameCodonRing(a: GeneKey, b: GeneKey) {
    CodonRingOf(a) == CodonRingOf(b)
  }

  /** `equals`: number and line only. */
  predicate KeyEquals(a: GeneKey, b: GeneKey) {
    a.keyNumber == b.keyNumber && a.line == b.line
  }

  /** `hashCode`: `Objects.hash(keyNumber, line)`, i.e. `31 * (31 + keyNumber) + line`
      in 32-bit arithmetic. */
  function KeyHash(k: GeneKey): (h: int)
    ensures -0x8000_0000 <= h < 0x8000_0000
  {
    Wrap32(31 * (31 + k.keyNumber) + k.line)
  }

  lemma ComplementarySymmetric(a: GeneKey, b: GeneKey)
    ensures IsComplementaryTo(a, b) <==> IsComplementaryTo(b, a)
  {
  }

  /** No key is its own complement: 65 is odd. */
  lemma ComplementaryIrreflexive(a: GeneKey)
    ensures !IsComplementaryTo(a, a)
  {
  }

  /** Keys 22 apart share a codon ring. */
  lemma CodonRingPeriod(a: GeneKey, b: GeneKey)
    requires a.keyNumber >= 1 && b.keyNumber == a.keyNumber + 22
    ensures IsInSameCodonRing(a, b)
  {
  }

  /** Sharing a codon ring is an equivalence relation. */
  lemma SameCodonRingIsEquivalence(a: GeneKey, b: GeneKey, c: GeneKey)
    ensures IsInSameCodonRing(a, a)
    ensures IsInSameCodonRing(a, b) ==> IsInSameCodonRing(b, a)
    ensures IsInSameCodonRing(a, b) && IsInSameCodonRing(b, c) ==> IsInSameCodonRing(a, c)
  {
  }

  /** Equal keys hash alike, and neither relation looks at the aspects. */
  lemma EqualsAndHashIgnoreAspects(a: GeneKey, b: GeneKey)
    ensures KeyEquals(a, b) ==> KeyHash(a) == KeyHash(b)
    ensures KeyEquals(a, a.(shadowAspect := b.shadowAspect, giftAspect := b.giftAspect,
                             siddhiAspect := b.siddhiAspect))
    ensures KeyHash(a) == KeyHash(a.(shadowAspect := b.shadowAspect, giftAspect := b.giftAspect,
                                       siddhiAspect := b.siddhiAspect))
  {
  }
}

=== FILE: gene_keys_calculation.dfy ===
/** The hologenetic-profile calculator: day of the year, the four prime-gift
    positions wrapped into the gene keys 1..64, the 26-key pearl sequence,
    codon-ring matches against the ring catalogue, and the Fibonacci power
    behind the consciousness coherence. Java `double` arithmetic is exact
    `real` arithmetic here. */
module GeneKeysCalculation {
  import opened Wrappers
  import opened JavaMath
  import CodonRings
  import ConsciousnessStates
  import Hologenetic

  const Fibonacci12: seq<int> := [1, 1, 2, 3, 5, 8, 13, 21, 34, 55, 89, 144]

  /** Month lengths of a common year; leap days are never counted. */
  const DaysInMonth: seq<int> := [31, 28, 31, 30, 31, 30, 31, 31, 30, 31, 30, 31]

  /** The fields of the birth `LocalDateTime` the calculation reads. */
  datatype BirthMoment = BirthMoment(year: int, month: int, day: int, hour: int, minute: int)

  /** What a `LocalDateTime` guarantees about its fields. */
  predicate ValidMoment(b: BirthMoment) {
    1 <= b.month <= 12 && 1 <= b.day <= 31 && 0 <= b.hour < 24 && 0 <= b.minute < 60
  }

  datatype PrimeGifts = PrimeGifts(lifeWork: int, evolution: int, radiance: int, purpose: int)

  // ---------------------------------------------------------------------------
  // Day of the year
  // ---------------------------------------------------------------------------

  /** The days of the first `m` months. */
  function DaysBefore(m: nat): nat
    requires m <= 12
  {
    if m == 0 then 0 else DaysBefore(m - 1) + DaysInMonth[m - 1]
  }

  lemma {:induction false} DaysBeforeMonotone(a: nat, b: nat)
    requires a <= b <= 12
    ensures DaysBefore(a) <= DaysBefore(b)
    decreases b - a
  {
    if a < b {
      DaysBeforeMonotone(a, b - 1);
    }
  }

  /** `calculateDayOfYear`: the day plus the lengths of the months before it.
      A month past 13 runs the loop off the end of the table. */
  function DayOfYear(month: int, day: int): (r: Result<int>)
    ensures r.Err? <==> month > 13
    ensures r.Err? ==> r.error == IndexOutOfBounds
    ensures month <= 1 ==> r == Ok(day)
  {
    if month > 13 then Err(IndexOutOfBounds)
    else if month <= 1 then Ok(day)
    else Ok(day + DaysBefore(month - 1))
  }

  /** The loop of `calculateDayOfYear`, step by step. */
  method CalculateDayOfYear(month: int, day: int) returns (r: Result<int>)
    ensures r == DayOfYear(month, day)
  {
    var dayOfYear := day;
    var i := 0;
    while i < month - 1
      invariant 0 <= i <= 12 && i <= MaxInt(0, month - 1)
      invariant dayOfYear == day + DaysBefore(i)
    {
      if i >= 12 {
        return Err(IndexOutOfBounds);
      }
      dayOfYear := dayOfYear + DaysInMonth[i];
      i := i + 1;
    }
    return Ok(dayOfYear);
  }

  /** A date of a common year gets a day number in 1..365. */
  lemma DayOfYearRange(month: int, day: int)
    requires 1 <= month <= 12 && 1 <= day <= DaysInMonth[month - 1]
    ensures DayOfYear(month, day).Ok?
    ensures 1 <= DayOfYear(month, day).value <= 365
  {
    DaysBeforeMonotone(month, 12);
    assert DaysBefore(month) == DaysBefore(month - 1) + DaysInMonth[month - 1];
    assert DaysBefore(4) == 120;
    assert DaysBefore(8) == 243;
    assert DaysBefore(12) == 365;
  }

  /** Day numbers follow the calendar order of common-year dates. */
  lemma DayOfYearPreservesOrder(m1: int, d1: int, m2: int, d2: int)
    requires 1 <= m1 <= 12 && 1 <= d1 <= DaysInMonth[m1 - 1]
    requires 1 <= m2 <= 12 && 1 <= d2 <= DaysInMonth[m2 - 1]
    requires m1 < m2 || (m1 == m2 && d1 < d2)
    ensures DayOfYear(m1, d1).value < DayOfYear(m2, d2).value
  {
    if m1 < m2 {
      DaysBeforeMonotone(m1, m2 - 1);
      assert DaysBefore(m1) == DaysBefore(m1 - 1) + DaysInMonth[m1 - 1];
    }
  }

  // ---------------------------------------------------------------------------
  // Positions
  // ---------------------------------------------------------------------------

  /** Reduction into the gene keys: Java's `% 64`, with 0 read as key 64. */
  function WrapKey(x: int): (k: int)
    ensures x >= 0 ==> 1 <= k <= 64 && k % 64 == x % 64
    ensures x < 0 ==> (-63 <= k <= -1 || k == 64)
  {
    var r := JavaRem(x, 64);
    if r == 0 then 64 else r
  }

  /** Java's `%` on doubles with divisor 64: the remainder keeps the sign of
      the dividend. */
  function FMod64(x: real): (r: real)
    ensures x >= 0.0 ==> 0.0 <= r < 64.0
    ensures x < 0.0 ==> -64.0 < r <= 0.0
  {
    x - 64.0 * TruncToInt(x / 64.0) as real
  }

  /** Life-work key: solar cycle plus a golden-ratio adjustment. */
  function SolarPosition(dayOfYear: int): (k: int)
    ensures dayOfYear >= 0 ==> 1 <= k <= 64
  {
    var solarCycle := dayOfYear as real / 365.25 * 64.0;
    var goldenAdjustment := FMod64(dayOfYear as real * GoldenRatio);
    WrapKey(TruncToInt(solarCycle + goldenAdjustment))
  }

  function TotalDays(year: int, dayOfYear: int): int {
    (year - 2000) * 365 + dayOfYear
  }

  /** Evolution key: lunar cycle plus the Fibonacci number at the day count
      modulo 12. Java's `%` leaves a negative index for most days before
      2000, and the array access then throws. */
  function LunarPosition(year: int, dayOfYear: int): (r: Result<int>)
    ensures r.Err? <==> JavaRem(TotalDays(year, dayOfYear), 12) < 0
    ensures r.Err? ==> r.error == IndexOutOfBounds
    ensures TotalDays(year, dayOfYear) >= 0 ==> r.Ok? && 1 <= r.value <= 64
  {
    var totalDays := TotalDays(year, dayOfYear);
    var lunarCycle := totalDays as real / 29.53 * 64.0;
    var fibonacciIndex := JavaRem(totalDays, 12);
    if fibonacciIndex < 0 then Err(IndexOutOfBounds)
    else
      assert lunarCycle >= 0.0 || totalDays < 0;
      Ok(WrapKey(TruncToInt(lunarCycle) + Fibonacci12[fibonacciIndex]))
  }

  /** Radiance key: an 88-day Mercury cycle in hours plus an hour adjustment. */
  function MercuryPosition(dayOfYear: int, hour: int): (k: int)
    ensures dayOfYear >= 0 && hour >= 0 ==> 1 <= k <= 64
  {
    var totalHours := dayOfYear * 24 + hour;
    var mercuryCycle := totalHours as real / (88.0 * 24.0) * 64.0;
    var timeAdjustment := FMod64(hour as real * GoldenRatio);
    WrapKey(TruncToInt(mercuryCycle + timeAdjustment))
  }

  /** Purpose key: a twelve-year Jupiter cycle plus a year adjustment. */
  function JupiterPosition(year: int, dayOfYear: int): (k: int)
    ensures year >= 0 && dayOfYear >= 0 ==> 1 <= k <= 64
  {
    var jupiterCycle := (JavaRem(year, 12) as real + dayOfYear as real / 365.25) * (64.0 / 12.0);
    var purposeAdjustment := FMod64(year as real * GoldenRatio);
    WrapKey(TruncToInt(jupiterCycle + purposeAdjustment))
  }

  predicate InKeyRange(g: PrimeGifts) {
    1 <= g.lifeWork <= 64 && 1 <= g.evolution <= 64 && 1 <= g.radiance <= 64 && 1 <= g.purpose <= 64
  }

  /** `calculatePrimeGifts`: only the lunar position can fail. */
  function CalculatePrimeGifts(b: BirthMoment): (r: Result<PrimeGifts>)
    requires ValidMoment(b)
    ensures r.Err? <==> JavaRem(TotalDays(b.year, DayOfYear(b.month, b.day).value), 12) < 0
    ensures r.Err? ==> r.error == IndexOutOfBounds
    ensures b.year >= 2000 ==> r.Ok? && InKeyRange(r.value)
    ensures r.Ok? ==> r.value.lifeWork == SolarPosition(DayOfYear(b.month, b.day).value)
  {
    var dayOfYear := DayOfYear(b.month, b.day).value;
    match LunarPosition(b.year, dayOfYear)
    case Err(e) => Err(e)
    case Ok(evolution) =>
      Ok(PrimeGifts(SolarPosition(dayOfYear), evolution, MercuryPosition(dayOfYear, b.hour),
                    JupiterPosition(b.year, dayOfYear)))
  }

  /** The first day of 1999 is 364 days before the epoch of the lunar count;
      -364 % 12 is -4 in Java, so the calculation fails. */
  lemma PreMillenniumBirthFails()
    ensures CalculatePrimeGifts(BirthMoment(1999, 1, 1, 0, 0)) == Err(IndexOutOfBounds)
  {
    assert DayOfYear(1, 1) == Ok(1);
    assert TotalDays(1999, 1) == -364;
    assert JavaRem(-364, 12) == -4;
  }

  // ---------------------------------------------------------------------------
  // Pearl sequence
  // ---------------------------------------------------------------------------

  /** `calculatePearlSequence`: 26 keys stepping from the base key by
      Fibonacci multiples of their position. */
  method CalculatePearlSequence(baseKey: int) returns (keys: seq<int>)
    ensures |keys| == 26
    ensures forall i :: 0 <= i < 26 ==> keys[i] == WrapKey(baseKey + i * Fibonacci12[i % 12])
    ensures baseKey >= 0 ==> forall i :: 0 <= i < 26 ==> 1 <= keys[i] <= 64
    ensures 1 <= baseKey <= 64 ==> keys[0] == baseKey
  {
    keys := [];
    var i := 0;
    while i < 26
      invariant 0 <= i <= 26 && |keys| == i
      invariant forall j :: 0 <= j < i ==> keys[j] == WrapKey(baseKey + j * Fibonacci12[j % 12])
      invariant baseKey >= 0 ==> forall j :: 0 <= j < i ==> 1 <= keys[j] <= 64
    {
      var fibonacciStep := Fibonacci12[i % 12];
      assert fibonacciStep >= 1;
      assert i * fibonacciStep >= 0;
      keys := keys + [WrapKey(baseKey + i * fibonacciStep)];
      i := i + 1;
    }
  }

  // ---------------------------------------------------------------------------
  // Codon-ring matches
  // ---------------------------------------------------------------------------

  /** One entry of the ring catalogue: its gene keys and its ring number
      (a boxed integer, possibly null). */
  datatype RingData = RingData(geneKeys: seq<int>, ringNumber: Option<int>)

  /** A ring the user's gifts touch, with the gifts that touch it; the
      membership's primary key is one of them. */
  datatype RingMatch = RingMatch(ring: CodonRings.CodonRing, overlap: set<int>)

  predicate GiftsDistinct(g: PrimeGifts) {
    g.lifeWork != g.evolution && g.lifeWork != g.radiance && g.lifeWork != g.purpose
    && g.evolution != g.radiance && g.evolution != g.purpose && g.radiance != g.purpose
  }

  function GiftKeys(g: PrimeGifts): set<int> {
    {g.lifeWork, g.evolution, g.radiance, g.purpose}
  }

  function Overlap(userKeys: set<int>, ring: RingData): set<int> {
    set k | k in userKeys && k in ring.geneKeys
  }

  /** A touched ring must name a valid position in the ring enumeration. */
  predicate RingResolves(userKeys: set<int>, ring: RingData) {
    Overlap(userKeys, ring) != {} ==> ring.ringNumber.Some? && 1 <= ring.ringNumber.value <= 22
  }

  /** The catalogue loop: every ring the user's keys touch becomes a match, in
      catalogue order; the first touched ring with a null or out-of-range
      number throws. */
  function MatchRings(userKeys: set<int>, rings: seq<RingData>): (r: Result<seq<RingMatch>>)
    ensures r.Ok? <==> forall i :: 0 <= i < |rings| ==> RingResolves(userKeys, rings[i])
    ensures r.Ok? ==> |r.value| <= |rings|
  {
    if rings == [] then Ok([])
    else
      var ring := rings[0];
      var overlap := Overlap(userKeys, ring);
      if overlap == {} then
        var r := MatchRings(userKeys, rings[1..]);
        assert r.Ok? <==> forall i :: 1 <= i < |rings| ==> RingResolves(userKeys, rings[i]) by {
          assert forall i :: 1 <= i < |rings| ==> rings[i] == rings[1..][i - 1];
        }
        r
      else if ring.ringNumber.None? then Err(NullPointer)
      else if !(1 <= ring.ringNumber.value <= 22) then Err(IndexOutOfBounds)
      else
        var r := MatchRings(userKeys, rings[1..]);
        assert r.Ok? <==> forall i :: 1 <= i < |rings| ==> RingResolves(userKeys, rings[i]) by {
          assert forall i :: 1 <= i < |rings| ==> rings[i] == rings[1..][i - 1];
        }
        match r
        case Err(e) => Err(e)
        case Ok(rest) => Ok([RingMatch(CodonRings.Values[ring.ringNumber.value - 1], overlap)] + rest)
  }

  /** Every match comes from a touched ring and carries that ring's overlap
      with the user's keys. */
  lemma {:induction false} MatchesComeFromTouchedRings(userKeys: set<int>, rings: seq<RingData>)
    requires MatchRings(userKeys, rings).Ok?
    ensures forall m :: m in MatchRings(userKeys, rings).value ==>
              m.overlap != {} && m.overlap <= userKeys
              && exists i :: 0 <= i < |rings| && m.overlap == Overlap(userKeys, rings[i])
  {
    if rings != [] {
      MatchesComeFromTouchedRings(userKeys, rings[1..]);
      forall m | m in MatchRings(userKeys, rings[1..]).value
        ensures exists i :: 0 <= i < |rings| && m.overlap == Overlap(userKeys, rings[i])
      {
        var j :| 0 <= j < |rings[1..]| && m.overlap == Overlap(userKeys, rings[1..][j]);
        assert rings[1..][j] == rings[j + 1];
      }
    }
  }

  /** Every touched ring becomes a match, resolved through the enumeration. */
  lemma {:induction false} TouchedRingsAreMatched(userKeys: set<int>, rings: seq<RingData>)
    requires MatchRings(userKeys, rings).Ok?
    ensures forall i :: 0 <= i < |rings| && Overlap(userKeys, rings[i]) != {} ==>
              RingMatch(CodonRings.Values[rings[i].ringNumber.value - 1], Overlap(userKeys, rings[i]))
                in MatchRings(userKeys, rings).value
  {
    if rings != [] {
      TouchedRingsAreMatched(userKeys, rings[1..]);
      forall i | 0 <= i < |rings| && Overlap(userKeys, rings[i]) != {}
        ensures RingMatch(CodonRings.Values[rings[i].ringNumber.value - 1], Overlap(userKeys, rings[i]))
                  in MatchRings(userKeys, rings).value
      {
        if i > 0 {
          assert rings[i] == rings[1..][i - 1];
        }
      }
    }
  }

  /** `calculateCodonRingMemberships`: building the gift set rejects
      duplicate keys before the catalogue is read. */
  function CodonRingMemberships(g: PrimeGifts, rings: seq<RingData>): (r: Result<seq<RingMatch>>)
    ensures r.Err? <==> !GiftsDistinct(g) || exists i :: 0 <= i < |rings| && !RingResolves(GiftKeys(g), rings[i])
    ensures !GiftsDistinct(g) ==> r == Err(IllegalArgument)
    ensures r.Ok? ==> forall m :: m in r.value ==> m.overlap != {} && m.overlap <= GiftKeys(g)
  {
    if !GiftsDistinct(g) then Err(IllegalArgument)
    else
      var r := MatchRings(GiftKeys(g), rings);
      if r.Err? then r
      else
        MatchesComeFromTouchedRings(GiftKeys(g), rings);
        r
  }

  // ---------------------------------------------------------------------------
  // Power and consciousness state
  // ---------------------------------------------------------------------------

  /** `FIBONACCI_SEQUENCE[k % 12]` can be read: Java's `%` is not negative. */
  predicate PowerIndexOk(k: int) {
    JavaRem(k, 12) >= 0
  }

  /** The integer sum inside `calculateConsciousnessPower`. */
  function PowerSum(g: PrimeGifts): (r: Result<int>)
    ensures r.Ok? <==> PowerIndexOk(g.lifeWork) && PowerIndexOk(g.evolution)
                       && PowerIndexOk(g.radiance) && PowerIndexOk(g.purpose)
    ensures r.Err? ==> r.error == IndexOutOfBounds
    ensures r.Ok? ==> 4 <= r.value <= 576
    ensures g.lifeWork >= 0 && g.evolution >= 0 && g.radiance >= 0 && g.purpose >= 0 ==> r.Ok?
  {
    if !(PowerIndexOk(g.lifeWork) && PowerIndexOk(g.evolution) && PowerIndexOk(g.radiance)
         && PowerIndexOk(g.purpose)) then Err(IndexOutOfBounds)
    else
      FibonacciBounds(JavaRem(g.lifeWork, 12));
      FibonacciBounds(JavaRem(g.evolution, 12));
      FibonacciBounds(JavaRem(g.radiance, 12));
      FibonacciBounds(JavaRem(g.purpose, 12));
      Ok(Fibonacci12[JavaRem(g.lifeWork, 12)] + Fibonacci12[JavaRem(g.evolution, 12)]
         + Fibonacci12[JavaRem(g.radiance, 12)] + Fibonacci12[JavaRem(g.purpose, 12)])
  }

  lemma FibonacciBounds(i: int)
    requires 0 <= i < 12
    ensures 1 <= Fibonacci12[i] <= 144
  {
  }

  /** Keys congruent to 11 modulo 12 reach the top of the table, and the
      coherence then lies far above the "0 to 10" its comment promises. */
  lemma PowerCanExceedTen()
    ensures PowerSum(PrimeGifts(11, 23, 35, 47)) == Ok(576)
    ensures 576.0 / GoldenRatio / 10.0 > 10.0
  {
    assert JavaRem(11, 12) == 11 && JavaRem(23, 12) == 11;
    assert JavaRem(35, 12) == 11 && JavaRem(47, 12) == 11;
  }

  /** `assessCurrentConsciousnessState`: the life-work key at shadow 20 and
      gift 80, with the power scaled by the golden ratio as coherence. */
  function AssessCurrentConsciousnessState(g: PrimeGifts): (r: Result<ConsciousnessStates.State>)
    ensures r.Err? <==> PowerSum(g).Err?
    ensures r.Ok? ==> r.value.primaryActivatedGeneKey == g.lifeWork
    ensures r.Ok? ==> ConsciousnessStates.IsInGiftFrequency(r.value)
                      && !ConsciousnessStates.IsInShadowFrequency(r.value)
    ensures r.Ok? ==> r.value.coherence.Some? && 0.0 < r.value.coherence.value < 36.0
  {
    match PowerSum(g)
    case Err(e) => Err(e)
    case Ok(power) =>
      var state := ConsciousnessStates.NewState(g.lifeWork, 20, 80);
      Ok(state.(coherence := Some(power as real / GoldenRatio / 10.0)))
  }

  // ---------------------------------------------------------------------------
  // The profile
  // ---------------------------------------------------------------------------

  /** `calculateHologeneticProfile`: every intermediate result is computed and
      then dropped; the profile holds the birth data and the build time only.
      `birthDate` and `birthTime` are the date and the formatted time of `b`. */
  function CalculateHologeneticProfile(b: BirthMoment, birthDate: int, birthTime: string,
                                       birthLocation: Option<string>, rings: seq<RingData>,
                                       now: int): (r: Result<Hologenetic.Profile>)
    requires ValidMoment(b)
    ensures r.Ok? <==> CalculatePrimeGifts(b).Ok?
                       && CodonRingMemberships(CalculatePrimeGifts(b).value, rings).Ok?
                       && PowerSum(CalculatePrimeGifts(b).value).Ok?
    ensures r.Ok? ==> r.value == Hologenetic.EmptyProfile().(birthDate := Some(birthDate),
                                   birthTime := Some(birthTime), birthLocation := birthLocation,
                                   calculatedAt := Some(now))
    ensures r.Ok? ==> !Hologenetic.IsComplete(r.value) && r.value.pearlSequence == []
  {
    match CalculatePrimeGifts(b)
    case Err(e) => Err(e)
    case Ok(gifts) =>
      var memberships := CodonRingMemberships(gifts, rings);
      var state := AssessCurrentConsciousnessState(gifts);
      if memberships.Err? then Err(memberships.error)
      else if state.Err? then Err(state.error)
      else
        Ok(Hologenetic.EmptyProfile().(birthDate := Some(birthDate), birthTime := Some(birthTime),
                                       birthLocation := birthLocation, calculatedAt := Some(now)))
  }

  /** From 2000 on, every key is in range, so only duplicate gifts or a bad
      catalogue entry make the calculation fail. */
  lemma ModernBirthsFailOnlyOnDuplicatesOrCatalogue(b: BirthMoment, birthDate: int, birthTime: string,
                                                    birthLocation: Option<string>, rings: seq<RingData>,
                                                    now: int)
    requires ValidMoment(b) && b.year >= 2000
    ensures var g := CalculatePrimeGifts(b).value;
            CalculateHologeneticProfile(b, birthDate, birthTime, birthLocation, rings, now).Ok?
            <==> GiftsDistinct(g) && forall i :: 0 <= i < |rings| ==> RingResolves(GiftKeys(g), rings[i])
  {
  }
}

=== FILE: hologenetic_profile.dfy ===
/** A user's hologenetic profile: birth data, the activation and Venus
    sequences of gene keys, the pearl sequences, the associated codon rings,
    and the profile-to-profile resonance score. */
module Hologenetic {
  import opened Wrappers
  import opened JavaMath
  import opened GeneKeys
  import opened SetMath

  /** Timestamps (`LocalDateTime`) are nanoseconds; absent references are `None`. */
  datatype Profile = Profile(
    birthDate: Option<int>,
    birthTime: Option<string>,
    birthLocation: Option<string>,
    birthTimezone: Option<string>,
    lifework: Option<GeneKey>,
    evolution: Option<GeneKey>,
    radiance: Option<GeneKey>,
    purpose: Option<GeneKey>,
    attraction: Option<GeneKey>,
    intellectual: Option<GeneKey>,
    emotional: Option<GeneKey>,
    spiritual: Option<GeneKey>,
    pearlSequence: seq<GeneKey>,
    starPearlSequence: seq<GeneKey>,
    associatedCodonRings: set<int>,
    calculatedAt: Option<int>,
    isVerified: bool,
    verificationNotes: Option<string>)

  /** The no-argument constructor: nothing set, empty collections, unverified. */
  function EmptyProfile(): (p: Profile)
    ensures p.lifework.None? && p.calculatedAt.None? && !p.isVerified
    ensures p.pearlSequence == [] && p.starPearlSequence == [] && p.associatedCodonRings == {}
  {
    Profile(None, None, None, None, None, None, None, None, None, None, None, None,
            [], [], {}, None, false, None)
  }

  /** The four-argument constructor: birth data, stamped with the clock reading `now`. */
  function NewProfile(birthDate: int, birthTime: string, birthLocation: string,
                      birthTimezone: string, now: int): (p: Profile)
    ensures p.birthDate == Some(birthDate) && p.birthTime == Some(birthTime)
    ensures p.birthLocation == Some(birthLocation) && p.birthTimezone == Some(birthTimezone)
    ensures p.calculatedAt == Some(now)
    ensures p.lifework.None? && !IsComplete(p)
  {
    EmptyProfile().(birthDate := Some(birthDate), birthTime := Some(birthTime),
                    birthLocation := Some(birthLocation), birthTimezone := Some(birthTimezone),
                    calculatedAt := Some(now))
  }

  /** Activation, radiance, attraction and calculation time are all present. */
  predicate IsComplete(p: Profile) {
    p.lifework.Some? && p.evolution.Some? && p.radiance.Some? && p.purpose.Some?
    && p.attraction.Some? && p.calculatedAt.Some?
  }

  predicate HasVenusSequence(p: Profile) {
    p.attraction.Some? && p.intellectual.Some? && p.emotional.Some? && p.spiritual.Some?
  }

  predicate HasPearlSequence(p: Profile) {
    p.pearlSequence != []
  }

  predicate HasStarPearlSequence(p: Profile) {
    p.starPearlSequence != []
  }

  /** The placeholder activation sequence: keys 1..4 on lines 1..4, stamped
      with `now`; nothing else changes. */
  function CalculateActivationSequence(p: Profile, now: int): (q: Profile)
    ensures q.lifework.Some? && q.lifework.value.keyNumber == 1 && q.lifework.value.line == 1
    ensures q.evolution.Some? && q.evolution.value.keyNumber == 2 && q.evolution.value.line == 2
    ensures q.radiance.Some? && q.radiance.value.keyNumber == 3 && q.radiance.value.line == 3
    ensures q.purpose.Some? && q.purpose.value.keyNumber == 4 && q.purpose.value.line == 4
    ensures q.calculatedAt == Some(now)
    ensures q == p.(lifework := q.lifework, evolution := q.evolution, radiance := q.radiance,
                    purpose := q.purpose, calculatedAt := q.calculatedAt)
  {
    p.(lifework := Some(NewGeneKey(1, 1)), evolution := Some(NewGeneKey(2, 2)),
       radiance := Some(NewGeneKey(3, 3)), purpose := Some(NewGeneKey(4, 4)),
       calculatedAt := Some(now))
  }

  /** The placeholder Venus sequence: keys 5..8 on lines 1..4; nothing else changes. */
  function CalculateVenusSequence(p: Profile): (q: Profile)
    ensures HasVenusSequence(q)
    ensures q.attraction.value.keyNumber == 5 && q.spiritual.value.keyNumber == 8
    ensures q == p.(attraction := q.attraction, intellectual := q.intellectual,
                    emotional := q.emotional, spiritual := q.spiritual)
  {
    p.(attraction := Some(NewGeneKey(5, 1)), intellectual := Some(NewGeneKey(6, 2)),
       emotional := Some(NewGeneKey(7, 3)), spiritual := Some(NewGeneKey(8, 4)))
  }

  /** Four consecutive keys from `first`, each on line `(key % 6) + 1`. */
  function KeyRun(first: int): (keys: seq<GeneKey>)
    requires first >= 0
    ensures |keys| == 4
    ensures forall i :: 0 <= i < 4 ==> keys[i].keyNumber == first + i
    ensures forall i :: 0 <= i < 4 ==> 1 <= keys[i].line <= 6
  {
    [NewGeneKey(first, first % 6 + 1), NewGeneKey(first + 1, (first + 1) % 6 + 1),
     NewGeneKey(first + 2, (first + 2) % 6 + 1), NewGeneKey(first + 3, (first + 3) % 6 + 1)]
  }

  /** The pearl sequence is replaced by keys 9..12; nothing else changes. */
  function CalculatePearlSequence(p: Profile): (q: Profile)
    ensures HasPearlSequence(q) && |q.pearlSequence| == 4
    ensures forall i :: 0 <= i < 4 ==> q.pearlSequence[i].keyNumber == 9 + i
    ensures q == p.(pearlSequence := q.pearlSequence)
  {
    p.(pearlSequence := KeyRun(9))
  }

  /** The star pearl sequence is replaced by keys 13..16; nothing else changes. */
  function CalculateStarPearlSequence(p: Profile): (q: Profile)
    ensures HasStarPearlSequence(q) && |q.starPearlSequence| == 4
    ensures forall i :: 0 <= i < 4 ==> q.starPearlSequence[i].keyNumber == 13 + i
    ensures q == p.(starPearlSequence := q.starPearlSequence)
  {
    p.(starPearlSequence := KeyRun(13))
  }

  /** The ring set is cleared, then holds `(lifework % 22) + 1` if there is a
      lifework key; nothing else changes. */
  function CalculateCodonRingAssociations(p: Profile): (q: Profile)
    ensures p.lifework.None? ==> q.associatedCodonRings == {}
    ensures p.lifework.Some? ==> |q.associatedCodonRings| == 1
    ensures p.lifework.Some? && p.lifework.value.keyNumber >= 0 ==>
              q.associatedCodonRings == {p.lifework.value.keyNumber % 22 + 1}
    ensures forall r :: r in q.associatedCodonRings ==> -20 <= r <= 22
    ensures q == p.(associatedCodonRings := q.associatedCodonRings)
  {
    if p.lifework.Some? then
      p.(associatedCodonRings := {JavaRem(p.lifework.value.keyNumber, 22) + 1})
    else
      p.(associatedCodonRings := {})
  }

  predicate IsCompatibleWithCodonRing(p: Profile, ringNumber: int) {
    ringNumber in p.associatedCodonRings
  }

  /** A copy of the associated rings. */
  function GetCompatibleCodonRings(p: Profile): (rings: set<int>)
    ensures forall n :: n in rings <==> IsCompatibleWithCodonRing(p, n)
  {
    p.associatedCodonRings
  }

  /** The profile's own complementarity test: `(a + b) % 64 == 0`. */
  predicate AreComplementaryKeys(a: int, b: int) {
    JavaRem(a + b, 64) == 0
  }

  /** Resonance of two keys: 1 for equal keys, otherwise 0.3 for a shared line
      plus 0.7 for complementary numbers, at most 1. */
  function GeneKeyResonance(a: GeneKey, b: GeneKey): (r: real)
    ensures r == 0.0 || r == 0.3 || r == 0.7 || r == 1.0
    ensures KeyEquals(a, b) ==> r == 1.0
    ensures r == 1.0 <==> KeyEquals(a, b) || (a.line == b.line && AreComplementaryKeys(a.keyNumber, b.keyNumber))
    ensures r == 0.0 <==> !KeyEquals(a, b) && a.line != b.line && !AreComplementaryKeys(a.keyNumber, b.keyNumber)
  {
    if KeyEquals(a, b) then 1.0
    else
      var lineBonus := if a.line == b.line then 0.3 else 0.0;
      var complementBonus := if AreComplementaryKeys(a.keyNumber, b.keyNumber) then 0.7 else 0.0;
      MinReal(lineBonus + complementBonus, 1.0)
  }

  /** `|common| / max(|A|, |B|)` in `double`: `0.0 / 0` is NaN. */
  function RingResonance(a: set<int>, b: set<int>): (r: Double)
    ensures r == NaN <==> a == {} && b == {}
    ensures r.Finite? ==> 0.0 <= r.v <= 1.0
    ensures r.Finite? ==> (r.v == 1.0 <==> a == b)
  {
    var common := a * b;
    var denominator := MaxInt(|a|, |b|);
    if denominator == 0 then NaN
    else
      IntersectionBounds(a, b);
      FullOverlapIffEqual(a, b);
      RatioBounds(|common|, denominator);
      Finite(|common| as real / denominator as real)
  }

  /** `calculateResonanceWith`: 0 unless both profiles are complete; otherwise
      the mean of the lifework, evolution and attraction key resonances and the
      ring overlap, which is NaN when neither profile has a ring. */
  function CalculateResonanceWith(p: Profile, other: Option<Profile>): (r: Double)
    ensures other.None? || !IsComplete(p) || !IsComplete(other.value) ==> r == Finite(0.0)
    ensures other.Some? && IsComplete(p) && IsComplete(other.value) ==>
              (r == NaN <==> p.associatedCodonRings == {} && other.value.associatedCodonRings == {})
    ensures r.Finite? ==> 0.0 <= r.v <= 1.0
  {
    if other.None? || !IsComplete(p) || !IsComplete(other.value) then Finite(0.0)
    else
      var q := other.value;
      // Completeness makes all three key comparisons take place: the count is 4.
      var keys := GeneKeyResonance(p.lifework.value, q.lifework.value)
                + GeneKeyResonance(p.evolution.value, q.evolution.value)
                + GeneKeyResonance(p.attraction.value, q.attraction.value);
      match RingResonance(p.associatedCodonRings, q.associatedCodonRings)
      case NaN => NaN
      case Finite(ring) => Finite((keys + ring) / 4.0)
  }

  lemma GeneKeyResonanceSymmetric(a: GeneKey, b: GeneKey)
    ensures GeneKeyResonance(a, b) == GeneKeyResonance(b, a)
  {
    assert AreComplementaryKeys(a.keyNumber, b.keyNumber) == AreComplementaryKeys(b.keyNumber, a.keyNumber) by {
      assert a.keyNumber + b.keyNumber == b.keyNumber + a.keyNumber;
    }
  }

  /** Resonance is symmetric in the two profiles. */
  lemma ResonanceSymmetric(p: Profile, q: Profile)
    ensures CalculateResonanceWith(p, Some(q)) == CalculateResonanceWith(q, Some(p))
  {
    if IsComplete(p) && IsComplete(q) {
      GeneKeyResonanceSymmetric(p.lifework.value, q.lifework.value);
      GeneKeyResonanceSymmetric(p.evolution.value, q.evolution.value);
      GeneKeyResonanceSymmetric(p.attraction.value, q.attraction.value);
      assert p.associatedCodonRings * q.associatedCodonRings
          == q.associatedCodonRings * p.associatedCodonRings;
    }
  }

  /** A complete profile with at least one ring resonates fully with itself. */
  lemma SelfResonanceIsOne(p: Profile)
    requires IsComplete(p) && p.associatedCodonRings != {}
    ensures CalculateResonanceWith(p, Some(p)) == Finite(1.0)
  {
  }

  /** Activation then Venus calculation makes a profile complete. */
  lemma CalculatedSequencesComplete(p: Profile, now: int)
    ensures IsComplete(CalculateVenusSequence(CalculateActivationSequence(p, now)))
    ensures !IsComplete(CalculateActivationSequence(p, now)) <==> p.attraction.None?
  {
  }

  /** The profile's complementarity test and the gene key's (sum 65) never agree. */
  lemma ComplementarityDefinitionsDisjoint(a: GeneKey, b: GeneKey)
    ensures IsComplementaryTo(a, b) ==> !AreComplementaryKeys(a.keyNumber, b.keyNumber)
    ensures AreComplementaryKeys(1, 63) && !IsComplementaryTo(NewGeneKey(1, 1), NewGeneKey(63, 1))
    ensures !AreComplementaryKeys(1, 64) && IsComplementaryTo(NewGeneKey(1, 1), NewGeneKey(64, 1))
  {
  }

  /** The profile's ring formula is the gene key's ring shifted by one:
      `(k % 22) + 1` versus `(k - 1) % 22 + 1`, so the two never coincide. */
  lemma RingFormulaShifted(p: Profile)
    requires p.lifework.Some? && p.lifework.value.keyNumber >= 1
    ensures CalculateCodonRingAssociations(p).associatedCodonRings
         == {CodonRingOf(p.lifework.value) % 22 + 1}
    ensures CodonRingOf(p.lifework.value) !in CalculateCodonRingAssociations(p).associatedCodonRings
  {
  }
}

=== FILE: java_math.dfy ===
/** Java integer and string semantics that differ from Dafny's built-ins. */
module JavaMath {

  /** The `double` literal 1.618033988749895 that the services use as the golden ratio. */
  const GoldenRatio: real := 1.618033988749895

  /** Java's `%`: the remainder takes the sign of the dividend (truncating
      division), unlike Dafny's Euclidean `%`. */
  function JavaRem(a: int, b: int): (r: int)
    requires b > 0
    ensures a >= 0 ==> 0 <= r < b
    ensures a < 0 ==> -b < r <= 0
    ensures a >= 0 ==> r == a % b
    ensures a == JavaDiv(a, b) * b + r
  {
    if a >= 0 then a % b
    else
      var q := (-a) / b;
      assert -a == q * b + (-a) % b;
      assert JavaDiv(a, b) * b == -(q * b);
      -((-a) % b)
  }

  /** Java's `/` on integers for a positive divisor: rounds toward zero. */
  function JavaDiv(a: int, b: int): (q: int)
    requires b > 0
    ensures a >= 0 ==> 0 <= q && q * b <= a < (q + 1) * b
    ensures a < 0 ==> q <= 0 && (q - 1) * b < a <= q * b
  {
    if a >= 0 then
      FloorDivBounds(a, b);
      a / b
    else
      FloorDivBounds(-a, b);
      -((-a) / b)
  }

  const NanosPerSecond := 1_000_000_000

  /** `Duration.getSeconds` of a gap given in nanoseconds: `Duration.ofNanos`
      rounds toward negative infinity and keeps the nanosecond part
      non-negative. */
  function DurationSeconds(nanos: int): (s: int)
    ensures s * NanosPerSecond <= nanos < s * NanosPerSecond + NanosPerSecond
  {
    nanos / NanosPerSecond
  }

  /** The whole seconds of a gap are the only count that brackets it. */
  lemma DurationSecondsUnique(nanos: int, k: int)
    requires k * NanosPerSecond <= nanos < k * NanosPerSecond + NanosPerSecond
    ensures DurationSeconds(nanos) == k
  {
  }

  /** Reversing a gap negates its whole seconds when it is a whole number of
      seconds, and otherwise lands one second lower. */
  lemma DurationSecondsNegated(nanos: int)
    ensures nanos % NanosPerSecond == 0 ==> DurationSeconds(-nanos) == -DurationSeconds(nanos)
    ensures nanos % NanosPerSecond != 0 ==> DurationSeconds(-nanos) == -DurationSeconds(nanos) - 1
  {
    var s := DurationSeconds(nanos);
    assert nanos == s * NanosPerSecond + nanos % NanosPerSecond;
    if nanos % NanosPerSecond == 0 {
      DurationSecondsUnique(-nanos, -s);
    } else {
      DurationSecondsUnique(-nanos, -s - 1);
    }
  }

  /** Dafny's `/` on a non-negative dividend brackets it between multiples of the divisor. */
  lemma FloorDivBounds(a: nat, b: int)
    requires b > 0
    ensures 0 <= a / b && (a / b) * b <= a < (a / b + 1) * b
  {
    var q, r := a / b, a % b;
    assert a == q * b + r && 0 <= r < b;
    assert (q + 1) * b == q * b + b;
  }

  /** Java's `(int)` cast of a `double`: drops the fractional part, rounding
      toward zero (saturation at the 32-bit bounds is not modelled). */
  function TruncToInt(x: real): (n: int)
    ensures x >= 0.0 ==> 0 <= n && n as real <= x < n as real + 1.0
    ensures x < 0.0 ==> n <= 0 && n as real - 1.0 < x <= n as real
  {
    if x >= 0.0 then x.Floor else -((-x).Floor)
  }

  /** Java's `Math.round(double)`: the nearest integer, halves rounded up. */
  function JavaRound(x: real): (n: int)
    ensures n as real - 0.5 <= x < n as real + 0.5
  {
    (x + 0.5).Floor
  }

  function Abs(x: int): (r: nat)
    ensures r == x || r == -x
  {
    if x < 0 then -x else x
  }

  function MinReal(a: real, b: real): (r: real)
    ensures r <= a && r <= b && (r == a || r == b)
  {
    if a <= b then a else b
  }

  function MaxReal(a: real, b: real): (r: real)
    ensures r >= a && r >= b && (r == a || r == b)
  {
    if a >= b then a else b
  }

  /** `Math.max` and `Math.min` on `int`. */
  function MaxInt(a: int, b: int): (r: int)
    ensures r >= a && r >= b && (r == a || r == b)
  {
    if a >= b then a else b
  }

  function MinInt(a: int, b: int): int {
    if a <= b then a else b
  }

  /** Reduction of an integer into Java's 32-bit signed `int` range, as the
      wrap-around of `int` arithmetic produces it. */
  function Wrap32(x: int): (r: int)
    ensures -0x8000_0000 <= r < 0x8000_0000
    ensures (x - r) % 0x1_0000_0000 == 0
  {
    var m := x % 0x1_0000_0000;
    if m >= 0x8000_0000 then m - 0x1_0000_0000 else m
  }

  /** `sub` occurs in `s` starting at index `i`. */
  predicate OccursAt(s: string, sub: string, i: int) {
    0 <= i <= |s| - |sub| && s[i..i + |sub|] == sub
  }

  /** `String.contains`: `sub` occurs somewhere in `s`. */
  predicate Contains(s: string, sub: string) {
    exists i | 0 <= i <= |s| - |sub| :: OccursAt(s, sub, i)
  }

  /** `Character.toLowerCase` restricted to ASCII letters. */
  function LowerChar(c: char): (d: char)
    ensures 'A' <= c <= 'Z' ==> 'a' <= d <= 'z'
    ensures !('A' <= c <= 'Z') ==> d == c
  {
    if 'A' <= c <= 'Z' then (c as int + 32) as char else c
  }

  /** `String.toLowerCase` restricted to ASCII letters. */
  function ToLower(s: string): (t: string)
    ensures |t| == |s|
    ensures forall i :: 0 <= i < |s| ==> t[i] == LowerChar(s[i])
  {
    seq(|s|, i requires 0 <= i < |s| => LowerChar(s[i]))
  }

  predicate AllDigits(s: string) {
    forall i :: 0 <= i < |s| ==> '0' <= s[i] <= '9'
  }

  /** `Integer.toString` of a non-negative number: its decimal digits, most
      significant first, without leading zeros. */
  function NatToDecimal(n: nat): (s: string)
    ensures 1 <= |s| && AllDigits(s)
    ensures |s| > 1 ==> s[0] != '0'
  {
    if n < 10 then [(48 + n) as char]
    else NatToDecimal(n / 10) + [(48 + n % 10) as char]
  }

  /** The number a string of decimal digits denotes. */
  function DecimalValue(s: string): nat
    requires AllDigits(s)
  {
    if s == [] then 0 else DecimalValue(s[..|s| - 1]) * 10 + (s[|s| - 1] as int - 48)
  }

  /** Reading the digits back gives the number. */
  lemma {:induction false} DecimalRoundTrip(n: nat)
    ensures DecimalValue(NatToDecimal(n)) == n
  {
    if n >= 10 {
      var s := NatToDecimal(n);
      assert s[..|s| - 1] == NatToDecimal(n / 10);
      DecimalRoundTrip(n / 10);
    } else {
      assert NatToDecimal(n)[..0] == [];
    }
  }

  /** `Integer.toString`: a minus sign before the digits of a negative number. */
  function IntToDecimal(i: int): (s: string)
    ensures 1 <= |s|
    ensures s[0] == '-' <==> i < 0
    ensures i >= 0 ==> AllDigits(s) && DecimalValue(s) == i
    ensures i < 0 ==> AllDigits(s[1..]) && DecimalValue(s[1..]) == -i
    ensures s[0] == '0' ==> s == "0"
    ensures i < 0 ==> 2 <= |s| && s[1] != '0'
  {
    DecimalRoundTrip(if i < 0 then -i else i);
    if i < 0 then "-" + NatToDecimal(-i) else NatToDecimal(i)
  }
}

=== FILE: quest_helpers.dfy ===
/** The frontend's display helpers for quests: difficulty colours, quest-type
    icons, business-track colours and decorated titles. Lookups in the
    frontend's string-keyed tables fall back to a default for unknown keys. */
module QuestHelpers {
  import BusinessTracks

  const Green := "#4ade80"
  const Yellow := "#fbbf24"
  const Orange := "#f97316"
  const Red := "#ef4444"

  /** The bands in order of difficulty. */
  const DifficultyColors: seq<string> := [Green, Yellow, Orange, Red]

  /** At most 2 is green, at most 4 yellow, at most 7 orange, anything harder red. */
  function GetDifficultyColor(difficulty: real): (color: string)
    ensures color in DifficultyColors
    ensures color == Green <==> difficulty <= 2.0
    ensures color == Yellow <==> 2.0 < difficulty <= 4.0
    ensures color == Orange <==> 4.0 < difficulty <= 7.0
    ensures color == Red <==> 7.0 < difficulty
  {
    if difficulty <= 2.0 then Green
    else if difficulty <= 4.0 then Yellow
    else if difficulty <= 7.0 then Orange
    else Red
  }

  /** The position of a colour among the bands. */
  function Band(color: string): (i: int)
    ensures color in DifficultyColors ==> 0 <= i < |DifficultyColors| && DifficultyColors[i] == color
  {
    if color == Green then 0 else if color == Yellow then 1 else if color == Orange then 2 else 3
  }

  /** A harder quest never gets an easier colour. */
  lemma DifficultyColorMonotone(a: real, b: real)
    requires a <= b
    ensures Band(GetDifficultyColor(a)) <= Band(GetDifficultyColor(b))
  {
  }

  const QuestTypeIcons: map<string, string> := map[
    "PLATFORM_QUEST" := "🎯",
    "COMMUNITY_QUEST" := "🤝",
    "BUSINESS_QUEST" := "💼",
    "LEADERSHIP_QUEST" := "👑"]

  const DefaultIcon := "✨"

  /** The icon for a quest type, the sparkle for anything unknown. */
  function GetQuestTypeIcon(questType: string): (icon: string)
    ensures questType in QuestTypeIcons ==> icon == QuestTypeIcons[questType] && icon != DefaultIcon
    ensures questType !in QuestTypeIcons ==> icon == DefaultIcon
  {
    if questType in QuestTypeIcons then QuestTypeIcons[questType] else DefaultIcon
  }

  const TrackColors: map<string, string> := map[
    "TECH_DEVELOPER" := "#3b82f6",
    "UX_DESIGNER" := "#8b5cf6",
    "COMMUNITY_BUILDER" := "#10b981",
    "BUSINESS_DEVELOPER" := "#f59e0b",
    "DATA_SCIENTIST" := "#06b6d4",
    "CONTENT_CREATOR" := "#ec4899",
    "QA_SPECIALIST" := "#6366f1"]

  const DefaultTrackColor := "#6b7280"

  /** The colour for a track, grey for anything unknown. */
  function GetBusinessTrackColor(track: string): (color: string)
    ensures track in TrackColors ==> color == TrackColors[track] && color != DefaultTrackColor
    ensures track !in TrackColors ==> color == DefaultTrackColor
  {
    if track in TrackColors then TrackColors[track] else DefaultTrackColor
  }

  /** The frontend's own quest types and tracks. */
  const FrontendQuestTypes: seq<string> := ["PLATFORM_QUEST", "COMMUNITY_QUEST", "BUSINESS_QUEST", "LEADERSHIP_QUEST"]
  const FrontendTracks: seq<string> := [
    "TECH_DEVELOPER", "UX_DESIGNER", "COMMUNITY_BUILDER", "BUSINESS_DEVELOPER",
    "DATA_SCIENTIST", "CONTENT_CREATOR", "QA_SPECIALIST"]

  /** Every frontend quest type has its own icon, and no two share one. */
  lemma QuestIconsDistinct()
    ensures forall q :: q in FrontendQuestTypes ==> GetQuestTypeIcon(q) != DefaultIcon
    ensures forall i, j :: 0 <= i < j < |FrontendQuestTypes| ==>
              GetQuestTypeIcon(FrontendQuestTypes[i]) != GetQuestTypeIcon(FrontendQuestTypes[j])
  {
  }

  /** Every frontend track has its own colour, and no two share one. */
  lemma TrackColorsDistinct()
    ensures forall t :: t in FrontendTracks ==> GetBusinessTrackColor(t) != DefaultTrackColor
    ensures forall i, j :: 0 <= i < j < |FrontendTracks| ==>
              GetBusinessTrackColor(FrontendTracks[i]) != GetBusinessTrackColor(FrontendTracks[j])
  {
  }

  /** The backend's hybrid quests and its legal, finance and sustainability
      tracks are unknown to the frontend tables and get the defaults. */
  lemma BackendOnlyNamesGetDefaults()
    ensures GetQuestTypeIcon("HYBRID_QUEST") == DefaultIcon
    ensures forall t :: t in {BusinessTracks.LegalAdvisor, BusinessTracks.FinanceAnalyst, BusinessTracks.SustainabilityLead}
              ==> GetBusinessTrackColor(BusinessTracks.Name(t)) == DefaultTrackColor
  {
  }

  const TitlePrefixes: map<string, string> := map[
    "PLATFORM_QUEST" := "🎯 Sacred Mission:",
    "COMMUNITY_QUEST" := "🤝 Unity Quest:",
    "BUSINESS_QUEST" := "💼 Enterprise Journey:",
    "LEADERSHIP_QUEST" := "👑 Leadership Challenge:"]

  const DefaultTitlePrefix := "✨ Sacred Quest:"

  function TitlePrefix(questType: string): string {
    if questType in TitlePrefixes then TitlePrefixes[questType] else DefaultTitlePrefix
  }

  /** The type's prefix, a space, then the original title. */
  function EnhanceQuestTitle(originalTitle: string, questType: string): (r: string)
    ensures |r| == |TitlePrefix(questType)| + 1 + |originalTitle|
    ensures r[..|TitlePrefix(questType)|] == TitlePrefix(questType)
    ensures r[|TitlePrefix(questType)|] == ' '
    ensures r[|r| - |originalTitle|..] == originalTitle
    ensures questType !in TitlePrefixes ==> r[..|DefaultTitlePrefix|] == DefaultTitlePrefix
  {
    TitlePrefix(questType) + " " + originalTitle
  }

  /** For one quest type, the decorated title gives back the original. */
  lemma EnhanceQuestTitleInjective(a: string, b: string, questType: string)
    requires EnhanceQuestTitle(a, questType) == EnhanceQuestTitle(b, questType)
    ensures a == b
  {
    var n := |TitlePrefix(questType)| + 1;
    assert a == EnhanceQuestTitle(a, questType)[n..];
    assert b == EnhanceQuestTitle(b, questType)[n..];
  }
}

=== FILE: resonance_connection.dfy ===
/** A resonance connection between two users and its strength thresholds. */
module ResonanceConnections {
  import opened Wrappers
  import opened JavaMath

  datatype ResonanceConnection = ResonanceConnection(
    fromUserId: Option<string>,
    toUserId: Option<string>,
    resonanceStrength: Option<real>,
    geneKeysCompatibility: Option<real>,
    consciousnessLevelSynergy: Option<real>)

  /** The three-argument constructor: the factor fields stay null. */
  function NewConnection(fromUserId: Option<string>, toUserId: Option<string>,
                         strength: Option<real>): (c: ResonanceConnection)
    ensures c.fromUserId == fromUserId && c.toUserId == toUserId && c.resonanceStrength == strength
    ensures c.geneKeysCompatibility.None? && c.consciousnessLevelSynergy.None?
  {
    ResonanceConnection(fromUserId, toUserId, strength, None, None)
  }

  predicate HasStrongResonance(c: ResonanceConnection) {
    c.resonanceStrength.Some? && c.resonanceStrength.value > 0.7
  }

  /** Strength within 0.1 of 1.618. */
  predicate IsGoldenRatioResonance(c: ResonanceConnection) {
    c.resonanceStrength.Some? && AbsReal(c.resonanceStrength.value - 1.618) < 0.1
  }

  function AbsReal(x: real): (r: real)
    ensures r >= 0.0 && (r == x || r == -x)
  {
    if x < 0.0 then -x else x
  }

  /** A golden-ratio strength is always a strong one, and neither holds for a
      strength that lies in [0, 1]. */
  lemma GoldenRatioImpliesStrong(c: ResonanceConnection)
    ensures IsGoldenRatioResonance(c) ==> HasStrongResonance(c)
    ensures c.resonanceStrength.Some? && c.resonanceStrength.value <= 1.0 ==> !IsGoldenRatioResonance(c)
  {
  }
}

=== FILE: resonance_factors.dfy ===
/** The four resonance factors of a connection and their golden-ratio
    weighted overall resonance. */
module ResonanceFactors {
  import opened Wrappers

  datatype Factors = Factors(
    geneKeysCompatibility: Option<real>,
    consciousnessLevelSynergy: Option<real>,
    businessTrackAlignment: Option<real>,
    synchronicityFactor: Option<real>)

  predicate AllPresent(f: Factors) {
    f.geneKeysCompatibility.Some? && f.consciousnessLevelSynergy.Some?
    && f.businessTrackAlignment.Some? && f.synchronicityFactor.Some?
  }

  predicate AllInUnit(f: Factors) {
    AllPresent(f)
    && 0.0 <= f.geneKeysCompatibility.value <= 1.0
    && 0.0 <= f.consciousnessLevelSynergy.value <= 1.0
    && 0.0 <= f.businessTrackAlignment.value <= 1.0
    && 0.0 <= f.synchronicityFactor.value <= 1.0
  }

  /** `calculateOverallResonance`: 0.0 when any factor is missing, otherwise the
      weighted mean with weight 1.618 on gene keys and 1 on the rest. */
  function CalculateOverallResonance(f: Factors): (r: real)
    ensures !AllPresent(f) ==> r == 0.0
    ensures AllInUnit(f) ==> 0.0 <= r <= 1.0
    ensures AllPresent(f) && f.geneKeysCompatibility.value == f.consciousnessLevelSynergy.value
              == f.businessTrackAlignment.value == f.synchronicityFactor.value
            ==> r == f.geneKeysCompatibility.value
  {
    if !AllPresent(f) then 0.0
    else
      var goldenRatio := 1.618;
      (f.geneKeysCompatibility.value * goldenRatio
       + f.consciousnessLevelSynergy.value
       + f.businessTrackAlignment.value
       + f.synchronicityFactor.value) / (goldenRatio + 3.0)
  }

  /** Factor-wise `a <= b`, both complete. */
  predicate Dominates(a: Factors, b: Factors) {
    AllPresent(a) && AllPresent(b)
    && a.geneKeysCompatibility.value <= b.geneKeysCompatibility.value
    && a.consciousnessLevelSynergy.value <= b.consciousnessLevelSynergy.value
    && a.businessTrackAlignment.value <= b.businessTrackAlignment.value
    && a.synchronicityFactor.value <= b.synchronicityFactor.value
  }

  /** Raising any factor never lowers the overall resonance. */
  lemma OverallResonanceMonotone(a: Factors, b: Factors)
    requires Dominates(a, b)
    ensures CalculateOverallResonance(a) <= CalculateOverallResonance(b)
  {
  }
}

=== FILE: resonance_service.dfy ===
/** The consciousness-resonance service: the four factors between two users
    (gene-key compatibility, level synergy, business-track alignment,
    synchronicity), their weighted total, its band, and the sorted list of a
    user's stored high-resonance connections. Instants are nanoseconds. */
module ResonanceService {
  import opened Wrappers
  import opened JavaMath
  import opened SetMath
  import Sorting
  import Users

  const HighResonanceThreshold: real := 0.8
  const MediumResonanceThreshold: real := 0.6

  datatype ResonanceLevel = SoulFamily | HighResonance | MediumResonance | LowResonance | MinimalResonance

  /** A stored resonance edge as the repository hands it over; the strength is
      a boxed number and may be null. */
  datatype StoredResonance = StoredResonance(to: Option<string>, strength: Option<real>, lastCalculated: Option<int>)

  /** The connection view handed to callers; its strength is a primitive. */
  datatype Connection = Connection(userId: Option<string>, resonanceStrength: real, connectionType: string,
                                   lastCalculated: Option<int>)

  const ConnectionType: string := "consciousness_resonance"

  datatype ResonanceResult = ResonanceResult(
    user1Id: string,
    user2Id: string,
    totalResonance: real,
    geneKeysCompatibility: real,
    consciousnessLevelSynergy: real,
    businessTrackAlignment: real,
    synchronicityFactor: real,
    resonanceLevel: ResonanceLevel,
    calculatedAt: int)

  // ---------------------------------------------------------------------------
  // Stored connections
  // ---------------------------------------------------------------------------

  /** Unboxing a null strength into the primitive field throws. */
  function MapToConnection(row: StoredResonance): (r: Result<Connection>)
    ensures r.Err? <==> row.strength.None?
    ensures r.Err? ==> r.error == NullPointer
    ensures r.Ok? ==> r.value.userId == row.to && r.value.resonanceStrength == row.strength.value
                      && r.value.connectionType == ConnectionType && r.value.lastCalculated == row.lastCalculated
  {
    if row.strength.None? then Err(NullPointer)
    else Ok(Connection(row.to, row.strength.value, ConnectionType, row.lastCalculated))
  }

  /** Maps every row in order; the first null strength aborts the whole stream. */
  function MapAll(rows: seq<StoredResonance>): (r: Result<seq<Connection>>)
    ensures r.Ok? <==> forall i :: 0 <= i < |rows| ==> rows[i].strength.Some?
    ensures r.Ok? ==> |r.value| == |rows| && forall i :: 0 <= i < |rows| ==> MapToConnection(rows[i]) == Ok(r.value[i])
  {
    if rows == [] then Ok([])
    else
      var head := MapToConnection(rows[0]);
      var tail := MapAll(rows[1..]);
      if head.Err? then Err(head.error)
      else if tail.Err? then Err(tail.error)
      else Ok([head.value] + tail.value)
  }

  function Strength(c: Connection): real {
    c.resonanceStrength
  }

  /** The connection a row with a strength becomes. */
  function Convert(row: StoredResonance): Connection
    requires row.strength.Some?
  {
    Connection(row.to, row.strength.value, ConnectionType, row.lastCalculated)
  }

  /** The connection each row becomes, for rows without a null strength. */
  function Converted(rows: seq<StoredResonance>): (cs: seq<Connection>)
    requires forall i :: 0 <= i < |rows| ==> rows[i].strength.Some?
    ensures |cs| == |rows|
    ensures forall c :: c in cs ==> c.connectionType == ConnectionType
  {
    seq(|rows|, i requires 0 <= i < |rows| => Convert(rows[i]))
  }

  /** `findHighResonanceConnections` over the rows the repository returned:
      strongest first, and the empty list when any row breaks the mapping
      (the exception is caught and logged). */
  function FindHighResonanceConnections(rows: seq<StoredResonance>): (r: seq<Connection>)
    ensures (exists i :: 0 <= i < |rows| && rows[i].strength.None?) ==> r == []
    ensures (forall i :: 0 <= i < |rows| ==> rows[i].strength.Some?) ==>
              |r| == |rows| && Sorting.SortedDesc(r, Strength) && multiset(r) == multiset(Converted(rows))
    ensures forall c :: c in r ==> c.connectionType == ConnectionType
  {
    match MapAll(rows)
    case Ok(cs) =>
      MapAllIsConverted(rows, cs);
      Sorting.SortDescSameElements(cs, Strength);
      Sorting.SortDesc(cs, Strength)
    case Err(_) => []
  }

  /** A successful mapping is the row-by-row conversion. */
  lemma {:induction false} MapAllIsConverted(rows: seq<StoredResonance>, cs: seq<Connection>)
    requires MapAll(rows) == Ok(cs)
    ensures forall i :: 0 <= i < |rows| ==> rows[i].strength.Some?
    ensures cs == Converted(rows)
  {
    var converted := Converted(rows);
    forall i | 0 <= i < |rows|
      ensures cs[i] == converted[i]
    {
      ConvertOne(rows[i], cs[i]);
    }
  }

  lemma ConvertOne(row: StoredResonance, c: Connection)
    requires MapToConnection(row) == Ok(c)
    ensures row.strength.Some? && c == Convert(row)
  {
  }

  /** Rows that already come strongest first come back unchanged, apart from
      the mapping. */
  lemma SortedRowsKeepTheirOrder(rows: seq<StoredResonance>)
    requires forall i :: 0 <= i < |rows| ==> rows[i].strength.Some?
    requires forall i, j :: 0 <= i < j < |rows| ==> rows[j].strength.value <= rows[i].strength.value
    ensures FindHighResonanceConnections(rows) == Converted(rows)
  {
    var cs := Converted(rows);
    MapAllIsConverted(rows, MapAll(rows).value);
    assert Sorting.SortedDesc(cs, Strength) by {
      forall i, j | 0 <= i < j < |cs| ensures Strength(cs[j]) <= Strength(cs[i]) {
        assert cs[i].resonanceStrength == rows[i].strength.value;
      }
    }
    Sorting.SortDescOfSorted(cs, Strength);
  }

  // ---------------------------------------------------------------------------
  // Gene-key compatibility
  // ---------------------------------------------------------------------------

  function KeySet(keys: seq<int>): set<int> {
    set k | k in keys
  }

  /** Jaccard similarity: the overlap over the union. */
  function Jaccard(a: set<int>, b: set<int>): (j: real)
    requires a + b != {}
    ensures 0.0 <= j <= 1.0
    ensures j == 1.0 <==> a == b
    ensures j == 0.0 <==> a !! b
  {
    IntersectionWithinUnion(a, b);
    RatioBounds(|a * b|, |a + b|);
    DisjointIffEmptyOverlap(a, b);
    |a * b| as real / |a + b| as real
  }

  /** The ring distribution of a key set. Its body is a placeholder that
      always answers with the empty map. */
  function RingDistribution(keys: set<int>): map<string, int> {
    map[]
  }

  /** 0.1 per ring the two distributions share, at most 0.3. */
  function SharedRingBonus(d1: map<string, int>, d2: map<string, int>): (b: real)
    ensures 0.0 <= b <= 0.3
    ensures b == 0.0 <==> d1.Keys !! d2.Keys
    ensures |d1.Keys * d2.Keys| >= 3 ==> b == 0.3
  {
    DisjointIffEmptyOverlap(d1.Keys, d2.Keys);
    MinReal(0.3, 0.1 * |d1.Keys * d2.Keys| as real)
  }

  /** With the placeholder distribution no ring is ever shared, so the bonus
      is always zero. */
  function CodonRingCompatibility(keys1: set<int>, keys2: set<int>): (b: real)
    ensures b == 0.0
  {
    SharedRingBonus(RingDistribution(keys1), RingDistribution(keys2))
  }

  /** `calculateGeneKeysCompatibility` on the two activated-key lists. */
  function GeneKeysCompatibility(keys1: seq<int>, keys2: seq<int>): (c: real)
    ensures keys1 == [] || keys2 == [] ==> c == 0.0
    ensures 0.0 <= c <= GoldenRatio / 2.0 < 1.0
    ensures keys1 != [] && keys2 != [] ==> (c == GoldenRatio / 2.0 <==> KeySet(keys1) == KeySet(keys2))
    ensures keys1 != [] && keys2 != [] ==> (c == 0.0 <==> KeySet(keys1) !! KeySet(keys2))
  {
    if keys1 == [] || keys2 == [] then 0.0
    else
      var s1, s2 := KeySet(keys1), KeySet(keys2);
      assert keys1[0] in s1 + s2;
      MinReal(1.0, (Jaccard(s1, s2) + CodonRingCompatibility(s1, s2)) * GoldenRatio / 2.0)
  }

  lemma GeneKeysCompatibilitySymmetric(keys1: seq<int>, keys2: seq<int>)
    ensures GeneKeysCompatibility(keys1, keys2) == GeneKeysCompatibility(keys2, keys1)
  {
    var s1, s2 := KeySet(keys1), KeySet(keys2);
    assert s1 * s2 == s2 * s1 && s1 + s2 == s2 + s1;
  }

  /** Every user reports the same activated keys, so every pair of users gets
      the same gene-key compatibility, the golden ratio halved. */
  lemma GeneKeysCompatibilityIsConstant(u1: Users.User, u2: Users.User)
    ensures GeneKeysCompatibility(Users.GetActivatedGeneKeys(u1), Users.GetActivatedGeneKeys(u2)) == GoldenRatio / 2.0
  {
  }

  // ---------------------------------------------------------------------------
  // Level synergy
  // ---------------------------------------------------------------------------

  /** Synergy for a level gap: 1, 0.9, 0.7, then 0.05 less per level down to 0.3. */
  function SynergyForGap(gap: nat): (s: real)
    ensures 0.3 <= s <= 1.0
    ensures s == 1.0 <==> gap == 0
    ensures gap >= 14 ==> s == 0.3
  {
    if gap == 0 then 1.0
    else if gap <= 2 then 0.9
    else if gap <= 5 then 0.7
    else MaxReal(0.3, 1.0 - gap as real * 0.05)
  }

  /** A wider gap never gives more synergy. */
  lemma SynergyNonIncreasing(a: nat, b: nat)
    requires a <= b
    ensures SynergyForGap(b) <= SynergyForGap(a)
  {
  }

  /** `calculateConsciousnessLevelSynergy`: neutral 0.5 when a level is unknown. */
  function LevelSynergy(scl1: Option<int>, scl2: Option<int>): (s: real)
    ensures scl1.None? || scl2.None? ==> s == 0.5
    ensures 0.3 <= s <= 1.0
    ensures scl1.Some? && scl2.Some? ==> (s == 1.0 <==> scl1.value == scl2.value)
    ensures scl1.Some? && scl2.Some? && Abs(scl1.value - scl2.value) >= 14 ==> s == 0.3
  {
    if scl1.None? || scl2.None? then 0.5
    else SynergyForGap(Abs(scl1.value - scl2.value))
  }

  lemma LevelSynergySymmetric(scl1: Option<int>, scl2: Option<int>)
    ensures LevelSynergy(scl1, scl2) == LevelSynergy(scl2, scl1)
  {
  }

  // ---------------------------------------------------------------------------
  // Business-track alignment
  // ---------------------------------------------------------------------------

  /** Which partner tracks complement a track; the relation is directed. */
  const ComplementaryTracks: map<string, set<string>> := map[
    "TECH_DEVELOPER" := {"UX_DESIGNER", "DATA_SCIENTIST"},
    "BUSINESS_DEVELOPER" := {"LEGAL_ADVISOR", "FINANCE_ANALYST"},
    "SUSTAINABILITY_LEAD" := {"DATA_SCIENTIST", "BUSINESS_DEVELOPER"}]

  predicate Complements(t1: string, t2: string) {
    t1 in ComplementaryTracks && t2 in ComplementaryTracks[t1]
  }

  function ComplementaryPairs(tracks1: set<string>, tracks2: set<string>): set<(string, string)> {
    set t1, t2 | t1 in tracks1 && t2 in tracks2 && Complements(t1, t2) :: (t1, t2)
  }

  /** 0.1 per complementing (first, second) pair, at most 0.3. */
  function ComplementaryTrackBonus(tracks1: set<string>, tracks2: set<string>): (bonus: real)
    ensures 0.0 <= bonus <= 0.3
    ensures bonus == 0.0 <==> forall t1, t2 :: t1 in tracks1 && t2 in tracks2 ==> !Complements(t1, t2)
    ensures |ComplementaryPairs(tracks1, tracks2)| >= 3 ==> bonus == 0.3
  {
    var pairs := ComplementaryPairs(tracks1, tracks2);
    assert (forall t1, t2 :: t1 in tracks1 && t2 in tracks2 ==> !Complements(t1, t2)) ==> pairs == {};
    forall t1, t2 | t1 in tracks1 && t2 in tracks2 && Complements(t1, t2) ensures (t1, t2) in pairs {
      assert (t1, t2) in pairs;
    }
    MinReal(0.3, 0.1 * |pairs| as real)
  }

  /** `calculateBusinessTrackAlignment` on two track sets: the overlap over the
      larger set plus the complementary bonus, at most 1; neutral 0.5 when a
      set is empty. */
  function TrackAlignment(tracks1: set<string>, tracks2: set<string>): (r: real)
    ensures tracks1 == {} || tracks2 == {} ==> r == 0.5
    ensures tracks1 != {} && tracks2 != {} ==> 0.0 <= r <= 1.0
    ensures tracks1 != {} && tracks2 == tracks1 ==> r == 1.0
    ensures tracks1 != {} && tracks2 != {} && tracks1 !! tracks2 ==> r == ComplementaryTrackBonus(tracks1, tracks2)
  {
    if tracks1 == {} || tracks2 == {} then 0.5
    else
      IntersectionBounds(tracks1, tracks2);
      RatioBounds(|tracks1 * tracks2|, MaxInt(|tracks1|, |tracks2|));
      assert tracks1 == tracks2 ==> tracks1 * tracks2 == tracks1;
      var direct := |tracks1 * tracks2| as real / MaxInt(|tracks1|, |tracks2|) as real;
      MinReal(1.0, direct + ComplementaryTrackBonus(tracks1, tracks2))
  }

  /** The complementary table is directed: developer with designer earns the
      bonus, designer with developer does not, so the alignment is not
      symmetric. */
  lemma AlignmentIsDirected()
    ensures ComplementaryTrackBonus({"TECH_DEVELOPER"}, {"UX_DESIGNER"}) == 0.1
    ensures ComplementaryTrackBonus({"UX_DESIGNER"}, {"TECH_DEVELOPER"}) == 0.0
    ensures TrackAlignment({"TECH_DEVELOPER"}, {"UX_DESIGNER"}) != TrackAlignment({"UX_DESIGNER"}, {"TECH_DEVELOPER"})
  {
    assert Complements("TECH_DEVELOPER", "UX_DESIGNER");
    assert ComplementaryPairs({"TECH_DEVELOPER"}, {"UX_DESIGNER"}) == {("TECH_DEVELOPER", "UX_DESIGNER")};
    assert "UX_DESIGNER" !in ComplementaryTracks;
    assert !Complements("UX_DESIGNER", "TECH_DEVELOPER");
  }

  /** The tracks of a user are read from its role strings. */
  function ExtractBusinessTracks(u: Users.User): (tracks: set<string>)
    ensures Users.UserRole in tracks
    ensures 1 <= |tracks| <= 4
  {
    var roles := Users.GetRoles(u);
    ElementsCardinality(roles);
    assert roles[0] in (set r | r in roles);
    set r | r in roles
  }

  /** No role string is a key of the complementary table: track roles carry
      the "BUSINESS_TRACK_" prefix, the table uses bare track names. */
  lemma RoleIsNoTableKey(role: string)
    requires role == Users.UserRole || role == Users.GuideRole || role == Users.LeaderRole
             || exists t :: role == Users.TrackRole(t)
    ensures role !in ComplementaryTracks
  {
    if exists t :: role == Users.TrackRole(t) {
      var t :| role == Users.TrackRole(t);
      assert role[0] == 'B' && role[9] == 'T';
      assert "BUSINESS_DEVELOPER"[9] == 'D';
    }
  }

  /** No track a user carries is a key of the complementary table. */
  lemma UserTracksAreNoTableKeys(u: Users.User)
    ensures forall t :: t in ExtractBusinessTracks(u) ==> t !in ComplementaryTracks
  {
    var roles := Users.GetRoles(u);
    forall t | t in ExtractBusinessTracks(u) ensures t !in ComplementaryTracks {
      var i :| 0 <= i < |roles| && roles[i] == t;
      RoleIsNoTableKey(roles[i]);
    }
  }

  /** Two sets of at most four tracks that share one align at least a quarter. */
  lemma SharedTrackGivesQuarter(tracks1: set<string>, tracks2: set<string>, shared: string)
    requires shared in tracks1 && shared in tracks2
    requires |tracks1| <= 4 && |tracks2| <= 4
    ensures TrackAlignment(tracks1, tracks2) >= 0.25
  {
    var k, m := |tracks1 * tracks2|, MaxInt(|tracks1|, |tracks2|);
    SubsetCardinality({shared}, tracks1 * tracks2);
    assert 1 <= m <= 4;
    assert k as real / m as real >= 0.25 by {
      var q := k as real / m as real;
      assert q * m as real == k as real;
    }
  }

  /** Between two users the complementary bonus never applies, and the
      alignment is at least a quarter because both carry the "USER" role. */
  lemma UserAlignmentFromRolesOnly(u1: Users.User, u2: Users.User)
    ensures ComplementaryTrackBonus(ExtractBusinessTracks(u1), ExtractBusinessTracks(u2)) == 0.0
    ensures TrackAlignment(ExtractBusinessTracks(u1), ExtractBusinessTracks(u2)) >= 0.25
  {
    var r1, r2 := ExtractBusinessTracks(u1), ExtractBusinessTracks(u2);
    UserTracksAreNoTableKeys(u1);
    assert forall t1, t2 :: t1 in r1 && t2 in r2 ==> !Complements(t1, t2);
    SharedTrackGivesQuarter(r1, r2, Users.UserRole);
  }

  // ---------------------------------------------------------------------------
  // Synchronicity
  // ---------------------------------------------------------------------------

  const FibonacciHours: seq<int> := [1, 1, 2, 3, 5, 8, 13, 21]

  /** The first window from position `i` on that is at least `hours` long. */
  function FirstWindow(hours: nat, i: nat): (w: Option<int>)
    requires i <= |FibonacciHours|
    ensures w.None? <==> forall j :: i <= j < |FibonacciHours| ==> hours > FibonacciHours[j]
    ensures w.Some? ==> 1 <= w.value && hours <= w.value
    ensures w.Some? ==> exists j :: i <= j < |FibonacciHours| && FibonacciHours[j] == w.value
                                    && forall k :: i <= k < j ==> hours > FibonacciHours[k]
    decreases |FibonacciHours| - i
  {
    if i == |FibonacciHours| then None
    else if hours <= FibonacciHours[i] then Some(FibonacciHours[i])
    else FirstWindow(hours, i + 1)
  }

  /** Past 21 hours the golden-ratio decay is already below the 0.1 floor. */
  lemma DecayBelowFloor(hours: nat)
    requires hours > 21
    ensures 1.0 / (1.0 + hours as real / GoldenRatio) < 0.1
  {
    var q := hours as real / GoldenRatio;
    assert q * GoldenRatio == hours as real;
    assert q > 11.0;
    var d := 1.0 + q;
    var r := 1.0 / d;
    assert r * d == 1.0;
  }

  /** The synchronicity of a gap of whole hours. */
  function SynchronicityForGap(hours: nat): (f: real)
    ensures 0.1 <= f <= 1.0
    ensures f == 1.0 <==> hours == 0
    ensures hours <= 21 ==> 0.7 <= f
    ensures hours > 21 ==> f == 0.1
  {
    assert FibonacciHours[7] == 21;
    match FirstWindow(hours, 0)
    case Some(w) =>
      RatioBounds(hours, w);
      1.0 - (hours as real / w as real) * 0.3
    case None =>
      DecayBelowFloor(hours);
      MaxReal(0.1, 1.0 / (1.0 + hours as real / GoldenRatio))
  }

  /** The windows make the factor a saw-tooth: four hours apart scores higher
      than three. */
  lemma SynchronicityNotMonotone()
    ensures SynchronicityForGap(3) == 0.7
    ensures SynchronicityForGap(4) == 0.76
  {
    assert FirstWindow(3, 0) == Some(3);
    assert FirstWindow(4, 0) == Some(5);
  }

  /** `Math.abs(Duration.between(t1, t2).toHours())` for instants in
      nanoseconds: the gap is floored to whole seconds, then divided by 3600
      toward zero. A backward gap just under an hour floors to a full hour. */
  function HoursApart(t1: int, t2: int): (h: nat)
    ensures h == 0 <==> -3599 * NanosPerSecond <= t2 - t1 < 3600 * NanosPerSecond
    ensures h <= 21 <==> -(22 * 3600 - 1) * NanosPerSecond <= t2 - t1 < 22 * 3600 * NanosPerSecond
  {
    Abs(JavaDiv(DurationSeconds(t2 - t1), 3600))
  }

  /** Two instants a whole number of seconds apart are the same hours apart
      in either order. */
  lemma HoursApartSymmetric(t1: int, t2: int)
    requires (t2 - t1) % NanosPerSecond == 0
    ensures HoursApart(t1, t2) == HoursApart(t2, t1)
  {
    DurationSecondsNegated(t2 - t1);
    var x := DurationSeconds(t2 - t1);
    var q, p := JavaDiv(x, 3600), JavaDiv(-x, 3600);
    assert p == -q;
  }

  /** Swapping the instants changes the hours apart by at most one. */
  lemma HoursApartNearlySymmetric(t1: int, t2: int)
    ensures HoursApart(t2, t1) - 1 <= HoursApart(t1, t2) <= HoursApart(t2, t1) + 1
  {
    DurationSecondsNegated(t2 - t1);
    var x := DurationSeconds(t2 - t1);
    var q, p := JavaDiv(x, 3600), JavaDiv(-x, 3600);
    assert p == -q;
    var r := JavaDiv(-x - 1, 3600);
    assert p - 1 <= r <= p;
  }

  /** Half a second short of an hour backwards floors to a full hour; the
      same gap forwards is under one hour. */
  lemma HoursApartOrderMatters()
    ensures HoursApart(0, -3_599_500_000_000) == 1
    ensures HoursApart(-3_599_500_000_000, 0) == 0
  {
    DurationSecondsUnique(-3_599_500_000_000, -3600);
    DurationSecondsUnique(3_599_500_000_000, 3599);
  }

  /** `calculateSynchronicityFactor` on the two last-active instants. */
  function SynchronicityFactor(lastActive1: Option<int>, lastActive2: Option<int>): (f: real)
    ensures lastActive1.None? || lastActive2.None? ==> f == 0.5
    ensures 0.1 <= f <= 1.0
    ensures lastActive1.Some? && lastActive2.Some? ==>
              (f == 1.0 <==> -3599 * NanosPerSecond <= lastActive2.value - lastActive1.value < 3600 * NanosPerSecond)
    ensures lastActive1.Some? && lastActive2.Some? ==>
              (f >= 0.7 <==> -(22 * 3600 - 1) * NanosPerSecond <= lastActive2.value - lastActive1.value
                                                              < 22 * 3600 * NanosPerSecond)
  {
    if lastActive1.None? || lastActive2.None? then 0.5
    else SynchronicityForGap(HoursApart(lastActive1.value, lastActive2.value))
  }

  /** Swapping two users whose activity instants are a whole number of
      seconds apart does not change the synchronicity. */
  lemma SynchronicitySymmetric(lastActive1: Option<int>, lastActive2: Option<int>)
    requires lastActive1.Some? && lastActive2.Some? ==>
               (lastActive2.value - lastActive1.value) % NanosPerSecond == 0
    ensures SynchronicityFactor(lastActive1, lastActive2) == SynchronicityFactor(lastActive2, lastActive1)
  {
    if lastActive1.Some? && lastActive2.Some? {
      HoursApartSymmetric(lastActive1.value, lastActive2.value);
    }
  }

  /** With a sub-second gap the order of the users matters: 3599.5 seconds
      backwards scores 0.7, the same gap forwards 1.0. */
  lemma SynchronicityOrderMatters()
    ensures SynchronicityFactor(Some(0), Some(-3_599_500_000_000)) == 0.7
    ensures SynchronicityFactor(Some(-3_599_500_000_000), Some(0)) == 1.0
  {
    HoursApartOrderMatters();
    assert FirstWindow(1, 0) == Some(1);
  }

  // ---------------------------------------------------------------------------
  // Weighted total and band
  // ---------------------------------------------------------------------------

  /** A sum above 0.8 is raised by a tenth, capped at 1. */
  function Boost(sum: real): (b: real)
    ensures sum <= 0.8 ==> b == sum
    ensures sum > 0.8 ==> sum <= b || b == 1.0
    ensures 0.0 <= sum <= 1.0 ==> 0.0 <= b <= 1.0
  {
    if sum > 0.8 then MinReal(1.0, sum * 1.1) else sum
  }

  lemma BoostMonotone(x: real, y: real)
    requires x <= y
    ensures Boost(x) <= Boost(y)
  {
  }

  /** Rounding half up to three decimals. */
  function RoundTo3(x: real): (y: real)
    ensures x - 0.0005 < y <= x + 0.0005
    ensures 0.0 <= x <= 1.0 ==> 0.0 <= y <= 1.0
  {
    JavaRound(x * 1000.0) as real / 1000.0
  }

  lemma RoundTo3Monotone(x: real, y: real)
    requires x <= y
    ensures RoundTo3(x) <= RoundTo3(y)
  {
    var x1000, y1000 := x * 1000.0, y * 1000.0;
    assert x1000 <= y1000;
    var n, m := JavaRound(x1000), JavaRound(y1000);
    assert n as real - 0.5 <= x1000 && y1000 < m as real + 0.5;
    assert n <= m;
  }

  /** `calculateWeightedResonance`: weights 0.4, 0.3, 0.2 and 0.1. */
  function WeightedResonance(geneKeys: real, synergy: real, alignment: real, synchronicity: real): (r: real)
    ensures (0.0 <= geneKeys <= 1.0 && 0.0 <= synergy <= 1.0 && 0.0 <= alignment <= 1.0
             && 0.0 <= synchronicity <= 1.0) ==> 0.0 <= r <= 1.0
  {
    RoundTo3(Boost(geneKeys * 0.4 + synergy * 0.3 + alignment * 0.2 + synchronicity * 0.1))
  }

  /** Raising any factor never lowers the total. */
  lemma WeightedResonanceMonotone(g1: real, s1: real, a1: real, y1: real, g2: real, s2: real, a2: real, y2: real)
    requires g1 <= g2 && s1 <= s2 && a1 <= a2 && y1 <= y2
    ensures WeightedResonance(g1, s1, a1, y1) <= WeightedResonance(g2, s2, a2, y2)
  {
    var w1 := g1 * 0.4 + s1 * 0.3 + a1 * 0.2 + y1 * 0.1;
    var w2 := g2 * 0.4 + s2 * 0.3 + a2 * 0.2 + y2 * 0.1;
    BoostMonotone(w1, w2);
    RoundTo3Monotone(Boost(w1), Boost(w2));
  }

  /** Perfect factors give exactly 1. */
  lemma PerfectFactorsGiveOne()
    ensures WeightedResonance(1.0, 1.0, 1.0, 1.0) == 1.0
  {
    var w := 1.0 * 0.4 + 1.0 * 0.3 + 1.0 * 0.2 + 1.0 * 0.1;
    assert w == 1.0;
    assert Boost(w) == 1.0;
    assert JavaRound(1000.0) == 1000;
  }

  /** An unboosted sum survives rounding to within half a thousandth. */
  lemma UnboostedSumIsRounded(g: real, s: real, a: real, y: real)
    requires g * 0.4 + s * 0.3 + a * 0.2 + y * 0.1 <= 0.8
    ensures g * 0.4 + s * 0.3 + a * 0.2 + y * 0.1 - 0.0005 < WeightedResonance(g, s, a, y)
            <= g * 0.4 + s * 0.3 + a * 0.2 + y * 0.1 + 0.0005
  {
    var w := g * 0.4 + s * 0.3 + a * 0.2 + y * 0.1;
    assert Boost(w) == w;
    assert WeightedResonance(g, s, a, y) == RoundTo3(w);
  }

  function DetermineResonanceLevel(resonance: real): ResonanceLevel {
    if resonance >= 0.9 then SoulFamily
    else if resonance >= HighResonanceThreshold then HighResonance
    else if resonance >= MediumResonanceThreshold then MediumResonance
    else if resonance >= 0.4 then LowResonance
    else MinimalResonance
  }

  function LevelRank(l: ResonanceLevel): nat {
    match l
    case MinimalResonance => 0
    case LowResonance => 1
    case MediumResonance => 2
    case HighResonance => 3
    case SoulFamily => 4
  }

  /** A higher score never lands in a lower band, and the bands at or above
      "high" are exactly the scores at or above the high threshold. */
  lemma ResonanceLevelMonotone(a: real, b: real)
    ensures a <= b ==> LevelRank(DetermineResonanceLevel(a)) <= LevelRank(DetermineResonanceLevel(b))
    ensures LevelRank(DetermineResonanceLevel(a)) >= 3 <==> a >= HighResonanceThreshold
    ensures DetermineResonanceLevel(a) == MinimalResonance <==> a < 0.4
  {
  }

  // ---------------------------------------------------------------------------
  // The composed calculation
  // ---------------------------------------------------------------------------

  /** `calculateResonance` for two looked-up users; `None` stands for the
      exception thrown when either lookup found nothing. */
  function CalculateResonance(user1Id: string, user2Id: string, u1: Option<Users.User>, u2: Option<Users.User>,
                              now: int): (r: Option<ResonanceResult>)
    ensures r.None? <==> u1.None? || u2.None?
    ensures r.Some? ==> 0.0 <= r.value.totalResonance <= 1.0
    ensures r.Some? ==> r.value.resonanceLevel == DetermineResonanceLevel(r.value.totalResonance)
    ensures r.Some? ==> r.value.totalResonance
                        == WeightedResonance(r.value.geneKeysCompatibility, r.value.consciousnessLevelSynergy,
                                             r.value.businessTrackAlignment, r.value.synchronicityFactor)
    ensures r.Some? ==> r.value.geneKeysCompatibility == GoldenRatio / 2.0
    ensures r.Some? ==> 0.3 <= r.value.consciousnessLevelSynergy <= 1.0
    ensures r.Some? ==> 0.25 <= r.value.businessTrackAlignment <= 1.0
    ensures r.Some? ==> 0.1 <= r.value.synchronicityFactor <= 1.0
    ensures r.Some? ==> r.value.user1Id == user1Id && r.value.user2Id == user2Id && r.value.calculatedAt == now
  {
    if u1.None? || u2.None? then None
    else
      var a, b := u1.value, u2.value;
      var gk := GeneKeysCompatibility(Users.GetActivatedGeneKeys(a), Users.GetActivatedGeneKeys(b));
      var synergy := LevelSynergy(Some(Users.GetCurrentScl(a)), Some(Users.GetCurrentScl(b)));
      UserAlignmentFromRolesOnly(a, b);
      var alignment := TrackAlignment(ExtractBusinessTracks(a), ExtractBusinessTracks(b));
      var sync := SynchronicityFactor(Some(a.lastActiveAt), Some(b.lastActiveAt));
      var total := WeightedResonance(gk, synergy, alignment, sync);
      Some(ResonanceResult(user1Id, user2Id, total, gk, synergy, alignment, sync,
                           DetermineResonanceLevel(total), now))
  }

  /** The factors' floors add up to more than 0.4, so two existing users are
      never in the minimal band. */
  lemma FoundUsersNeverMinimal(u1: Users.User, u2: Users.User, now: int)
    ensures CalculateResonance("", "", Some(u1), Some(u2), now).value.resonanceLevel != MinimalResonance
  {
    var r := CalculateResonance("", "", Some(u1), Some(u2), now).value;
    FloorsAreNotMinimal(r.geneKeysCompatibility, r.consciousnessLevelSynergy,
                        r.businessTrackAlignment, r.synchronicityFactor);
  }

  /** Factors at or above the floors two existing users reach give at least 0.4. */
  lemma FloorsAreNotMinimal(g: real, s: real, a: real, y: real)
    requires g >= GoldenRatio / 2.0 && s >= 0.3 && a >= 0.25 && y >= 0.1
    ensures DetermineResonanceLevel(WeightedResonance(g, s, a, y)) != MinimalResonance
  {
    WeightedResonanceMonotone(GoldenRatio / 2.0, 0.3, 0.25, 0.1, g, s, a, y);
    UnboostedSumIsRounded(GoldenRatio / 2.0, 0.3, 0.25, 0.1);
  }

  /** Swapping two users whose activity instants are a whole number of
      seconds apart changes nothing but the order of the ids. */
  lemma CalculateResonanceSymmetric(id1: string, id2: string, u1: Users.User, u2: Users.User, now: int)
    requires (u2.lastActiveAt - u1.lastActiveAt) % NanosPerSecond == 0
    ensures CalculateResonance(id1, id2, Some(u1), Some(u2), now).value.totalResonance
            == CalculateResonance(id2, id1, Some(u2), Some(u1), now).value.totalResonance
  {
    GeneKeysCompatibilitySymmetric(Users.GetActivatedGeneKeys(u1), Users.GetActivatedGeneKeys(u2));
    LevelSynergySymmetric(Some(Users.GetCurrentScl(u1)), Some(Users.GetCurrentScl(u2)));
    SynchronicitySymmetric(Some(u1.lastActiveAt), Some(u2.lastActiveAt));
    var t1, t2 := ExtractBusinessTracks(u1), ExtractBusinessTracks(u2);
    UserAlignmentFromRolesOnly(u1, u2);
    UserAlignmentFromRolesOnly(u2, u1);
    assert t1 * t2 == t2 * t1;
    assert MaxInt(|t1|, |t2|) == MaxInt(|t2|, |t1|);
  }
}

=== FILE: scl_progress.dfy ===
/** The progress summary a user sees for their Sacred Consciousness Level, and
    its small business rules. Boxed `Integer`/`Double` fields are `Option`s; a
    rule that unboxes a null field throws. */
module SclProgress {
  import opened Wrappers

  datatype Progress = Progress(
    currentSclLevel: Option<int>,
    currentSclName: Option<string>,
    currentSclDescription: Option<string>,
    currentExperiencePoints: Option<real>,
    nextLevelRequiredXP: Option<real>,
    progressToNextLevel: Option<real>,
    totalQuestsCompleted: Option<int>,
    questsRequiredForNextLevel: Option<int>)

  /** The no-argument constructor: every field null. */
  const Empty := Progress(None, None, None, None, None, None, None, None)

  /** Ready once the progress fraction reaches one; unboxing a null fraction throws. */
  function IsReadyForNextLevel(p: Progress): (r: Result<bool>)
    ensures r.Err? <==> p.progressToNextLevel.None?
    ensures r.Err? ==> r.error == NullPointer
    ensures r == Ok(true) <==> p.progressToNextLevel.Some? && p.progressToNextLevel.value >= 1.0
  {
    match p.progressToNextLevel
    case None => Err(NullPointer)
    case Some(x) => Ok(x >= 1.0)
  }

  /** Access to every level up to the current one; a null on either side throws. */
  function CanAccessSclLevel(p: Progress, level: Option<int>): (r: Result<bool>)
    ensures r.Err? <==> p.currentSclLevel.None? || level.None?
    ensures r.Err? ==> r.error == NullPointer
    ensures r == Ok(true) <==> p.currentSclLevel.Some? && level.Some? && level.value <= p.currentSclLevel.value
  {
    if p.currentSclLevel.None? || level.None? then Err(NullPointer)
    else Ok(p.currentSclLevel.value >= level.value)
  }

  /** Access is downward closed: a level that can be accessed brings every lower one with it. */
  lemma AccessIsDownwardClosed(p: Progress, level: int, lower: int)
    requires CanAccessSclLevel(p, Some(level)) == Ok(true)
    requires lower <= level
    ensures CanAccessSclLevel(p, Some(lower)) == Ok(true)
  {
  }

  /** The quests still missing, never negative; zero when either count is unknown. */
  function GetQuestsUntilNextLevel(p: Progress): (n: int)
    ensures n >= 0
    ensures p.questsRequiredForNextLevel.None? || p.totalQuestsCompleted.None? ==> n == 0
    ensures p.questsRequiredForNextLevel.Some? && p.totalQuestsCompleted.Some? ==>
              (n > 0 <==> p.totalQuestsCompleted.value < p.questsRequiredForNextLevel.value)
              && (n > 0 ==> p.totalQuestsCompleted.value + n == p.questsRequiredForNextLevel.value)
  {
    if p.questsRequiredForNextLevel.None? || p.totalQuestsCompleted.None? then 0
    else
      var required, completed := p.questsRequiredForNextLevel.value, p.totalQuestsCompleted.value;
      if required - completed > 0 then required - completed else 0
  }

  /** Completing more quests never raises the number still missing. */
  lemma QuestsUntilNextLevelAntitone(p: Progress, fewer: int, more: int)
    requires fewer <= more
    ensures GetQuestsUntilNextLevel(p.(totalQuestsCompleted := Some(more)))
            <= GetQuestsUntilNextLevel(p.(totalQuestsCompleted := Some(fewer)))
  {
  }

  /** The experience still missing, never negative; zero when either amount is unknown. */
  function GetXPUntilNextLevel(p: Progress): (x: real)
    ensures x >= 0.0
    ensures p.nextLevelRequiredXP.None? || p.currentExperiencePoints.None? ==> x == 0.0
    ensures p.nextLevelRequiredXP.Some? && p.currentExperiencePoints.Some? ==>
              (x > 0.0 <==> p.currentExperiencePoints.value < p.nextLevelRequiredXP.value)
              && (x > 0.0 ==> p.currentExperiencePoints.value + x == p.nextLevelRequiredXP.value)
  {
    if p.nextLevelRequiredXP.None? || p.currentExperiencePoints.None? then 0.0
    else
      var required, current := p.nextLevelRequiredXP.value, p.currentExperiencePoints.value;
      if required - current > 0.0 then required - current else 0.0
  }

  /** Earning more experience never raises the experience still missing. */
  lemma XPUntilNextLevelAntitone(p: Progress, less: real, more: real)
    requires less <= more
    ensures GetXPUntilNextLevel(p.(currentExperiencePoints := Some(more)))
            <= GetXPUntilNextLevel(p.(currentExperiencePoints := Some(less)))
  {
  }
}

=== FILE: set_math.dfy ===
/** Counting facts about finite sets and ratios of counts, shared by the resonance calculations. */
module SetMath {
  import opened JavaMath

  /** For `0 <= n <= d` with `d > 0`, `n / d` lies in [0, 1], is 1 exactly when
      `n == d` and 0 exactly when `n == 0`. */
  lemma RatioBounds(n: nat, d: nat)
    requires 0 < d && n <= d
    ensures 0.0 <= n as real / d as real <= 1.0
    ensures n as real / d as real == 1.0 <==> n == d
    ensures n as real / d as real == 0.0 <==> n == 0
  {
    var q := n as real / d as real;
    assert q * d as real == n as real;
  }

  /** The overlap fills the larger set exactly when the two sets are equal. */
  lemma FullOverlapIffEqual<T>(a: set<T>, b: set<T>)
    ensures |a * b| == MaxInt(|a|, |b|) <==> a == b
  {
    IntersectionBounds(a, b);
    if |a * b| == MaxInt(|a|, |b|) {
      assert |a * b| == |a| && |a * b| == |b|;
    }
    if a == b {
      assert a * b == a;
    }
  }

  /** A subset is no larger than its superset, and equally large only when it is the whole set. */
  lemma {:induction false} SubsetCardinality<T>(s: set<T>, t: set<T>)
    requires s <= t
    ensures |s| <= |t|
    ensures |s| == |t| ==> s == t
    decreases t
  {
    if s != {} {
      var x :| x in s;
      SubsetCardinality(s - {x}, t - {x});
      assert s == (s - {x}) + {x};
      assert t == (t - {x}) + {x};
    } else if t != {} {
      var y :| y in t;
      assert y !in s;
    }
  }

  lemma IntersectionBounds<T>(a: set<T>, b: set<T>)
    ensures |a * b| <= |a| && |a * b| <= |b|
    ensures |a * b| == |a| ==> a * b == a
    ensures |a * b| == |b| ==> a * b == b
  {
    SubsetCardinality(a * b, a);
    SubsetCardinality(a * b, b);
  }

  /** The overlap of two sets is no larger than their union, and as large only when they are equal. */
  lemma IntersectionWithinUnion<T>(a: set<T>, b: set<T>)
    ensures |a * b| <= |a + b|
    ensures |a * b| == |a + b| <==> a == b
  {
    SubsetCardinality(a * b, a + b);
    if |a * b| == |a + b| {
      assert a * b == a + b;
      assert forall x :: x in a ==> x in a * b;
      assert forall x :: x in b ==> x in a * b;
    }
    if a == b {
      assert a * b == a + b;
    }
  }

  /** The set of a sequence's elements has at most as many members as the sequence. */
  lemma {:induction false} ElementsCardinality<T>(s: seq<T>)
    ensures |set x | x in s| <= |s|
  {
    if s != [] {
      var init := s[..|s| - 1];
      ElementsCardinality(init);
      assert (set x | x in s) == (set x | x in init) + {s[|s| - 1]} by {
        forall x | x in s ensures x in init || x == s[|s| - 1] {
          var i :| 0 <= i < |s| && s[i] == x;
          if i < |s| - 1 { assert init[i] == x; }
        }
      }
    }
  }

  /** Two sets are disjoint exactly when their overlap has no members. */
  lemma DisjointIffEmptyOverlap<T>(a: set<T>, b: set<T>)
    ensures |a * b| == 0 <==> a !! b
  {
    if a !! b {
      assert a * b == {};
    }
    if |a * b| == 0 {
      forall x | x in a ensures x !in b {
        assert x !in a * b;
      }
    }
  }
}

=== FILE: sorting.dfy ===
/** A stable sort into descending order of a real-valued key, as the list
    sorts with a reversed `Double.compare` comparator produce it. */
module Sorting {

  /** Keys never increase from left to right. */
  predicate SortedDesc<T>(s: seq<T>, key: T -> real) {
    forall i, j :: 0 <= i < j < |s| ==> key(s[i]) >= key(s[j])
  }

  /** Inserts `x` after every element whose key is at least its own. */
  function InsertDesc<T>(x: T, s: seq<T>, key: T -> real): (r: seq<T>)
    requires SortedDesc(s, key)
    ensures |r| == |s| + 1
    ensures SortedDesc(r, key)
    ensures multiset(r) == multiset(s) + multiset{x}
    ensures forall y :: y in r ==> y == x || y in s
  {
    if s == [] then [x]
    else if key(x) > key(s[0]) then [x] + s
    else
      var rest := InsertDesc(x, s[1..], key);
      assert s == [s[0]] + s[1..];
      HeadBoundsInsert(x, s, rest, key);
      [s[0]] + rest
  }

  lemma HeadBoundsInsert<T>(x: T, s: seq<T>, rest: seq<T>, key: T -> real)
    requires s != [] && SortedDesc(s, key) && key(x) <= key(s[0])
    requires forall y :: y in rest ==> y == x || y in s[1..]
    ensures forall j :: 0 <= j < |rest| ==> key(rest[j]) <= key(s[0])
  {
    forall j | 0 <= j < |rest|
      ensures key(rest[j]) <= key(s[0])
    {
      assert rest[j] in rest;
      if rest[j] != x {
        var k :| 0 <= k < |s[1..]| && s[1..][k] == rest[j];
        assert s[k + 1] == rest[j];
      }
    }
  }

  /** Insertion sort of `s` by descending key. */
  function SortDesc<T>(s: seq<T>, key: T -> real): (r: seq<T>)
    ensures |r| == |s|
    ensures SortedDesc(r, key)
    ensures multiset(r) == multiset(s)
  {
    if s == [] then []
    else
      assert s == s[..|s| - 1] + [s[|s| - 1]];
      InsertDesc(s[|s| - 1], SortDesc(s[..|s| - 1], key), key)
  }

  /** Sorting neither adds nor drops elements. */
  lemma SortDescSameElements<T>(s: seq<T>, key: T -> real)
    ensures forall x :: x in SortDesc(s, key) <==> x in s
  {
    var r := SortDesc(s, key);
    forall x
      ensures x in r <==> x in s
    {
      assert x in r <==> x in multiset(r);
      assert x in s <==> x in multiset(s);
    }
  }

  /** An already sorted list is left as it is. */
  lemma {:induction false} SortDescOfSorted<T>(s: seq<T>, key: T -> real)
    requires SortedDesc(s, key)
    ensures SortDesc(s, key) == s
  {
    if s != [] {
      var init, last := s[..|s| - 1], s[|s| - 1];
      assert s == init + [last];
      SortedInit(s, init, last, key);
      SortDescOfSorted(init, key);
      InsertAtEnd(last, init, key);
    }
  }

  /** Dropping the last element of a sorted list leaves it sorted and no
      smaller than the dropped one. */
  lemma SortedInit<T>(s: seq<T>, init: seq<T>, last: T, key: T -> real)
    requires s == init + [last] && SortedDesc(s, key)
    ensures SortedDesc(init, key)
    ensures forall i :: 0 <= i < |init| ==> key(init[i]) >= key(last)
  {
    forall i | 0 <= i < |init|
      ensures key(init[i]) >= key(last)
    {
      assert s[i] == init[i] && s[|init|] == last;
    }
    forall i, j | 0 <= i < j < |init|
      ensures key(init[i]) >= key(init[j])
    {
      assert s[i] == init[i] && s[j] == init[j];
    }
  }

  /** An element no larger than every element of a sorted list goes last. */
  lemma {:induction false} InsertAtEnd<T>(x: T, s: seq<T>, key: T -> real)
    requires SortedDesc(s, key)
    requires forall i :: 0 <= i < |s| ==> key(s[i]) >= key(x)
    ensures InsertDesc(x, s, key) == s + [x]
  {
    if s != [] {
      InsertAtEnd(x, s[1..], key);
      assert [s[0]] + (s[1..] + [x]) == s + [x];
    }
  }
}

=== FILE: syn_contribution.dfy ===
/** A contribution ("quest"): its lifecycle, experience points, GitHub link
    and consciousness impact. */
module Contributions {
  import opened Wrappers
  import opened JavaMath
  import opened Enums
  import BusinessTracks
  import ConsciousnessLevels

  /** Timestamps are nanoseconds; the owning user is referenced by id. */
  datatype Contribution = Contribution(
    id: Option<string>,
    userId: Option<string>,
    title: Option<string>,
    description: Option<string>,
    questType: Option<QuestType>,
    status: ContributionStatus,
    businessTrack: Option<BusinessTracks.BusinessTrack>,
    githubIssueNumber: Option<int>,
    githubRepository: Option<string>,
    githubUrl: Option<string>,
    experiencePoints: int,
    difficultyLevel: int,
    estimatedHours: Option<real>,
    actualHours: Option<real>,
    consciousnessImpactScore: Option<real>,
    synchronicityFactor: Option<real>,
    createdAt: int,
    startedAt: Option<int>,
    completedAt: Option<int>,
    dueDate: Option<int>)

  /** The no-argument constructor at clock reading `now`: proposed, difficulty 1, no XP. */
  function NewContribution(now: int): (c: Contribution)
    ensures c.status == Proposed && c.createdAt == now
    ensures c.difficultyLevel == 1 && c.experiencePoints == 0
    ensures c.questType.None? && c.startedAt.None? && c.completedAt.None?
  {
    Contribution(None, None, None, None, None, Proposed, None, None, None, None,
                 0, 1, None, None, None, None, now, None, None, None)
  }

  /** The three-argument constructor: user, title and quest type on top of the defaults. */
  function NewQuest(userId: string, title: string, questType: QuestType, now: int): (c: Contribution)
    ensures c.status == Proposed && c.userId == Some(userId)
    ensures c.title == Some(title) && c.questType == Some(questType)
    ensures c == NewContribution(now).(userId := c.userId, title := c.title, questType := c.questType)
  {
    NewContribution(now).(userId := Some(userId), title := Some(title), questType := Some(questType))
  }

  /** Position of a status along the lifecycle. */
  function StatusRank(s: ContributionStatus): nat {
    match s
    case Proposed => 0
    case InProgress => 1
    case Review => 2
    case Completed => 3
    case Archived => 4
  }

  /** Proposed work starts (stamped `now`); anything else is left alone. */
  function StartContribution(c: Contribution, now: int): (d: Contribution)
    ensures c.status == Proposed ==> d.status == InProgress && d.startedAt == Some(now)
    ensures c.status != Proposed ==> d == c
    ensures d == c.(status := d.status, startedAt := d.startedAt)
  {
    if c.status == Proposed then c.(status := InProgress, startedAt := Some(now)) else c
  }

  /** Work in progress goes to review; anything else is left alone. */
  function SubmitForReview(c: Contribution): (d: Contribution)
    ensures c.status == InProgress ==> d.status == Review
    ensures c.status != InProgress ==> d == c
    ensures d == c.(status := d.status)
  {
    if c.status == InProgress then c.(status := Review) else c
  }

  /** The bonus table indexed by difficulty. */
  const FibonacciBonus: seq<int> := [0, 1, 1, 2, 3, 5, 8, 13, 21, 34, 55]

  lemma FibonacciBonusIsFib(d: int)
    requires 0 <= d < |FibonacciBonus|
    ensures FibonacciBonus[d] == ConsciousnessLevels.Fib(d)
  {
    assert FibonacciBonus == ConsciousnessLevels.FibonacciTable[..11];
    ConsciousnessLevels.FibonacciTableIsFib(d);
  }

  /** The points before any modifier: ten per difficulty level, plus five
      times the difficulty's Fibonacci number while the bonus table reaches. */
  function BasePoints(difficulty: nat): int {
    10 * difficulty + (if difficulty <= 10 then 5 * ConsciousnessLevels.Fib(difficulty) else 0)
  }

  /** A synchronicity factor that is null or at most 0.8 earns no bonus. */
  predicate NoSynchronicityBonus(synchronicity: Option<real>) {
    synchronicity.None? || synchronicity.value <= 0.8
  }

  /** `calculateExperiencePoints`: the base points scaled by `1 + impact` and
      then by 1.618 when synchronicity exceeds 0.8, truncating after each
      scaling. A negative difficulty indexes the bonus table out of bounds. */
  function ExperiencePointsFor(difficulty: int, impact: Option<real>, synchronicity: Option<real>): (r: Result<int>)
    ensures r.Err? <==> difficulty < 0
    ensures r.Err? ==> r.error == IndexOutOfBounds
    ensures 0 <= difficulty <= 10 && impact.None? && NoSynchronicityBonus(synchronicity) ==>
              r == Ok(10 * difficulty + 5 * ConsciousnessLevels.Fib(difficulty))
    ensures difficulty > 10 && impact.None? && NoSynchronicityBonus(synchronicity) ==> r == Ok(10 * difficulty)
    ensures difficulty >= 0 && (impact.None? || impact.value >= 0.0) ==> r.Ok? && r.value >= BasePoints(difficulty)
  {
    if difficulty < 0 then Err(IndexOutOfBounds)
    else
      var base := 10 * difficulty;
      var withBonus :=
        if difficulty < |FibonacciBonus| then
          FibonacciBonusIsFib(difficulty);
          base + FibonacciBonus[difficulty] * 5
        else base;
      assert withBonus == BasePoints(difficulty) && withBonus >= 0;
      var withImpact := if impact.Some? then ScalePoints(withBonus, 1.0 + impact.value) else withBonus;
      var withSync :=
        if synchronicity.Some? && synchronicity.value > 0.8 then ScalePoints(withImpact, 1.618) else withImpact;
      Ok(withSync)
  }

  /** An impact factor scales the base points by `1 + impact`, truncated to
      the integer just below the product. */
  lemma ImpactScalesBasePoints(difficulty: int, impact: real, synchronicity: Option<real>)
    requires difficulty >= 0 && impact >= -1.0 && NoSynchronicityBonus(synchronicity)
    ensures var r := ExperiencePointsFor(difficulty, Some(impact), synchronicity);
            r.Ok? && r.value as real <= BasePoints(difficulty) as real * (1.0 + impact) < r.value as real + 1.0
  {
    ImpactWithoutSynchronicity(difficulty, impact, synchronicity);
    var p := ScalePoints(BasePoints(difficulty), 1.0 + impact);
    assert p as real <= BasePoints(difficulty) as real * (1.0 + impact) < p as real + 1.0;
  }

  /** Without a synchronicity bonus the impact scaling is the last step. */
  lemma ImpactWithoutSynchronicity(difficulty: int, impact: real, synchronicity: Option<real>)
    requires difficulty >= 0 && NoSynchronicityBonus(synchronicity)
    ensures ExperiencePointsFor(difficulty, Some(impact), synchronicity)
            == Ok(ScalePoints(BasePoints(difficulty), 1.0 + impact))
  {
    if difficulty < |FibonacciBonus| {
      FibonacciBonusIsFib(difficulty);
    }
  }

  /** A synchronicity above 0.8 multiplies the otherwise earned points by the
      golden ratio 1.618, truncated; one at most 0.8 counts as none. */
  lemma SynchronicityBonus(difficulty: int, impact: Option<real>, s: real)
    requires difficulty >= 0
    ensures s > 0.8 ==> ExperiencePointsFor(difficulty, impact, Some(s))
                        == Ok(ScalePoints(ExperiencePointsFor(difficulty, impact, None).value, 1.618))
    ensures s <= 0.8 ==> ExperiencePointsFor(difficulty, impact, Some(s)) == ExperiencePointsFor(difficulty, impact, None)
  {
  }

  /** Difficulty 1 earns 15 points, 30 with impact 1, and 48 when a
      synchronicity of 0.9 adds the golden-ratio bonus; 0.8 adds nothing. */
  lemma ExperiencePointsScenarios()
    ensures ExperiencePointsFor(1, None, None) == Ok(15)
    ensures ExperiencePointsFor(1, Some(1.0), None) == Ok(30)
    ensures ExperiencePointsFor(1, Some(1.0), Some(0.9)) == Ok(48)
    ensures ExperiencePointsFor(1, None, Some(0.8)) == Ok(15)
  {
  }

  /** A point count scaled by a `double` factor and cast back to `int`;
      a factor of at least one never loses points, and a non-negative product
      is truncated to the integer just below it. */
  function ScalePoints(points: int, factor: real): (r: int)
    ensures points >= 0 && factor >= 1.0 ==> r >= points
    ensures points >= 0 && factor >= 0.0 ==> r as real <= points as real * factor < r as real + 1.0
  {
    assert points >= 0 && factor >= 0.0 ==> points as real * factor >= 0.0;
    assert points >= 0 && factor >= 1.0 ==> points as real * factor >= points as real * 1.0;
    TruncToInt(points as real * factor)
  }

  /** In progress or in review: completes at `now` with the given hours and
      recomputes the experience points; anything else is left alone. */
  function CompleteContribution(c: Contribution, actualHours: Option<real>, now: int): (r: Result<Contribution>)
    ensures c.status != Review && c.status != InProgress ==> r == Ok(c)
    ensures (c.status == Review || c.status == InProgress) ==>
              (r.Ok? <==> c.difficultyLevel >= 0)
    ensures (c.status == Review || c.status == InProgress) && r.Ok? ==>
              r.value.status == Completed && r.value.completedAt == Some(now)
              && r.value.actualHours == actualHours
              && Ok(r.value.experiencePoints)
                 == ExperiencePointsFor(c.difficultyLevel, c.consciousnessImpactScore, c.synchronicityFactor)
              && r.value == c.(status := Completed, completedAt := Some(now), actualHours := actualHours,
                               experiencePoints := r.value.experiencePoints)
  {
    if c.status == Review || c.status == InProgress then
      match ExperiencePointsFor(c.difficultyLevel, c.consciousnessImpactScore, c.synchronicityFactor)
      case Err(e) => Err(e)
      case Ok(xp) =>
        Ok(c.(status := Completed, completedAt := Some(now), actualHours := actualHours,
              experiencePoints := xp))
    else Ok(c)
  }

  /** With no modifiers the points rise strictly with difficulty from 1 to 10,
      and fall back to ten per level once the bonus table runs out. */
  lemma ExperiencePointsIncreasing(d: int, e: int)
    requires 1 <= d < e <= 10
    ensures ExperiencePointsFor(d, None, None).value < ExperiencePointsFor(e, None, None).value
    ensures ExperiencePointsFor(10, None, None) == Ok(375)
    ensures ExperiencePointsFor(11, None, None) == Ok(110)
  {
    FibMonotone(d, e);
    ConsciousnessLevels.FibonacciTableIsFib(10);
  }

  lemma {:induction false} FibMonotone(d: nat, e: nat)
    requires d <= e
    ensures ConsciousnessLevels.Fib(d) <= ConsciousnessLevels.Fib(e)
    decreases e - d
  {
    if d < e {
      FibMonotone(d, e - 1);
      if e >= 2 {
        assert ConsciousnessLevels.Fib(e) == ConsciousnessLevels.Fib(e - 1) + ConsciousnessLevels.Fib(e - 2);
      }
    }
  }

  /** Completed or archived. */
  predicate IsCompleted(c: Contribution) {
    c.status == Completed || c.status == Archived
  }

  /** In progress or in review. */
  predicate IsActive(c: Contribution) {
    c.status == InProgress || c.status == Review
  }

  lemma CompletedAndActiveDisjoint(c: Contribution)
    ensures !(IsCompleted(c) && IsActive(c))
  {
  }

  /** Records the repository, issue number and URL; nothing else changes. */
  function LinkToGitHubIssue(c: Contribution, repository: Option<string>, issueNumber: int,
                             url: Option<string>): (d: Contribution)
    ensures IsLinkedToGitHub(d) <==> repository.Some?
    ensures d.githubIssueNumber == Some(issueNumber) && d.githubUrl == url
    ensures d == c.(githubRepository := repository, githubIssueNumber := d.githubIssueNumber, githubUrl := url)
  {
    c.(githubRepository := repository, githubIssueNumber := Some(issueNumber), githubUrl := url)
  }

  predicate IsLinkedToGitHub(c: Contribution) {
    c.githubIssueNumber.Some? && c.githubRepository.Some?
  }

  /** `calculateConsciousnessImpact`: 0.5 plus a bonus for the quest type, times
      1.2 with a business track, capped at 2.0. A missing quest type makes the
      `switch` throw. */
  function CalculateConsciousnessImpact(c: Contribution): (r: Result<Contribution>)
    ensures r.Err? <==> c.questType.None?
    ensures r.Err? ==> r.error == NullPointer
    ensures r.Ok? ==> r.value == c.(consciousnessImpactScore := r.value.consciousnessImpactScore)
    ensures r.Ok? ==> r.value.consciousnessImpactScore.Some?
    ensures r.Ok? ==> 0.8 <= r.value.consciousnessImpactScore.value <= 1.2
    ensures r.Ok? && c.businessTrack.None? ==> r.value.consciousnessImpactScore.value <= 1.0
    ensures r.Ok? && c.questType == Some(LeadershipQuest) ==>
              forall q :: q != LeadershipQuest ==> ImpactOf(q, c.businessTrack) < r.value.consciousnessImpactScore.value
  {
    match c.questType
    case None => Err(NullPointer)
    case Some(q) => Ok(c.(consciousnessImpactScore := Some(ImpactOf(q, c.businessTrack))))
  }

  /** The impact score for a quest type and optional track. */
  function ImpactOf(q: QuestType, track: Option<BusinessTracks.BusinessTrack>): (x: real)
    ensures 0.8 <= x <= 1.2
  {
    var typeBonus :=
      match q
      case PlatformQuest => 0.3
      case CommunityQuest => 0.4
      case LeadershipQuest => 0.5
      case HybridQuest => 0.4;
    var impact := 0.5 + typeBonus;
    var scaled := if track.Some? then impact * 1.2 else impact;
    MinReal(scaled, 2.0)
  }

  /** No lifecycle operation moves a contribution backwards. */
  lemma LifecycleMonotone(c: Contribution, hours: Option<real>, now: int)
    ensures StatusRank(StartContribution(c, now).status) >= StatusRank(c.status)
    ensures StatusRank(SubmitForReview(c).status) >= StatusRank(c.status)
    ensures CompleteContribution(c, hours, now).Ok? ==>
              StatusRank(CompleteContribution(c, hours, now).value.status) >= StatusRank(c.status)
  {
  }

  /** A fresh quest goes start, review, complete; completing again changes nothing. */
  lemma HappyPathCompletes(userId: string, title: string, q: QuestType, t0: int, t1: int, t2: int)
    ensures var c := SubmitForReview(StartContribution(NewQuest(userId, title, q, t0), t1));
            var done := CompleteContribution(c, None, t2);
            done.Ok? && done.value.status == Completed && IsCompleted(done.value)
            && done.value.experiencePoints == 15
            && CompleteContribution(done.value, None, t2) == done
  {
    ConsciousnessLevels.FibonacciTableIsFib(1);
  }

  /** Number of completed (not archived) contributions in a list. */
  function CountCompleted(cs: seq<Contribution>): (n: nat)
    ensures n <= |cs|
    ensures n == |cs| <==> forall i :: 0 <= i < |cs| ==> cs[i].status == Completed
    ensures n == 0 <==> forall i :: 0 <= i < |cs| ==> cs[i].status != Completed
  {
    if cs == [] then 0
    else (if cs[|cs| - 1].status == Completed then 1 else 0) + CountCompleted(cs[..|cs| - 1])
  }

  /** Counting distributes over concatenation. */
  lemma {:induction false} CountCompletedAppend(a: seq<Contribution>, b: seq<Contribution>)
    ensures CountCompleted(a + b) == CountCompleted(a) + CountCompleted(b)
    decreases |b|
  {
    if b != [] {
      assert (a + b)[..|a + b| - 1] == a + b[..|b| - 1];
      CountCompletedAppend(a, b[..|b| - 1]);
    } else {
      assert a + b == a;
    }
  }
}

=== FILE: syntopia_user.dfy ===
/** A platform user: level gates, business tracks, codon-ring memberships and
    roles. */
module Users {
  import opened Wrappers
  import opened Enums
  import ConsciousnessLevels
  import Contributions
  import BusinessTracks
  import CodonRings
  import Preferences

  /** Timestamps are nanoseconds. Encrypted fields and password handling are not
      part of the model. */
  datatype User = User(
    id: Option<string>,
    username: Option<string>,
    email: Option<string>,
    passwordHash: Option<string>,
    consciousnessLevelName: Option<string>,
    currentLevel: Option<ConsciousnessLevels.Level>,
    contributions: seq<Contributions.Contribution>,
    codonRingMemberships: set<CodonRings.CodonRing>,
    primaryBusinessTrack: Option<BusinessTracks.BusinessTrack>,
    secondaryBusinessTracks: set<BusinessTracks.BusinessTrack>,
    preferences: Option<Preferences.UserPreferences>,
    createdAt: int,
    lastActiveAt: int,
    profileCompletedAt: Option<int>)

  /** The no-argument constructor at clock reading `now`: SCL 1 and default preferences. */
  function NewUser(now: int): (u: User)
    ensures u.currentLevel.Some? && ConsciousnessLevels.Canonical(u.currentLevel.value)
    ensures GetCurrentScl(u) == 1
    ensures u.preferences == Some(Preferences.DefaultPreferences())
    ensures u.contributions == [] && u.primaryBusinessTrack.None? && u.secondaryBusinessTracks == {}
    ensures u.codonRingMemberships == {} && u.profileCompletedAt.None?
    ensures u.createdAt == now && u.lastActiveAt == now
  {
    User(None, None, None, None, Some("AWAKENING"),
         Some(ConsciousnessLevels.SetLevel(1).value), [], {}, None, {},
         Some(Preferences.DefaultPreferences()), now, now, None)
  }

  /** The three-argument constructor: credentials on top of the defaults. */
  function NewUserWith(username: string, email: string, passwordHash: string, now: int): (u: User)
    ensures GetCurrentScl(u) == 1
    ensures u == NewUser(now).(username := Some(username), email := Some(email),
                               passwordHash := Some(passwordHash))
  {
    NewUser(now).(username := Some(username), email := Some(email), passwordHash := Some(passwordHash))
  }

  /** The profile check is stubbed out: it never holds. */
  function HasCompletedHologeneticProfile(u: User): (b: bool)
    ensures !b
  {
    false
  }

  /** `hasRequiredContributionsForLevel`: false from 25 on; otherwise whether the
      number of COMPLETED contributions reaches `table[targetLevel]`. A negative
      target indexes the table out of bounds. */
  function HasRequiredContributionsForLevel(u: User, targetLevel: int): (r: Result<bool>)
    ensures r.Err? <==> targetLevel < 0
    ensures targetLevel >= 25 ==> r == Ok(false)
    ensures 0 <= targetLevel < 25 ==>
              r == Ok(Contributions.CountCompleted(u.contributions) >= ConsciousnessLevels.Fib(targetLevel))
  {
    if targetLevel >= |ConsciousnessLevels.FibonacciTable| then Ok(false)
    else if targetLevel < 0 then Err(IndexOutOfBounds)
    else
      ConsciousnessLevels.FibonacciTableIsFib(targetLevel);
      Ok(Contributions.CountCompleted(u.contributions) >= ConsciousnessLevels.FibonacciTable[targetLevel])
  }

  /** `canProgressToLevel`: false without a level; otherwise a higher target,
      enough contributions and a completed profile, evaluated left to right. */
  function CanProgressToLevel(u: User, targetLevel: int): (r: Result<bool>)
    ensures r.Ok? ==> !r.value
    ensures r.Err? <==> u.currentLevel.Some? && u.currentLevel.value.level < targetLevel < 0
    ensures u.currentLevel.Some? && ConsciousnessLevels.Valid(u.currentLevel.value) ==> r == Ok(false)
  {
    if u.currentLevel.None? then Ok(false)
    else if !(u.currentLevel.value.level < targetLevel) then Ok(false)
    else
      match HasRequiredContributionsForLevel(u, targetLevel)
      case Err(e) => Err(e)
      case Ok(enough) => Ok(enough && HasCompletedHologeneticProfile(u))
  }

  /** `progressToNextLevel`: moves up one level when allowed, which never happens. */
  function ProgressToNextLevel(u: User): (r: Result<User>)
    ensures r.Ok? ==> r.value == u
    ensures u.currentLevel.None? || ConsciousnessLevels.Valid(u.currentLevel.value) ==> r == Ok(u)
  {
    if u.currentLevel.None? then Ok(u)
    else
      match CanProgressToLevel(u, u.currentLevel.value.level + 1)
      case Err(e) => Err(e)
      case Ok(may) =>
        match (may, ConsciousnessLevels.SetLevel(u.currentLevel.value.level + 1))
        case (true, Ok(next)) => Ok(u.(currentLevel := Some(next)))
        case (true, Err(e)) => Err(e)
        case (false, _) => Ok(u)
  }

  /** The contribution table the user gate reads at index `L` is the requirement
      the level definitions record for level `L + 1`: reaching level `L` asks
      for as many completed contributions as the definitions ask for `L + 1`,
      strictly more than their own figure for `L` from level 3 on. */
  lemma UserGateIsOneLevelAhead(targetLevel: int)
    requires 1 <= targetLevel <= 24
    ensures ConsciousnessLevels.FibonacciTable[targetLevel]
         == ConsciousnessLevels.SclDefinitions[targetLevel].requiredContributions
    ensures targetLevel >= 3 ==>
              ConsciousnessLevels.FibonacciTable[targetLevel]
              > ConsciousnessLevels.SclDefinitions[targetLevel - 1].requiredContributions
  {
    ConsciousnessLevels.FibonacciTableIsFib(targetLevel);
    ConsciousnessLevels.FibonacciTableIsFib(targetLevel - 1);
    ConsciousnessLevels.DefinitionsFollowFibonacci(targetLevel + 1);
    ConsciousnessLevels.DefinitionsFollowFibonacci(targetLevel);
    if targetLevel >= 3 {
      assert ConsciousnessLevels.Fib(targetLevel - 2) > 0 by {
        FibPositive(targetLevel - 2);
      }
    }
  }

  lemma {:induction false} FibPositive(n: nat)
    requires n >= 1
    ensures ConsciousnessLevels.Fib(n) >= 1
  {
    if n >= 3 {
      FibPositive(n - 1);
    }
  }

  /** The gate table never decreases, and level 25 can never be reached. */
  lemma GateTableNonDecreasing(u: User, a: int, b: int)
    requires 0 <= a <= b < 25
    ensures ConsciousnessLevels.FibonacciTable[a] <= ConsciousnessLevels.FibonacciTable[b]
    ensures HasRequiredContributionsForLevel(u, 25) == Ok(false)
  {
    ConsciousnessLevels.FibonacciTableRecurrence();
    assert forall i :: 1 <= i < 25 ==> ConsciousnessLevels.FibonacciTable[i - 1] <= ConsciousnessLevels.FibonacciTable[i];
    TableChain(a, b);
  }

  lemma {:induction false} TableChain(a: int, b: int)
    requires 0 <= a <= b < 25
    requires forall i :: 1 <= i < 25 ==> ConsciousnessLevels.FibonacciTable[i - 1] <= ConsciousnessLevels.FibonacciTable[i]
    ensures ConsciousnessLevels.FibonacciTable[a] <= ConsciousnessLevels.FibonacciTable[b]
    decreases b - a
  {
    if a < b {
      TableChain(a, b - 1);
    }
  }

  /** A primary track and SCL 5 or more. */
  predicate CanAdvanceInBusinessTrack(u: User) {
    u.primaryBusinessTrack.Some? && u.currentLevel.Some? && u.currentLevel.value.level >= 5
  }

  /** Adds a secondary track when the user may advance, the track is not the
      primary and fewer than three secondaries exist; otherwise nothing changes. */
  function AddSecondaryBusinessTrack(u: User, track: BusinessTracks.BusinessTrack): (v: User)
    ensures CanAdvanceInBusinessTrack(u) && Some(track) != u.primaryBusinessTrack
            && |u.secondaryBusinessTracks| < 3
            ==> v == u.(secondaryBusinessTracks := u.secondaryBusinessTracks + {track})
    ensures !(CanAdvanceInBusinessTrack(u) && Some(track) != u.primaryBusinessTrack
              && |u.secondaryBusinessTracks| < 3)
            ==> v == u
    ensures |u.secondaryBusinessTracks| <= 3 ==> |v.secondaryBusinessTracks| <= 3
    ensures u.primaryBusinessTrack !in SomeEach(u.secondaryBusinessTracks)
            ==> v.primaryBusinessTrack !in SomeEach(v.secondaryBusinessTracks)
  {
    if CanAdvanceInBusinessTrack(u) && Some(track) != u.primaryBusinessTrack
       && |u.secondaryBusinessTracks| < 3
    then u.(secondaryBusinessTracks := u.secondaryBusinessTracks + {track})
    else u
  }

  /** The secondary tracks, each wrapped as a possible primary. */
  function SomeEach(tracks: set<BusinessTracks.BusinessTrack>): set<Option<BusinessTracks.BusinessTrack>> {
    set t | t in tracks :: Some(t)
  }

  /** Joins a ring from SCL 3 on; a user without a level makes the call throw. */
  function JoinCodonRing(u: User, ring: CodonRings.CodonRing): (r: Result<User>)
    ensures r.Err? <==> u.currentLevel.None?
    ensures r.Err? ==> r.error == NullPointer
    ensures r.Ok? && u.currentLevel.value.level >= 3 ==>
              r.value == u.(codonRingMemberships := u.codonRingMemberships + {ring})
    ensures r.Ok? && u.currentLevel.value.level < 3 ==> r.value == u
  {
    match u.currentLevel
    case None => Err(NullPointer)
    case Some(level) =>
      Ok(if level.level >= 3 then u.(codonRingMemberships := u.codonRingMemberships + {ring}) else u)
  }

  /** Joining the same ring twice is the same as joining it once. */
  lemma JoinCodonRingIdempotent(u: User, ring: CodonRings.CodonRing)
    requires u.currentLevel.Some?
    ensures JoinCodonRing(JoinCodonRing(u, ring).value, ring) == JoinCodonRing(u, ring)
  {
    if u.currentLevel.value.level >= 3 {
      var once := JoinCodonRing(u, ring).value;
      assert once.codonRingMemberships + {ring} == once.codonRingMemberships;
    }
  }

  /** The placeholder ring set. */
  function GetCompatibleCodonRings(u: User): (rings: set<int>)
    ensures rings == {1, 2, 3}
    ensures forall n :: n in rings ==> CodonRings.GetByRingNumber(n).Ok?
  {
    {1, 2, 3}
  }

  /** The placeholder activated keys: four keys, all in 1..64. */
  function GetActivatedGeneKeys(u: User): (keys: seq<int>)
    ensures |keys| == 4
    ensures forall i :: 0 <= i < |keys| ==> 1 <= keys[i] <= 64
    ensures keys == [1, 15, 33, 64]
  {
    [1, 15, 33, 64]
  }

  /** The level number, or 1 without a level. */
  function GetCurrentScl(u: User): (scl: int)
    ensures u.currentLevel.None? ==> scl == 1
    ensures u.currentLevel.Some? ==> scl == u.currentLevel.value.level
    ensures u.currentLevel.Some? && ConsciousnessLevels.Valid(u.currentLevel.value) ==> 1 <= scl <= 25
  {
    if u.currentLevel.Some? then u.currentLevel.value.level else 1
  }

  function TrackRole(t: BusinessTracks.BusinessTrack): string {
    "BUSINESS_TRACK_" + BusinessTracks.Name(t)
  }

  const UserRole := "USER"
  const GuideRole := "CONSCIOUSNESS_GUIDE"
  const LeaderRole := "COMMUNITY_LEADER"

  /** `getRoles`: "USER", then the primary track's role, then the guide and
      leader roles at SCL 10 and 20. */
  function GetRoles(u: User): (roles: seq<string>)
    ensures 1 <= |roles| <= 4 && roles[0] == UserRole
    ensures (exists t :: TrackRole(t) in roles) <==> u.primaryBusinessTrack.Some?
    ensures u.primaryBusinessTrack.Some? ==> TrackRole(u.primaryBusinessTrack.value) in roles
    ensures GuideRole in roles <==> GetCurrentScl(u) >= 10
    ensures LeaderRole in roles <==> GetCurrentScl(u) >= 20
    ensures LeaderRole in roles ==> GuideRole in roles
    ensures forall i :: 0 <= i < |roles| ==>
              roles[i] == UserRole || roles[i] == GuideRole || roles[i] == LeaderRole
              || exists t :: roles[i] == TrackRole(t)
  {
    var track := if u.primaryBusinessTrack.Some? then [TrackRole(u.primaryBusinessTrack.value)] else [];
    var guide := if GetCurrentScl(u) >= 10 then [GuideRole] else [];
    var leader := if GetCurrentScl(u) >= 20 then [LeaderRole] else [];
    RolesDistinct();
    [UserRole] + track + guide + leader
  }

  /** The fixed role names differ from each other and from every track role. */
  lemma RolesDistinct()
    ensures UserRole != GuideRole && UserRole != LeaderRole && GuideRole != LeaderRole
    ensures forall t :: TrackRole(t) != UserRole && TrackRole(t) != GuideRole && TrackRole(t) != LeaderRole
  {
    assert |UserRole| != |GuideRole| && |UserRole| != |LeaderRole| && |GuideRole| != |LeaderRole|;
    forall t ensures TrackRole(t) != UserRole && TrackRole(t) != GuideRole && TrackRole(t) != LeaderRole {
      assert TrackRole(t)[0] == 'B';
    }
  }

  /** `equals` compares ids only, null equal to null. */
  predicate UserEquals(a: User, b: User) {
    a.id == b.id
  }

  /** User equality is an equivalence that looks at the id alone: two users
      with the same id are equal whatever else differs, and a user with an
      id differs from any user without one. */
  lemma UserEqualsIsIdentity(a: User, b: User, c: User)
    ensures UserEquals(a, a)
    ensures UserEquals(a, b) ==> UserEquals(b, a)
    ensures UserEquals(a, b) && UserEquals(b, c) ==> UserEquals(a, c)
    ensures a.id == b.id ==> UserEquals(a, b)
    ensures a.id.Some? && b.id.None? ==> !UserEquals(a, b)
  {
  }
}

=== FILE: user_codon_ring_membership.dfy ===
/** A user's membership in one codon ring community, and its ring-leader flag. */
module RingMemberships {
  import opened Wrappers
  import CodonRings

  /** Timestamps are nanoseconds. */
  datatype Membership = Membership(
    id: Option<string>,
    userId: Option<string>,
    codonRing: Option<CodonRings.CodonRing>,
    primaryGeneKey: Option<int>,
    membershipActivatedAt: Option<int>,
    consciousnessLevelAtActivation: Option<int>,
    isRingLeader: bool,
    leadershipActivatedAt: Option<int>)

  /** The three-argument constructor at clock reading `now`: not a leader. */
  function NewMembership(userId: string, ring: CodonRings.CodonRing, primaryGeneKey: Option<int>,
                         now: int): (m: Membership)
    ensures m.userId == Some(userId) && m.codonRing == Some(ring) && m.primaryGeneKey == primaryGeneKey
    ensures m.membershipActivatedAt == Some(now)
    ensures !m.isRingLeader && m.leadershipActivatedAt.None?
  {
    Membership(None, Some(userId), Some(ring), primaryGeneKey, Some(now), None, false, None)
  }

  /** SCL 15 or more and not yet a leader; a null SCL fails on unboxing. */
  function CanBecomeLeader(m: Membership, currentScl: Option<int>): (r: Result<bool>)
    ensures r.Err? <==> currentScl.None?
    ensures r.Err? ==> r.error == NullPointer
    ensures r.Ok? ==> (r.value <==> currentScl.value >= 15 && !m.isRingLeader)
  {
    match currentScl
    case None => Err(NullPointer)
    case Some(scl) => Ok(scl >= 15 && !m.isRingLeader)
  }

  /** Sets the leader flag and stamps it with `now` when the member may become
      leader; otherwise nothing changes. */
  function ActivateLeadership(m: Membership, currentScl: Option<int>, now: int): (r: Result<Membership>)
    ensures r.Err? <==> currentScl.None?
    ensures r.Ok? && CanBecomeLeader(m, currentScl).value ==>
              r.value == m.(isRingLeader := true, leadershipActivatedAt := Some(now))
    ensures r.Ok? && !CanBecomeLeader(m, currentScl).value ==> r.value == m
    ensures r.Ok? && currentScl.value >= 15 ==> r.value.isRingLeader
  {
    match CanBecomeLeader(m, currentScl)
    case Err(e) => Err(e)
    case Ok(may) => Ok(if may then m.(isRingLeader := true, leadershipActivatedAt := Some(now)) else m)
  }

  /** A second activation changes neither the flag nor the timestamp. */
  lemma ActivateLeadershipIdempotent(m: Membership, scl: int, t1: int, t2: int)
    ensures var once := ActivateLeadership(m, Some(scl), t1).value;
            ActivateLeadership(once, Some(scl), t2) == Ok(once)
  {
  }
}

=== FILE: user_preferences.dfy ===
/** A user's experience preferences: how much gamification to show in which
    platform area, and the privacy level with the permissions it grants. */
module Preferences {
  import opened Wrappers
  import opened Enums

  datatype SacredGeometryTheme =
    | CosmicDeepSpace | ConsciousnessPurple | EnlightenmentGold | NatureGreen | HealingBlue

  /** Enum-typed and string fields have public setters that accept null, so
      they are optional here. */
  datatype UserPreferences = UserPreferences(
    gamificationPreference: Option<GamificationPreference>,
    sacredGeometryTheme: Option<SacredGeometryTheme>,
    languageCode: Option<string>,
    enableConsciousnessMetrics: bool,
    enableSacredTiming: bool,
    enableSynchronicityNotifications: bool,
    professionalModeHours: Option<string>,
    enableGeneKeysInsights: bool,
    privacyLevel: int)

  /** The constructor's defaults: moderate gamification, the deep-space theme,
      German, every toggle on, balanced privacy 3. */
  function DefaultPreferences(): (p: UserPreferences)
    ensures p.gamificationPreference == Some(Moderate)
    ensures p.sacredGeometryTheme == Some(CosmicDeepSpace) && p.languageCode == Some("DE")
    ensures p.enableConsciousnessMetrics && p.enableSacredTiming
    ensures p.enableSynchronicityNotifications && p.enableGeneKeysInsights
    ensures p.privacyLevel == 3 && p.professionalModeHours.None?
    ensures AllowsDataCollection(p) && AllowsAIRecommendations(p)
  {
    UserPreferences(Some(Moderate), Some(CosmicDeepSpace), Some("DE"),
                    true, true, true, None, true, 3)
  }

  /** `shouldShowGamificationIn`: the decision table of preference against the
      area's type. A null preference makes the `switch` throw. */
  function ShouldShowGamificationIn(p: UserPreferences, area: PlatformArea): (r: Result<bool>)
    ensures r.Err? <==> p.gamificationPreference.None?
    ensures r.Err? ==> r.error == NullPointer
    ensures p.gamificationPreference == Some(Disabled) ==> r == Ok(false)
    ensures p.gamificationPreference == Some(Maximum) ==> r == Ok(true)
    ensures r.Ok? && AreaType(area) == NonGamified ==> (r.value <==> p.gamificationPreference == Some(Maximum))
    ensures r.Ok? && AreaType(area) == FullyGamified ==> (r.value <==> p.gamificationPreference != Some(Disabled))
  {
    match p.gamificationPreference
    case None => Err(NullPointer)
    case Some(preference) =>
      var kind := AreaType(area);
      Ok(match preference
         case Disabled => false
         case Professional => kind == FullyGamified
         case Minimal => kind == FullyGamified || kind == PartiallyGamified
         case Moderate => kind != NonGamified
         case Maximum => true)
  }

  /** How much gamification a preference lets through, least first. */
  function PreferenceRank(g: GamificationPreference): nat {
    match g
    case Disabled => 0
    case Professional => 1
    case Minimal => 2
    case Moderate => 3
    case Maximum => 4
  }

  /** The areas shown grow with the preference:
      Disabled ⊆ Professional ⊆ Minimal ⊆ Moderate ⊆ Maximum. */
  lemma ShownAreasNested(p: UserPreferences, weaker: GamificationPreference,
                         stronger: GamificationPreference, area: PlatformArea)
    requires PreferenceRank(weaker) <= PreferenceRank(stronger)
    requires ShouldShowGamificationIn(p.(gamificationPreference := Some(weaker)), area) == Ok(true)
    ensures ShouldShowGamificationIn(p.(gamificationPreference := Some(stronger)), area) == Ok(true)
  {
  }

  /** `setPrivacyLevel`: values outside 1..5 raise `IllegalArgumentException`
      and leave the preferences as they were. */
  function SetPrivacyLevel(p: UserPreferences, level: int): (r: Result<UserPreferences>)
    ensures r.Ok? <==> 1 <= level <= 5
    ensures r.Err? ==> r.error == IllegalArgument
    ensures r.Ok? ==> r.value.privacyLevel == level && r.value == p.(privacyLevel := r.value.privacyLevel)
  {
    if level < 1 || level > 5 then Err(IllegalArgument) else Ok(p.(privacyLevel := level))
  }

  /** Levels 1-3 allow some data collection. */
  predicate AllowsDataCollection(p: UserPreferences) {
    p.privacyLevel <= 3
  }

  /** Levels up to 4, and only with gene-key insights enabled. */
  predicate AllowsAIRecommendations(p: UserPreferences) {
    p.privacyLevel <= 4 && p.enableGeneKeysInsights
  }

  /** Data collection plus insights implies AI recommendations; raising the
      privacy level never grants a permission. */
  lemma PermissionsFollowPrivacy(p: UserPreferences, level: int)
    ensures AllowsDataCollection(p) && p.enableGeneKeysInsights ==> AllowsAIRecommendations(p)
    ensures level >= p.privacyLevel && SetPrivacyLevel(p, level).Ok? ==>
              (AllowsDataCollection(SetPrivacyLevel(p, level).value) ==> AllowsDataCollection(p))
              && (AllowsAIRecommendations(SetPrivacyLevel(p, level).value) ==> AllowsAIRecommendations(p))
  {
  }
}

=== FILE: wrappers.dfy ===
/** Failure-carrying datatypes that stand in for Java's `null` and for the
    exceptions the modelled code throws. */
module Wrappers {

  /** A Java reference that may be `null`. */
  datatype Option<+T> = None | Some(value: T) {
    function GetOr(default: T): T {
      match this
      case Some(v) => v
      case None => default
    }
  }

  /** The Java exceptions the modelled code can raise. */
  datatype JavaError =
    | NullPointer          // unboxing or dereferencing a null reference
    | IndexOutOfBounds     // an array index outside the array
    | IllegalArgument      // an `IllegalArgumentException`
    | NotFound             // a `RuntimeException` for an id the repository does not know

  /** Either a normal return value or the exception that was thrown. */
  datatype Result<+T> = Ok(value: T) | Err(error: JavaError)

  /** A Java `double` that may be NaN (the only IEEE special value the model
      needs: `0.0 / 0` in the profile resonance). */
  datatype Double = Finite(v: real) | NaN
}
